=== FILE: README.md ===
# MeetingActions core, modelled in Dafny

MeetingActions turns meeting notes into action items and dispatches each item
to an agent service. This project models the logic that decides what happens
along the way. It leaves out the I/O around that logic.

It covers three groups of logic.

- **The resilience layer.** This is the circuit breaker (CLOSED / OPEN /
  HALF_OPEN) and its registry. It is the retry decorator: four backoff formulas,
  an attempt loop and an exhaustion error. It is the platform exception
  hierarchy, and the ordered mapping from exceptions to HTTP statuses. The
  dispatch workflow stacks retry outside the breaker, and that composition is
  modelled as written.
- **Progressive reduction of long notes.** This is the reduction-target planner
  and the summary pass with its truncation fallback. It is chunk summarisation
  and the pass loop with its result and warnings. It is also the token helpers:
  counting with a character fallback, prefix and suffix truncation, the
  overlapping chunker, and the summarise-or-not test.
- **Pure rules inside the I/O code.** This is the Google Docs structure
  flattener and the attachment filter. It is the document length gate behind
  the cache, and the agent lookups by name and by id. It covers the routing and
  result rules of the three workflows, the retry guard and brace extraction of
  the action-items workflow, and the configuration validators.

The clock, the jitter draws, the language model, the tokenizer, the agent
registry and HTTP all become parameters. Each is a value, or a function from the
attempt or input to an outcome. The breaker is an explicit transition function
that takes `now`. Retry is a recursive function over a scripted sequence of
attempt outcomes.

Files and modules:

| file | module | models |
|---|---|---|
| wrappers.dfy | Wrappers | `Option` and `Result` |
| pyops.dfy | PyOps | the Python built-ins the code relies on: `min`/`max`, `int()` truncation, slicing with negative indices, ASCII `strip`/`lower`, substring `in`, `urljoin` onto an absolute path |
| exceptions.dfy | Exceptions | the exception hierarchy, constructors and `to_dict`, and `isinstance` against it and against the built-in and httpx classes the code names |
| error_handler.dfy | ErrorHandler | `handle_error_response`, `ErrorContext` exit, `safe_execute` |
| circuit_breaker.dfy | CircuitBreaker | the breaker, its registry and the decorator's choices |
| retry.dfy | Retry | backoff formulas and the `with_retry` loop |
| agent_dispatch.dfy | AgentDispatch | the agent dispatch workflow, with retry over the breaker |
| token_utils.dfy | TokenUtils | `count_tokens`, truncation, chunking, `should_summarize_notes` |
| progressive.dfy | Progressive | progressive summarisation |
| google_docs.dfy | GoogleDocs | the flattener, the attachment filter, the fetch length gate |
| agent_lookup.dfy | AgentLookup | `_find_agent_by_name` (one rule, two copies) |
| notes_orchestrator.dfy | NotesOrchestrator | routing in the notes-and-generation orchestrator |
| action_items.dfy | ActionItemsFlow | the action-items workflow's rules |
| read_config.dfy | ReadConfig | the Pydantic configuration schemas |

Several core files exist in two or three identical copies:

- `src/core/base/{circuit_breaker,retry,exceptions}.py` and
  `src/shared/resilience/{circuit_breaker,retry,exceptions}.py` have the same
  line numbers. Only an import differs.
- The flattener exists in `src/integrations/google_tools/google_tools.py`,
  `src/tools/google_tools/docs_tools.py` and
  `base/tools/google_tools/google_docs_tools_specs.py`.
- `_find_agent_by_name` exists in the orchestrator and in the action-items
  workflow.

One model serves every copy. The table cites the first copy, and a few rows cite
the others.

Where the documentation and the code disagree, the model follows the code:

- Backoff attempts are 0-indexed.
- The jittered delay is not clamped to `max_delay`; it can exceed it by up to
  10%. The constant delay ignores `max_delay`.
- With no `retryable_exceptions`, the docstring says every exception is retried.
  The code retries only `RetryableError`, `TimeoutError`, `ConnectionError` and
  `asyncio.TimeoutError`.
- Every counted failure records `last_failure_time`, not only the one that
  opens the breaker. `failure_count` is not reset on entering HALF_OPEN.
- Retry wraps the breaker, not the other way round.
- The planner always returns `min(max_passes, 3)` targets. A pass stops the loop
  only when its division by a zero input count raises.
- `reduction_ratio` is `(in - out) / in`, the share removed, not the share kept.
- Without an `attachments` key, the attachment filter returns the string
  "Event has no attachments.", not an empty list.
- Defaults of the Pydantic schemas are not validated. A port taken from the
  environment is never range-checked.

## Model

| member | source | states |
|---|---|---|
| Exceptions.HierarchyDepth | src/core/base/exceptions.py:49-165 | every class sits at most two levels below `MeetingActionsError` |
| Exceptions.NewError | src/core/base/exceptions.py:15-34 | an empty or missing `error_code` becomes the class name; a missing context becomes the empty dict; the message is kept |
| Exceptions.NewCircuitOpenError | src/core/base/exceptions.py:133-143 | the default message is "Circuit breaker is OPEN - too many failures", and `retry_after` is stored as given (default None) |
| Exceptions.NewMaxRetriesError | src/core/base/exceptions.py:153-165 | `attempts` and `last_error` are stored alongside the base attributes |
| Exceptions.ToDictOfNewError | src/core/base/exceptions.py:36-43 | `to_dict` of a new error has exactly the keys error (class name), message, error_code and context |
| Exceptions.EveryClassIsPlatformError | src/core/base/exceptions.py:49-165 | every class is a `MeetingActionsError`, and the four Agent classes are `AgentError`s |
| Exceptions.FamiliesDisjoint | src/core/base/exceptions.py:49-126 | the Agent, Workflow, ExternalService and CircuitBreaker families share no class, so the mapping's order only matters for the fallback |
| Exceptions.LeafClasses | src/core/base/exceptions.py:129-165 | `CircuitOpenError`, `MaxRetriesExceededError` and `RetryableError` have no subclasses, and `CircuitBreakerError` has only `CircuitOpenError` |
| ErrorHandler.HandleErrorResponse | src/core/base/error_handler.py:185-248 | the first matching family decides: circuit open 503 with Retry-After only for a truthy delay; max retries and Agent 503; Workflow 500; ExternalService 502; other platform errors and foreign exceptions the default; foreign ones get `{error, message}` |
| ErrorHandler.PlatformStatus | src/core/base/error_handler.py:198-235 | the status of a platform error by family: 503 for circuit open, max retries and Agent, 500 for Workflow, 502 for ExternalService, the default otherwise |
| ErrorHandler.MappingMatchesTable | src/core/base/error_handler.py:198-235 | the ordered `isinstance` chain gives the same status as a table keyed by the concrete class |
| ErrorHandler.RetryAfterOnlyWhenOpen | src/core/base/error_handler.py:198-207 | a Retry-After header appears only for a `CircuitOpenError` whose `retry_after` is present and non-zero |
| ErrorHandler.ExitErrorContext | src/core/base/error_handler.py:121-182 | the exit never suppresses; a platform error gets the context merged in and `operation` set; any other exception and a clean exit are left alone |
| ErrorHandler.NestedContextsOuterWins | src/core/base/error_handler.py:156-182 | after two nested contexts the outer operation name is the one left on the error |
| ErrorHandler.SafeExecute | src/core/base/error_handler.py:251-286 | a result passes through; an exception is re-raised with `raise_on_error`, else it becomes None |
| ErrorHandler.SafeExecuteTransparency | src/core/base/error_handler.py:289-324 | with `raise_on_error` the wrapper is the identity on outcomes; without it, it never fails (the async copy is the same logic) |
| CircuitBreaker.New | src/core/base/circuit_breaker.py:67-71 | a new breaker is CLOSED with both counters 0 and no last-failure time |
| CircuitBreaker.Rejection | src/core/base/circuit_breaker.py:114-132 | a rejection is a well-formed `CircuitOpenError` with code CIRCUIT_OPEN and the computed `retry_after` |
| CircuitBreaker.Admit | src/core/base/circuit_breaker.py:83-132 | CLOSED and HALF_OPEN admit unchanged; OPEN past the timeout moves to HALF_OPEN with the success count zeroed; otherwise OPEN rejects |
| CircuitBreaker.OnSuccess | src/core/base/circuit_breaker.py:150-170 | CLOSED zeroes the failure count; HALF_OPEN counts up and closes with both counters zeroed at the threshold; OPEN is unchanged |
| CircuitBreaker.OnFailure | src/core/base/circuit_breaker.py:172-198 | the failure count rises by one and the time is recorded; HALF_OPEN reopens with successes zeroed; otherwise the breaker opens at the threshold |
| CircuitBreaker.Call | src/core/base/circuit_breaker.py:90-148 | the function runs exactly when the breaker is not OPEN inside its window; its outcome is returned as is; only expected exceptions count as failures |
| CircuitBreaker.CallPreservesValid | src/core/base/circuit_breaker.py:90-198 | every call keeps the invariant: counters within bounds, and OPEN implies a recorded failure time |
| CircuitBreaker.OpenRejectsIndependently | src/core/base/circuit_breaker.py:83-132 | inside the window, a call leaves the breaker unchanged and never runs the function; `retry_after` is the truncated remaining time, or the whole timeout without a failure time |
| CircuitBreaker.RetryAfterBounds | src/core/base/circuit_breaker.py:114-132 | inside the window the advertised delay is non-negative and at most the remaining time |
| CircuitBreaker.TimeoutAdmitsProbe | src/core/base/circuit_breaker.py:107-113 | past the timeout the same call is executed as a HALF_OPEN probe, and its outcome decides the next state |
| CircuitBreaker.RunFromNewIsValid | src/core/base/circuit_breaker.py:67-198 | any sequence of calls from a new breaker ends valid, and OPEN then has a failure time |
| CircuitBreaker.RunPreservesValid | src/core/base/circuit_breaker.py:90-198 | any sequence of calls keeps the invariant |
| CircuitBreaker.HalfOpenCountsSuccesses | src/shared/resilience/circuit_breaker.py:150-170 | successes below the threshold only raise the HALF_OPEN success count |
| CircuitBreaker.HalfOpenClosesAfterThreshold | src/shared/resilience/circuit_breaker.py:150-170 | exactly `success_threshold` successes close a fresh probe with both counters 0 |
| CircuitBreaker.RunAppend | src/core/base/circuit_breaker.py:90-148 | running two sequences of calls is running their concatenation |
| CircuitBreaker.ConsecutiveFailuresOpen | src/core/base/circuit_breaker.py:172-198 | from CLOSED, counted failures keep it closed below the threshold and open it on reaching it |
| CircuitBreaker.Reset | src/core/base/circuit_breaker.py:200-206 | a reset breaker equals a new one with the same configuration |
| CircuitBreaker.StatsDetermineBreaker | src/core/base/circuit_breaker.py:208-222 | the statistics reflect every field, so equal stats mean equal breakers; a reset shows CLOSED with zero counters |
| CircuitBreaker.GetCircuitBreaker | src/core/base/circuit_breaker.py:229-257 | a known name returns the registered breaker and ignores the new settings; an unknown one registers a new breaker; other entries are untouched |
| CircuitBreaker.GetCircuitBreakerIdempotent | src/shared/resilience/circuit_breaker.py:248-257 | asking twice for a name gives the same breaker and the same registry |
| CircuitBreaker.ResetAll | src/shared/resilience/circuit_breaker.py:327-330 | every registered breaker is back in its initial state, and no name is added or dropped |
| CircuitBreaker.CircuitName | src/core/base/circuit_breaker.py:287-288 | the given name, or `module.function` when it is missing or empty |
| CircuitBreaker.ExpectedFromTuple | src/core/base/circuit_breaker.py:293-295 | only the tuple's first type is used, and `Exception` for an empty tuple |
| CircuitBreaker.DecoratorIgnoresLaterTypes | src/core/base/circuit_breaker.py:286-296 | an exception matching only the second type of the tuple propagates without being counted |
| Retry.ParseStrategy | src/core/base/retry.py:151-152 | a string parses to the member with that value, else `ValueError` |
| Retry.ParseStrategyRoundTrip | src/core/base/retry.py:21-27 | parsing inverts the enum's values and fails on every other string |
| Retry.ExponentialBackoff | src/core/base/retry.py:30-44 | the delay is the smaller of `base * 2^attempt` and the cap |
| Retry.LinearBackoff | src/core/base/retry.py:67-81 | the delay is the smaller of `base * (attempt + 1)` and the cap |
| Retry.ConstantBackoff | src/core/base/retry.py:84-98 | the delay is the base, whatever the cap |
| Retry.AddJitter | src/core/base/retry.py:62-64 | jitter adds between 0 and 10% of the delay, strictly more than 0 for a positive draw |
| Retry.JitterBounds | src/core/base/retry.py:47-64 | the jittered delay lies between the capped delay and 1.1 times it, and can exceed the cap |
| Retry.BackoffMonotone | src/shared/resilience/retry.py:30-81 | exponential and linear delays never shrink as the attempt grows |
| Retry.DefaultRetryableMembers | src/core/base/retry.py:157-163 | the default tuple retries exactly RetryableError (and subclasses), TimeoutError, asyncio.TimeoutError, and ConnectionError with its subclasses (ConnectionResetError, ConnectionRefusedError, ConnectionAbortedError, BrokenPipeError) |
| Retry.ExhaustedError | src/core/base/retry.py:183-200 | exhaustion raises `MaxRetriesExceededError` with `attempts = max_attempts`, the last error and a context of function, args and kwargs (each cut to 100 characters) |
| Retry.FallbackError | src/core/base/retry.py:220-225 | with no attempt run, the error has the last exception seen (None) and no context |
| Retry.RetryFrom | src/core/base/retry.py:171-200 | from attempt k, at most `max_attempts - k` calls and at least one, each starting in the state the previous call left; with no attempt left, no call and the fallback error |
| Retry.RetryFromDecides | src/core/base/retry.py:171-200 | every call before the last failed retryably; the last outcome decides: its value on success, its error when not retried, the exhaustion error only after `max_attempts` calls |
| Retry.StatelessRun | src/core/base/retry.py:171-200 | for a function without state, the calls see attempts 0..n-1 in order, all but the last retried, and the last decides the result |
| Retry.SecondAttemptEscapes | src/core/base/retry.py:171-218 | a retried failure followed by a failure the policy does not retry: exactly two calls, the second starting in the state the first left, and the second exception escapes |
| Retry.SleepsAndCallbacks | src/core/base/retry.py:202-218 | after a retryable failure at attempt k (not the last), one sleep of `backoff(k)` and one callback with k+1; none after the final attempt |
| Retry.Retry | src/core/base/retry.py:122-225 | at most `max_attempts` calls; with `max_attempts <= 0` no call and exhaustion with no last error; sleeps and callbacks as above |
| Retry.RetryMeaning | src/shared/resilience/retry.py:171-200 | the first success is returned at once; a non-retryable failure escapes at its attempt; `max_attempts` retryable failures exhaust with the last error |
| AgentDispatch.EffectiveAgent | src/core/workflows/sub_workflows/agent_dispatch_workflow.py:128 | a missing or empty assignment counts as UNASSIGNED_AGENT |
| AgentDispatch.FindAgentById | src/core/workflows/sub_workflows/agent_dispatch_workflow.py:437-444 | the first agent with an equal id, or None when no id matches |
| AgentDispatch.RouteItem | src/core/workflows/sub_workflows/agent_dispatch_workflow.py:125-188 | a found agent whose endpoint validates as a URL gives the validated URL; one whose endpoint fails validation takes the per-item error path: UNASSIGNED_AGENT, routing reason "Error during dispatch: " + the error, no URL; an assigned agent missing from the registry is rewritten to UNASSIGNED_AGENT with "Agent 'X' no longer available" and no URL |
| AgentDispatch.RouteActionItems | src/core/workflows/sub_workflows/agent_dispatch_workflow.py:103-188 | a failed discovery or an empty registry stops with an error marker; otherwise every item yields exactly one request and `total_executions` is the item count |
| AgentDispatch.ClassifyExchange | src/core/workflows/sub_workflows/agent_dispatch_workflow.py:241-292 | status 500 and up is `AgentUnavailableError`; 400-499 and a non-dict body are `AgentResponseError`; a timeout is `AgentTimeoutError`; a dict body is returned |
| AgentDispatch.CallAgentOnce | src/core/workflows/sub_workflows/agent_dispatch_workflow.py:235-292 | one attempt inside `ErrorContext`: the classified outcome, with `operation` added to a platform error's context |
| AgentDispatch.DispatchBreakerConfig | src/core/workflows/sub_workflows/agent_dispatch_workflow.py:214-216 | the breaker is "agent_dispatch" with threshold 5, timeout 60 and every exception counted |
| AgentDispatch.DispatchRetryable | src/core/workflows/sub_workflows/agent_dispatch_workflow.py:202-212 | httpx timeouts and network errors with their subclasses (ConnectTimeout, ReadTimeout, ConnectError, ReadError, ...), `AgentTimeoutError` and `AgentUnavailableError` are retried; `CircuitOpenError` and `AgentResponseError` are not |
| AgentDispatch.CallWithResilience | src/core/workflows/sub_workflows/agent_dispatch_workflow.py:202-216 | retry outside, breaker inside: one to three attempts, each through the breaker, whose state carries over from attempt to attempt; the retry decorator sees `self` as the one positional argument and `agent_url`, `query`, `agent_name` as keyword arguments |
| AgentDispatch.OpenBreakerFailsFast | src/core/workflows/sub_workflows/agent_dispatch_workflow.py:202-216 | an OPEN breaker inside its window ends the call after one rejected attempt with no HTTP exchange |
| AgentDispatch.ClientErrorNotRetried | src/core/workflows/sub_workflows/agent_dispatch_workflow.py:254-264 | a 4xx answer is tried once; its `AgentResponseError` escapes, and the breaker counts it |
| AgentDispatch.ServerErrorsExhaustRetries | src/core/workflows/sub_workflows/agent_dispatch_workflow.py:202-250 | three 5xx answers in a row exhaust the retries with `attempts = 3`, and the breaker counts all three; the exhaustion context names `_call_agent_with_resilience` and holds the `self` tuple and the keyword-argument dict, each cut to 100 characters |
| AgentDispatch.BreakerOpensMidRetry | src/core/workflows/sub_workflows/agent_dispatch_workflow.py:202-216 | when a 5xx failure opens the breaker, the next attempt is rejected and the `CircuitOpenError` escapes the retry loop |
| AgentDispatch.ExecuteSingleAction | src/core/workflows/sub_workflows/agent_dispatch_workflow.py:295-406 | unassigned or URL-less items get both flags without a call and leave the breaker untouched; otherwise exactly one resilient call goes to `urljoin(agent_url, "/agent")` with the item's query, the breaker is the one it leaves, and the result is `CallResult` of its outcome, a request error exactly when the call failed or its reply does not validate |
| AgentDispatch.LaxBool | src/core/schemas/workflow_models.py:99-105 | Pydantic's lax reading of a `bool` field: bools as they are, 0 and 1, and the listed strings after lower-casing; `None` and containers are refused |
| AgentDispatch.LaxBoolReadsPrintedFlags | src/core/schemas/workflow_models.py:99-105 | a flag written as JSON `true`/`false`, as 1/0, or as the strings "True"/"False" or "true"/"false" reads back as that flag |
| AgentDispatch.ReplyFields | src/core/workflows/sub_workflows/agent_dispatch_workflow.py:366-383 | the reply validates exactly when "response" is absent or a string and each flag is absent or a lax bool; then the response is the string (else `str(reply)`), and each flag is true exactly when present and read as true |
| AgentDispatch.CallResult | src/core/workflows/sub_workflows/agent_dispatch_workflow.py:373-406 | a validated reply gives `request_error` False and its three fields; a reply the result model refuses gives "Unexpected execution error: " + the validation error; an `AgentTimeoutError`, `AgentUnavailableError` or `AgentResponseError` gives "Agent execution failed: " + its message; any other exception "Unexpected execution error: " + `str(e)`; every failure sets both flags |
| AgentDispatch.ExecutionFromCall | src/core/workflows/sub_workflows/agent_dispatch_workflow.py:343-406 | for a routed request, the breaker is the one the call leaves, and the execution succeeds exactly when the call returned a reply that validates and whose "error" does not read as true |
| AgentDispatch.InvalidEndpointEndsUnassigned | src/core/workflows/sub_workflows/agent_dispatch_workflow.py:125-188 | an agent whose endpoint fails URL validation makes no call: the result is "no suitable agent" with both flags, the breaker is untouched, and the routing reason carries the validation error |
| AgentDispatch.SafeFormat | src/infrastructure/prompts/prompts.py:200-207 | a template without placeholders formats to its literal text |
| AgentDispatch.FormatQueryTemplate | src/infrastructure/prompts/prompts.py:200-207 | formatting `AGENT_QUERY_PROMPT` fills its one placeholder from the "action_item" keyword, and otherwise leaves "{action_item}" in place |
| AgentDispatch.QueryAsWrittenOmitsItem | src/core/workflows/sub_workflows/agent_dispatch_workflow.py:348-355 | the query as written is the bare template, whatever the item's fields |
| AgentDispatch.QueryFor | src/infrastructure/prompts/prompts.py:200-207 | the corrected query is the template's head, the item's JSON and the template's tail |
| AgentDispatch.QueryForDeterminesItem | src/infrastructure/prompts/prompts.py:200-207 | two corrected queries are equal exactly when the items' JSON texts are |
| PyOps.UrlJoinAbsolute | src/core/workflows/sub_workflows/agent_dispatch_workflow.py:344-345 | `urljoin` onto an absolute path always ends with that path |
| PyOps.UrlJoinKeepsOrigin | src/core/workflows/sub_workflows/agent_dispatch_workflow.py:344-345 | joining "/agent" onto `scheme://host...` keeps the lower-cased scheme and the host and drops the registered URL's own path, query and fragment |
| AgentDispatch.SuccessCount | src/core/workflows/sub_workflows/agent_dispatch_workflow.py:424-428 | the count of results with neither flag set, at most the number of results |
| AgentDispatch.SuccessCountAppend | src/core/workflows/sub_workflows/agent_dispatch_workflow.py:415-428 | the count adds up over concatenation, so arrival order does not matter |
| AgentDispatch.UnroutedNeverSucceeds | src/core/workflows/sub_workflows/agent_dispatch_workflow.py:301-341 | an unassigned or URL-less request never counts as a success |
| TokenUtils.CountTokens | src/infrastructure/utils/token_utils.py:52-71 | the tokenizer's count, or `len(text) // 4` when it raises |
| TokenUtils.TargetCharsBelowLength | src/infrastructure/utils/token_utils.py:99-103 | with a budget below the count and a buffer in [0, 1], the target length is below the text length |
| TokenUtils.TruncateText | src/infrastructure/utils/token_utils.py:74-118 | under budget the text is unchanged; over budget a prefix or suffix of the target length; a zero count over a negative budget raises a division by zero |
| TokenUtils.TruncationShortens | src/infrastructure/utils/token_utils.py:93-106 | keeping the start always shortens an over-budget text |
| TokenUtils.KeepEndZeroKeepsEverything | src/infrastructure/utils/token_utils.py:111-112 | keeping the end with a target of 0 characters returns the whole text |
| TokenUtils.TruncateKeepEnd | src/infrastructure/utils/token_utils.py:111-112 | the corrected suffix: exactly the last `target_chars` characters |
| TokenUtils.KeepEndShortens | src/infrastructure/utils/token_utils.py:93-112 | the corrected suffix always shortens an over-budget text |
| TokenUtils.ChunksCover | src/infrastructure/utils/token_utils.py:146-155 | gluing the chunks, each without its overlap with the previous one, gives back the text |
| TokenUtils.ChunkShapes | src/infrastructure/utils/token_utils.py:146-155 | every chunk is a non-empty slice of at most the chunk size, and the last one ends the text |
| TokenUtils.ChunksOverlap | src/infrastructure/utils/token_utils.py:148-153 | consecutive chunks share exactly `overlap_chars` characters |
| TokenUtils.ChunkingTerminatesWhenBudgetExceedsOverlap | src/infrastructure/utils/token_utils.py:142-153 | a budget above the overlap, with at least one character per token, makes the chunk size exceed the overlap size, so the start advances |
| TokenUtils.ChunkText | src/infrastructure/utils/token_utils.py:121-158 | `[text]` within budget; over budget with a zero count, a division by zero; otherwise a chunk list, empty exactly for an empty text, whose chunks are at most the chunk size and glue back to the text whenever the overlap is below the chunk size |
| TokenUtils.ChunkLoop | src/infrastructure/utils/token_utils.py:146-155 | the loop with its early break yields the same chunks as the declarative chunk list, which glue back to the text |
| TokenUtils.ShouldSummarize | src/infrastructure/utils/token_utils.py:178-205 | true exactly when the count (tokenizer or `len // 4`) is above the threshold |
| TokenUtils.ShouldSummarizeMonotone | src/infrastructure/utils/token_utils.py:191-192 | lowering the threshold never withdraws a recommendation |
| Progressive.Ratios | src/shared/llm/summarization/progressive.py:102-110 | three ratios, all in [0, 1], per strategy |
| Progressive.CalculateReductionTargets | src/shared/llm/summarization/progressive.py:85-120 | exactly `min(max_passes, 3)` targets, none below the final target |
| Progressive.PlanIsClampedChain | src/shared/llm/summarization/progressive.py:112-118 | target i is the clamped value of the unclamped chain after i+1 truncated products |
| Progressive.TargetsNonIncreasing | src/shared/llm/summarization/progressive.py:112-120 | from a non-negative count the targets never increase |
| Progressive.PlanExamples | src/shared/llm/summarization/progressive.py:102-120 | 10000 to 1000 gives [5000, 1500, 1000], [6000, 2400, 1000] and [7000, 3500, 1225]; zero passes give none |
| Progressive.PerformSummaryPass | src/shared/llm/summarization/progressive.py:123-192 | a completion failure falls back to truncation at the pass target with no key points or topics; the pass number and input count are kept; only a zero input count raises |
| Progressive.ReductionExample | src/shared/llm/summarization/progressive.py:169 | a pass from 5000 to 2000 tokens reports a reduction of 0.6 |
| Progressive.SummarizeChunk | src/shared/llm/summarization/progressive.py:195-264 | the summary from the model, or a truncation at `int(input * 0.6)` with no key points, never raising |
| Progressive.SummarizeChunks | src/shared/llm/summarization/progressive.py:301-306 | one summary per chunk, numbered from 1 in order |
| Progressive.Sections | src/shared/llm/summarization/progressive.py:309-311 | section i is "# Section n" followed by that summary |
| Progressive.SummarizeWithChunking | src/shared/llm/summarization/progressive.py:267-329 | the sections joined by blank lines, the chunk summaries, and one warning exactly when the combined count exceeds the target |
| Progressive.PassLoop | src/shared/llm/summarization/progressive.py:434-474 | passes chain text to text with increasing numbers; there are at most `min(max_passes, targets)` of them; each ran on more tokens than the target; a raised pass adds one "Pass k failed" warning |
| Progressive.LoopNeverFailsForNonNegativeTarget | src/shared/llm/summarization/progressive.py:434-474 | with a non-negative target no pass raises, so the loop adds no warning |
| Progressive.ResultWarnings | src/shared/llm/summarization/progressive.py:476-497 | chunk warnings first, then any pass failure, then the final-count warning exactly when the final count exceeds the target |
| Progressive.OverallReduction | src/shared/llm/summarization/progressive.py:491-495 | `(original - final) / original` for a positive original, 0.0 otherwise |
| Progressive.Finish | src/shared/llm/summarization/progressive.py:427-510 | the result's fields agree with the passes, counts and warnings above; total passes are at most `min(max_passes, 3)` |
| Progressive.ProgressiveSummarize | src/shared/llm/summarization/progressive.py:333-510 | within target: the text unchanged, 0 passes and one warning; otherwise chunking exactly above the context threshold; only a division by zero escapes |
| GoogleDocs.ParagraphElementText | src/integrations/google_tools/google_tools.py:238-243 | a text run gives its content; a missing run or content gives "" |
| GoogleDocs.ReadParagraphAppend | src/integrations/google_tools/google_tools.py:252-255 | paragraph runs are concatenated in order with no separator |
| GoogleDocs.ReadElementsAppend | src/integrations/google_tools/google_tools.py:245-267 | the text of a list of elements is the concatenation of its parts |
| GoogleDocs.ReadRowsAppend | src/integrations/google_tools/google_tools.py:256-262 | table rows are read in order |
| GoogleDocs.ReadCellsAppend | src/tools/google_tools/docs_tools.py:42-50 | the cells of a row are read in order, each recursively |
| GoogleDocs.ElementPrecedence | src/integrations/google_tools/google_tools.py:251-266 | paragraph beats table, table beats table of contents, and any other element gives "" |
| GoogleDocs.NestingTransparent | base/tools/google_tools/google_docs_tools_specs.py:36-48 | a table of contents, or a one-cell table, around some content reads as the content itself |
| GoogleDocs.TwoRunParagraph | src/integrations/google_tools/google_tools.py:252-255 | a paragraph of two runs reads as the first text followed directly by the second |
| GoogleDocs.ParagraphExample | src/integrations/google_tools/google_tools.py:252-255 | two runs of one paragraph read as their concatenation |
| GoogleDocs.TableExample | src/integrations/google_tools/google_tools.py:256-262 | a one-row table with cells "Cell 1" and "Cell 2" reads as "Cell 1Cell 2" |
| GoogleDocs.DocIdsOf | src/integrations/google_tools/google_tools.py:87-92 | exactly the non-empty file ids of Google Doc attachments are kept |
| GoogleDocs.DocIdsOfAppend | src/integrations/google_tools/google_tools.py:87-92 | the filter keeps the attachments' order |
| GoogleDocs.GetEventGDocAttachmentIds | src/integrations/google_tools/google_tools.py:85-100 | with no attachments key the message "Event has no attachments."; otherwise the filtered ids |
| GoogleDocs.AttachmentExamples | src/integrations/google_tools/google_tools.py:85-100 | a PDF, a Doc without an id and a Doc with one give just that id; no key gives the message |
| GoogleDocs.FetchDocContent | src/integrations/google_tools/google_tools.py:313-369 | a non-empty cached text is returned at once; otherwise the flattened text is stored when the cache takes the write (and the cache is unchanged when it does not), then withheld behind the length message when too long |
| GoogleDocs.FetchMissRespectsLimit | src/integrations/google_tools/google_tools.py:352-369 | on a miss the answer is the text exactly when it fits the maximum length, and the message otherwise |
| GoogleDocs.SecondFetchBypassesGate | src/integrations/google_tools/google_tools.py:329-366 | a too-long document is refused once, then returned whole from the cache on the next fetch |
| GoogleDocs.UnstoredFetchStaysGated | src/infrastructure/cache/document_cache.py:95-111 | when the cache is disabled or the write fails, a too-long document is refused again on the next fetch |
| AgentLookup.FirstExact | src/core/workflows/meeting_notes_and_generation_orchestrator.py:272-275 | the first exact match from a position, or None when there is none |
| AgentLookup.FirstPartial | src/core/workflows/meeting_notes_and_generation_orchestrator.py:277-282 | the first two-way substring match from a position, or None when there is none |
| AgentLookup.FindAgentByName | src/core/workflows/meeting_notes_and_generation_orchestrator.py:268-282 | an exact case-insensitive match anywhere wins, the first one; else the first two-way substring match; None exactly when neither exists |
| ActionItemsFlow.OnlyAgentUnmatched | src/core/workflows/action_items_workflow.py:530-544 | a lone agent whose lower-cased name neither equals nor overlaps the query by substring is not found |
| AgentLookup.BlankQueryPicksFirst | src/core/workflows/meeting_notes_and_generation_orchestrator.py:277-280 | when no agent's name is empty, a query blank after stripping picks the first agent |
| AgentLookup.NormalizePadded | src/core/workflows/meeting_notes_and_generation_orchestrator.py:270 | one blank either side of a word is dropped and the word lower-cased |
| AgentLookup.NormalizeExample | src/core/workflows/meeting_notes_and_generation_orchestrator.py:270 | surrounding blanks and case are dropped from the query |
| AgentLookup.SecondExactWins | src/core/workflows/meeting_notes_and_generation_orchestrator.py:272-282 | of two agents, when only the second matches exactly, the second is picked |
| AgentLookup.ExactBeatsEarlierPartial | src/core/workflows/meeting_notes_and_generation_orchestrator.py:272-282 | "Jira Agent" then "Jira": the query " JIRA " picks the second |
| NotesOrchestrator.RouteOne | src/core/workflows/meeting_notes_and_generation_orchestrator.py:218-253 | found: the agent's id and the decision's reason; not found: UNASSIGNED_AGENT with "Suggested agent 'X' not found"; raised: UNASSIGNED_AGENT with "Error during routing: ..." |
| NotesOrchestrator.RouteActionItems | src/core/workflows/meeting_notes_and_generation_orchestrator.py:192-266 | never an error flag; no agents or an outer failure return the items untouched; otherwise every item is routed, titles kept |
| NotesOrchestrator.RoutedItemsReachDispatch | src/core/workflows/sub_workflows/agent_dispatch_workflow.py:125-188 | an item the orchestrator assigned is found by id in the dispatch step with the same registry; it goes out unchanged exactly when it gets a URL, which is exactly when the agent's endpoint validates |
| ActionItemsFlow.GetMeetingNotes | src/core/workflows/action_items_workflow.py:209-281 | the notes pass exactly when construction and the run succeeded, no error flag, not a sentinel, and not blank; each failure has its stop marker |
| ActionItemsFlow.EmptyNotes | src/core/workflows/action_items_workflow.py:240-256 | empty notes are reported as "invalid_meeting_notes: " |
| ActionItemsFlow.BlankNotes | src/core/workflows/action_items_workflow.py:258-263 | blank notes are reported as "empty_meeting_notes" |
| ActionItemsFlow.CreateGuard | src/core/workflows/action_items_workflow.py:299-313 | at the limit the step stops with "Max retries reached" and the counter unchanged; otherwise the counter rises first, and empty notes stop with "no input was provided" |
| ActionItemsFlow.GuardBoundsAttempts | src/core/workflows/action_items_workflow.py:299-308 | at most `max_retries - retries` attempts go ahead, and more triggers end in a stop |
| ActionItemsFlow.ValidatedNotesPassGuard | src/core/workflows/action_items_workflow.py:258-313 | notes that passed validation never trip the empty-input stop |
| ActionItemsFlow.FirstIndex | src/core/workflows/action_items_workflow.py:413 | the first position of a character from a position on, or None |
| ActionItemsFlow.LastIndex | src/core/workflows/action_items_workflow.py:413 | the last position of a character before a bound, or None |
| ActionItemsFlow.BraceSpan | src/core/workflows/action_items_workflow.py:413 | a span exists exactly when some '{' precedes some '}'; it runs from the first '{' to the last '}' |
| ActionItemsFlow.BraceSpanExample | src/core/workflows/action_items_workflow.py:413 | prose around an object is dropped |
| ActionItemsFlow.ReversedBracesExample | src/core/workflows/action_items_workflow.py:413-419 | a '}' before the only '{' is no span |
| ActionItemsFlow.JsonCheck | src/core/workflows/action_items_workflow.py:401-425 | no span gives "no Json was found in the output"; success is the parse of the span; every error carries the answer |
| ActionItemsFlow.RouteDecision | src/core/workflows/action_items_workflow.py:465-525 | a raised model call is the error path; otherwise the stripped answer is looked up, and found exactly when the lookup finds it |
| ActionItemsFlow.Routings | src/core/workflows/action_items_workflow.py:464 | one routing outcome per item, in order |
| ActionItemsFlow.CountAsWritten | src/core/workflows/action_items_workflow.py:463-525 | the outcomes the router counts: zero exactly when none is counted, all exactly when every one is |
| ActionItemsFlow.CountNotFound | src/core/workflows/action_items_workflow.py:463-525 | the names the router could not find: zero exactly when every name was found, all exactly when none was |
| ActionItemsFlow.CountsPartition | src/core/workflows/action_items_workflow.py:463-525 | every outcome is either counted or a not-found name |
| ActionItemsFlow.ToolRouter | src/core/workflows/action_items_workflow.py:428-528 | no agents or a failed discovery send nothing; otherwise one event per item, and the count excludes not-found names |
| ActionItemsFlow.Collected | src/core/workflows/action_items_workflow.py:606-627 | the collector returns nothing while no result has arrived; once at least one and at least `expected` are in, it returns the first `expected` |
| ActionItemsFlow.SlackNotFound | src/core/workflows/action_items_workflow.py:530-544 | "slack" matches no agent named "jira" |
| ActionItemsFlow.ToolCallsUndercount | src/core/workflows/action_items_workflow.py:463-527 | one not-found item: one event is sent, the count is 0, and the collector keeps none of its results |
| ActionItemsFlow.ToolRouterFixed | src/core/workflows/action_items_workflow.py:463-527 | the corrected router counts one per event sent |
| ActionItemsFlow.FixedCountCollectsAll | src/core/workflows/action_items_workflow.py:622-626 | for at least one item, with the corrected count every result is collected, and the events are the same as the source's |
| ActionItemsFlow.NewToolResult | src/core/workflows/action_items_workflow.py:140-151 | the event validates exactly when `action_item` is a dict and `response` a string; otherwise it raises a validation error |
| ActionItemsFlow.DispatchAsWritten | src/core/workflows/action_items_workflow.py:547-603 | every branch passes the description string as `action_item`, so every branch that returns raises the validation error instead |
| ActionItemsFlow.DispatchAsWrittenAlwaysRaises | src/core/workflows/action_items_workflow.py:561-602 | for every event and every HTTP outcome, `dispatch_to_agent` as written raises the validation error |
| ActionItemsFlow.DispatchToAgent | src/core/workflows/action_items_workflow.py:547-603 | with the corrected event: unassigned gives a fixed message and no error; an empty endpoint is an error; otherwise the reply as text, and an error exactly when the request failed |
| ActionItemsFlow.UnroutableItemsAreNotErrors | src/core/workflows/action_items_workflow.py:508-603 | with the corrected event, an item whose agent was not found, or whose routing raised, ends as "no suitable agent", never as an error |
| ReadConfig.PortErrors | src/infrastructure/config/read_config.py:45 | no error exactly when the port is absent or in 1..65535 |
| ReadConfig.PositiveErrors | src/infrastructure/config/read_config.py:42-43 | no error exactly when the value is absent or positive |
| ReadConfig.CheckObservability | src/infrastructure/config/read_config.py:26-35 | valid exactly when disabled or all three keys are truthy; the first missing key, in the order secret, public, host, names the error |
| ReadConfig.DisablingObservabilityIsSafe | src/infrastructure/config/read_config.py:29-34 | turning observability off never makes a valid configuration invalid |
| ReadConfig.ValidateCache | src/infrastructure/config/read_config.py:38-56 | valid exactly when the bounds hold and an enabled cache has a password; bad fields are reported before the validator runs |
| ReadConfig.CacheBoundExamples | src/infrastructure/config/read_config.py:42-45 | port 6379 is fine, 0 and 70000 are refused, and a zero TTL with a negative size gives two errors |
| ReadConfig.ValidateConfig | src/infrastructure/config/read_config.py:59-99 | valid exactly when the explicit port and heartbeat are in range and both sections validate; each field is the given value or its default: the environment port or 8000, the environment host or "0.0.0.0", the environment model key, Gemini, gemini-2.0-flash, heartbeat 60, verify_ssl true, length 2000 |
| ReadConfig.ExplicitModelKeyWins | src/infrastructure/config/read_config.py:79-82 | an explicit `model_api_key` (even None) wins; the environment's `MODEL_API_KEY` is only the default |
| ReadConfig.DefaultsAreValid | src/infrastructure/config/read_config.py:62-84 | an empty input gives "Gemini", "gemini-2.0-flash", verify_ssl true, length 2000, heartbeat 60 |
| ReadConfig.EnvironmentPortIsNotChecked | src/infrastructure/config/read_config.py:68-73 | a port of 70000 from the environment is accepted, and the same port given explicitly is refused |
| ReadConfig.CacheWithoutPasswordReported | src/infrastructure/config/read_config.py:51-55 | an enabled cache without a password is reported under "cache_config" |

## Left out

- Concurrency: the breaker's `asyncio.Lock`, the event-loop wrapper for sync functions, `asyncio.gather`, and workflow event delivery. Calls are modelled one after another. Event delivery is the `Collected` function: it waits for a count and returns the first arrivals.
- Wall-clock time and randomness: `time.time()` and `random.uniform` are explicit parameters. The jitter draw is a number in [0, 1).
- Floating point: delays and ratios are exact `real`s. Python float rounding may differ from them by one at integer boundaries, after `int()`.
- The language model, the structured completion programs and the tokenizer are oracle functions. `get_max_context_tokens` probes model metadata and is a parameter (`maxContext`).
- `estimate_prompt_tokens` is `count_tokens` of a concatenation, and adds nothing to `CountTokens`.
- `summarize_meeting_notes` is an LLM call with a truncation fallback. It is not named among the core operations.
- HTTP, the registry client, Redis and the Google APIs are left out. Their outcomes are inputs: the discovery result, the HTTP exchange, the API body and the cache map. The cache's title entry is not modelled.
- `get_google_doc_title` is API plumbing and is not modelled.
- `get_all_circuit_breakers` returns a shallow copy of the registry dict, sharing the breaker objects. In a value model the registry map is already a snapshot, so there is nothing to state.
- `json.loads` and the regular expression engine are not modelled. The parser is an oracle. The greedy search `\{.*\}` with DOTALL is modelled by its meaning: the first '{' to the last '}'.
- `str.strip` and `str.lower` are modelled for ASCII only. `lower().strip()` and `strip()` then `lower()` agree on ASCII.
- `int()` parsing of `UVICORN_PORT` is left out: the environment port is an optional integer. Hosts in the configuration are plain optional strings.
- AgentDispatch.RouteItem: Pydantic's `HttpUrl` validation of the registry endpoint, and the normalised `str()` of the validated URL, are the `validate` parameter; their rules are not modelled.
- AgentDispatch.ReplyFields: lists and dicts are kept only as their `str()`; string flags are matched after ASCII lower-casing; the text of the validation error is reduced to its title (`ResultValidationError`).
- Logging, and the `__cause__` chaining of `raise ... from e`, are left out.
- The LLM branches of `create_action_items` after the guard are left out: prompt assembly, the review step and chat memory. Only the guard and the empty-notes stop are modelled.
- Retry.Retry: the wrapped call's `args`/`kwargs` appear only as the two strings in the exhaustion context, already cut to 100 characters.
- Progressive.ProgressiveSummarize: stated under the assumption that the chunker terminates (`ProgressiveTerminates`). The source may loop forever when the computed chunk size does not exceed the overlap size.
- TokenUtils.ChunkText: stated under the same termination assumption. `ChunkingTerminatesWhenBudgetExceedsOverlap` gives a sufficient condition.
- AgentDispatch.CallWithResilience: the HTTP client's 120-second timeout is an outcome of the exchange, not a clock.
- AgentDispatch.CallWithResilience: Python's `repr` of a string, the `repr` of the workflow object (which holds a memory address) and the JSON text of an item are parameters (`Renderer`); the call-site strings are built from them, and the query is the corrected `QueryFor` (see Findings).
- AgentDispatch.ExecuteSingleAction: sends the corrected query, the item's JSON in the template. As written, the query is the bare template (`QueryAsWrittenOmitsItem`). `dispatch_to_agent` in the action-items workflow passes the item positionally, which fills no placeholder either; that request is not modelled.
- AgentDispatch.ClassifyExchange: a transport failure is raised as httpx's `NetworkError` and a timeout's cause as `TimeoutException`, not as the concrete subclass httpx raises (`ConnectError`, `ReadTimeout`, ...). Only the class name differs: every subclass is retried alike (`DispatchRetryable`).
- Exceptions.IsInstance: the built-in and httpx classes are modelled with the subclasses named in `BuiltinKind`, one level deep; `OtherBuiltin` stands for a class that is a subclass of none of them. `asyncio.TimeoutError` is kept apart from `TimeoutError`, as before Python 3.11; the only tuple that names one names both.
- PyOps.UrlJoinAbsolute: the stripping of whitespace and control characters that `urlsplit` does first, and its error on a malformed bracketed host, are left out. Only plain absolute paths are joined; the code joins only "/agent".
- ActionItemsFlow.Collected: with zero action items (`{"action_items": []}` passes the JSON check), `tool_router` sends no event, so the collector never runs and the run never reaches a stop, with either count; `Collected` returns None there and `FixedCountCollectsAll` asks for at least one item.
- ActionItemsFlow.DispatchToAgent: states the corrected event (`action_item` the description, `response` the reply as text). As written, every branch raises a validation error (`DispatchAsWrittenAlwaysRaises`, under Findings).
- ActionItemsFlow.UnroutableItemsAreNotErrors: holds for the corrected event. As written, the unassigned branch raises the same validation error as every other branch.
- GoogleDocs.SecondFetchBypassesGate: holds when the cache takes the first write. With a disabled cache or a failed write, the document is refused on every fetch (`UnstoredFetchStaysGated`).

## Findings

| source | as written | input that shows it | evidently intended | confidence | as-written member | corrected member |
|---|---|---|---|---|---|---|
| src/infrastructure/utils/token_utils.py:111-112 | `text[-target_chars:]` keeps the end; with `target_chars == 0` this is `text[0:]`, the whole text | keep_start=False, max_tokens=0, a text over budget | the last `target_chars` characters, so an over-budget text is always shortened | high, not executed | TokenUtils.KeepEndZeroKeepsEverything | TokenUtils.KeepEndShortens |
| src/core/workflows/action_items_workflow.py:140-151 | `ToolResult` declares `action_item: Dict` and `response: str`, but `dispatch_to_agent` (lines 561-602) passes the description string as `action_item`, and on success the parsed JSON reply as `response`; Pydantic refuses both | any dispatch, e.g. an item with no assigned agent | a `ToolResult` carrying the item's description and the reply as text | medium (rests on Pydantic refusing a string for a `Dict` field), not executed | ActionItemsFlow.DispatchAsWrittenAlwaysRaises | ActionItemsFlow.UnroutableItemsAreNotErrors |
| src/core/workflows/action_items_workflow.py:463-527 | `tool_calls` is not incremented when the suggested agent is not found, though an event is still sent; the collector waits for `tool_calls` results | one item whose suggested agent ("slack") is not in the registry (one agent "jira"): one event is sent and `tool_calls` is 0, as written; the dropped result shows only once `ToolResult` is corrected, since as written every dispatch raises before building one | one count per dispatched event, so every result is collected | high, not executed | ActionItemsFlow.ToolCallsUndercount | ActionItemsFlow.FixedCountCollectsAll |
| src/core/workflows/sub_workflows/agent_dispatch_workflow.py:348-355 | `AGENT_QUERY_PROMPT` has the one placeholder `{action_item}` (src/infrastructure/prompts/prompts.py:200-207), but it is formatted with the keywords `title`, `description`, `assignee`, `due_date`, `priority` and `category`; the placeholder stays in place | any routed item, e.g. title "File ticket" | the query carries the action item's fields between the JSON markers | plausible (rests on the template's formatter leaving an unknown placeholder as written rather than raising), not executed | AgentDispatch.QueryAsWrittenOmitsItem | AgentDispatch.QueryForDeterminesItem |

=== FILE: action_items.dfy ===
/** The self-contained rules of the action-items workflow: validating what the
    meeting-notes sub-workflow returned, the retry-count guard in front of the
    generation step, extracting the JSON span from the model's output, routing
    each item to an agent with the count the collector waits for, and the early
    returns of the per-agent dispatch. */
module ActionItemsFlow {
  import opened Wrappers
  import opened PyOps
  import opened Exceptions
  import opened AgentDispatch
  import opened AgentLookup

  /** A `StopEvent`: its result and its error flag. */
  datatype Stop = Stop(result: string, error: bool)

  // ---------------------------------------------------------------------------
  // Meeting notes from the sub-workflow
  // ---------------------------------------------------------------------------

  /** The markers the sub-workflow returns instead of notes. */
  const Sentinels: seq<string> := [
    "connection_error", "calendar_error", "no_events_found", "invalid_response",
    "parse_error", "processing_error", "service_error", "no_attachments", "empty_document"]

  /** What the sub-workflow's run hands back: its error flag and its result. */
  datatype SubResult = SubResult(error: bool, result: string)

  /** `get_meeting_notes`: `initError` is an error raised while constructing the
      sub-workflow, `run` the outcome of running it. Success carries the notes
      passed on in a `MeetingNotesEvent`. */
  function GetMeetingNotes(initError: Option<Exc>, run: Result<SubResult, Exc>): (r: Result<string, Stop>)
    ensures r.Success? <==>
      initError.None? && run.Success? && !run.value.error &&
      run.value.result !in Sentinels && Strip(run.value.result) != ""
    ensures r.Success? ==> r.value == run.value.result
    ensures r.Failure? ==> r.error.error
    ensures initError.None? && run.Success? && !run.value.error && run.value.result in Sentinels ==>
      r == Failure(Stop("invalid_meeting_notes: " + run.value.result, true))
  {
    if initError.Some? then Failure(Stop("workflow_initialization_error", true))
    else match run
      case Failure(e) =>
        if IsInstance(e, BuiltinType(ConnectionError)) then Failure(Stop("connection_error", true))
        else if IsInstance(e, BuiltinType(ValueError)) then Failure(Stop("invalid_parameters", true))
        else Failure(Stop("unexpected_error", true))
      case Success(sub) =>
        if sub.error then Failure(Stop("meeting_notes_workflow_error", true))
        else if sub.result == "" || sub.result in Sentinels then
          Failure(Stop("invalid_meeting_notes: " + sub.result, true))
        else if Strip(sub.result) == "" then Failure(Stop("empty_meeting_notes", true))
        else Success(sub.result)
  }

  /** The empty result is caught by the sentinel test, so it is reported as
      invalid notes; a blank but non-empty one is reported as empty notes. */
  lemma EmptyNotes()
    ensures GetMeetingNotes(None, Success(SubResult(false, ""))) == Failure(Stop("invalid_meeting_notes: ", true))
  {
    assert "invalid_meeting_notes: " + "" == "invalid_meeting_notes: ";
  }

  lemma BlankNotes()
    ensures GetMeetingNotes(None, Success(SubResult(false, "  "))) == Failure(Stop("empty_meeting_notes", true))
  {
    BlankIsStrippedAway();
    BlankIsNoSentinel();
  }

  lemma BlankIsStrippedAway()
    ensures Strip("  ") == ""
  {
    assert "  "[1..] == " ";
    assert " "[1..] == "";
    assert StripLeft("  ") == "";
  }

  lemma BlankIsNoSentinel()
    ensures "  " !in Sentinels
  {
    forall i | 0 <= i < |Sentinels| ensures Sentinels[i] != "  " {
      assert |Sentinels[i]| > 2;
    }
  }

  // ---------------------------------------------------------------------------
  // The retry-count guard of `create_action_items`
  // ---------------------------------------------------------------------------

  /** The event that triggered the generation step. */
  datatype Trigger = MeetingNotes(notes: string) | ReviewError | JsonError

  /** The stored counter after the step, and the stop event when it stops. */
  datatype GuardStep = GuardStep(retries: nat, stop: Option<Stop>)

  /** The guard: at or beyond the limit the step stops without touching the
      counter; otherwise it counts the attempt before any work, and then stops
      only when the notes it was given are empty. */
  function CreateGuard(retries: nat, maxRetries: int, trigger: Trigger): (r: GuardStep)
    ensures retries >= maxRetries ==> r == GuardStep(retries, Some(Stop("Max retries reached", true)))
    ensures retries < maxRetries ==> r.retries == retries + 1
    ensures retries < maxRetries ==>
      (r.stop.Some? <==> trigger.MeetingNotes? && trigger.notes == "")
    ensures r.stop.Some? ==> r.stop.value.error
  {
    if retries >= maxRetries then GuardStep(retries, Some(Stop("Max retries reached", true)))
    else if trigger.MeetingNotes? && trigger.notes == "" then
      GuardStep(retries + 1, Some(Stop("no input was provided", true)))
    else GuardStep(retries + 1, None)
  }

  /** A run of the generation step over successive triggers, until one stops:
      how many attempts went ahead, and the stop event if one came. */
  datatype GuardRun = GuardRun(proceeded: nat, stop: Option<Stop>)

  function RunGuard(retries: nat, maxRetries: int, triggers: seq<Trigger>): GuardRun
    decreases |triggers|
  {
    if |triggers| == 0 then GuardRun(0, None)
    else
      var step := CreateGuard(retries, maxRetries, triggers[0]);
      if step.stop.Some? then GuardRun(0, step.stop)
      else
        var rest := RunGuard(step.retries, maxRetries, triggers[1..]);
        GuardRun(rest.proceeded + 1, rest.stop)
  }

  /** The generation loop is bounded by the limit: starting from a counter of
      `retries`, at most `maxRetries - retries` attempts go ahead, and a run
      offered more triggers than that ends with a stop event. */
  lemma {:induction false} GuardBoundsAttempts(retries: nat, maxRetries: int, triggers: seq<Trigger>)
    ensures RunGuard(retries, maxRetries, triggers).proceeded <= Max(0, maxRetries - retries)
    ensures |triggers| > Max(0, maxRetries - retries) ==> RunGuard(retries, maxRetries, triggers).stop.Some?
    decreases |triggers|
  {
    if |triggers| > 0 {
      var step := CreateGuard(retries, maxRetries, triggers[0]);
      if step.stop.None? {
        GuardBoundsAttempts(step.retries, maxRetries, triggers[1..]);
      }
    }
  }

  /** Notes that pass validation never trip the empty-input stop. */
  lemma ValidatedNotesPassGuard(initError: Option<Exc>, run: Result<SubResult, Exc>, retries: nat, maxRetries: int)
    requires GetMeetingNotes(initError, run).Success?
    requires retries < maxRetries
    ensures CreateGuard(retries, maxRetries, MeetingNotes(GetMeetingNotes(initError, run).value)).stop.None?
  {
    assert Strip("") == "";
  }

  // ---------------------------------------------------------------------------
  // The JSON span of `json_check`
  // ---------------------------------------------------------------------------

  /** The first position of `c` in `s` at or after `from`. */
  function FirstIndex(s: string, c: char, from: nat): (r: Option<nat>)
    requires from <= |s|
    ensures r.Some? ==> from <= r.value < |s| && s[r.value] == c &&
                        forall k :: from <= k < r.value ==> s[k] != c
    ensures r.None? ==> forall k :: from <= k < |s| ==> s[k] != c
    decreases |s| - from
  {
    if from == |s| then None else if s[from] == c then Some(from) else FirstIndex(s, c, from + 1)
  }

  /** The last position of `c` in `s[..upto]`. */
  function LastIndex(s: string, c: char, upto: nat): (r: Option<nat>)
    requires upto <= |s|
    ensures r.Some? ==> r.value < upto && s[r.value] == c &&
                        forall k :: r.value < k < upto ==> s[k] != c
    ensures r.None? ==> forall k :: 0 <= k < upto ==> s[k] != c
    decreases upto
  {
    if upto == 0 then None else if s[upto - 1] == c then Some(upto - 1) else LastIndex(s, c, upto - 1)
  }

  /** `s[i..j + 1]` runs from the first '{' of `s` to its last '}'. */
  predicate IsGreedySpan(s: string, i: int, j: int) {
    0 <= i < j < |s| && s[i] == '{' && s[j] == '}' &&
    (forall k :: 0 <= k < i ==> s[k] != '{') && (forall k :: j < k < |s| ==> s[k] != '}')
  }

  /** What the greedy, dot-matches-newline search for `{.*}` finds: the span
      from the first '{' to the last '}', when that '}' comes after the '{'.
      It exists exactly when some '{' precedes some '}', and no '{' lies before
      it nor '}' after it. */
  function BraceSpan(s: string): (r: Option<string>)
    ensures r.Some? <==> exists i, j :: 0 <= i < j < |s| && s[i] == '{' && s[j] == '}'
    ensures r.Some? ==> exists i, j :: IsGreedySpan(s, i, j) && r.value == s[i..j + 1]
  {
    var open := FirstIndex(s, '{', 0);
    var close := LastIndex(s, '}', |s|);
    if open.Some? && close.Some? && open.value < close.value then
      assert IsGreedySpan(s, open.value, close.value);
      Some(s[open.value..close.value + 1])
    else
      None
  }

  /** The span the examples show: prose around the object is dropped, and two
      objects in one answer are taken together with what lies between them. */
  lemma BraceSpanExample()
    ensures BraceSpan("Here: {\"a\": 1} ok") == Some("{\"a\": 1}")
    ensures BraceSpan("{\"a\": 1} {\"b\": 2}") == Some("{\"a\": 1} {\"b\": 2}")
  {
    var two := "{\"a\": 1} {\"b\": 2}";
    assert two[0] == '{' && two[16] == '}';
    assert FirstIndex(two, '{', 0) == Some(0);
    assert LastIndex(two, '}', |two|) == Some(16);
    assert two[0..17] == two;
    var s := "Here: {\"a\": 1} ok";
    assert s[6] == '{' && s[13] == '}';
    assert forall k :: 0 <= k < 6 ==> s[k] != '{';
    assert forall k :: 13 < k < |s| ==> s[k] != '}';
    assert FirstIndex(s, '{', 0) == Some(6);
    assert LastIndex(s, '}', |s|) == Some(13);
    assert s[6..14] == "{\"a\": 1}";
  }

  /** A '}' before the only '{' is no span. */
  lemma ReversedBracesExample()
    ensures BraceSpan("} no {") == None
  {
    var t := "} no {";
    assert t[0] == '}' && t[5] == '{';
    assert forall k :: 0 <= k < 5 ==> t[k] != '{';
    assert FirstIndex(t, '{', 0) == Some(5);
  }

  /** `JsonCheckError`: the answer that failed and why. */
  datatype JsonCheckError = JsonCheckError(wrongAnswer: string, error: string)

  const NoJsonFound := "no Json was found in the output"

  /** `json_check`, with the JSON parser as an oracle returning the parsed
      value or the decoder's message. */
  function JsonCheck<J>(answer: string, parse: string -> Result<J, string>): (r: Result<J, JsonCheckError>)
    ensures BraceSpan(answer).None? ==> r == Failure(JsonCheckError(answer, NoJsonFound))
    ensures r.Success? ==> BraceSpan(answer).Some? && parse(BraceSpan(answer).value) == Success(r.value)
    ensures r.Failure? ==> r.error.wrongAnswer == answer
  {
    match BraceSpan(answer)
    case None => Failure(JsonCheckError(answer, NoJsonFound))
    case Some(span) =>
      match parse(span)
      case Success(j) => Success(j)
      case Failure(msg) => Failure(JsonCheckError(answer, msg))
  }

  // ---------------------------------------------------------------------------
  // `tool_router` and the count the collector waits for
  // ---------------------------------------------------------------------------

  /** An action item as the parsed JSON holds it; only its description is read. */
  datatype Item = Item(description: Option<string>)

  /** `DispatchToAgent`: agent id, the item and the endpoint ("" when unassigned). */
  datatype DispatchEvent = DispatchEvent(agent: string, item: Item, endpoint: string)

  /** How routing one item went. */
  datatype Routing = ToFound(agentIndex: nat) | NotFound(name: string) | Raised(e: Exc)

  /** The routing of one item, given what the model answered (or raised). The
      answer is stripped before the lookup, which strips and lower-cases again. */
  function RouteDecision(agents: seq<Agent>, answer: Result<string, Exc>): (r: Routing)
    ensures r.ToFound? ==> r.agentIndex < |agents|
    ensures answer.Failure? <==> r.Raised?
    ensures answer.Success? ==>
      (r.ToFound? <==> FindAgentByName(agents, Strip(answer.value)).Some?)
  {
    match answer
    case Failure(e) => Raised(e)
    case Success(a) =>
      match FindAgentByName(agents, Strip(a))
      case Some(k) => ToFound(k)
      case None => NotFound(Strip(a))
  }

  /** The event a routing outcome sends: the found agent with its endpoint, or
      UNASSIGNED_AGENT with no endpoint. */
  function EventFor(agents: seq<Agent>, item: Item, routing: Routing): DispatchEvent
    requires routing.ToFound? ==> routing.agentIndex < |agents|
  {
    match routing
    case ToFound(k) => DispatchEvent(agents[k].agentId, item, agents[k].endpoint)
    case NotFound(_) => DispatchEvent(Unassigned, item, "")
    case Raised(_) => DispatchEvent(Unassigned, item, "")
  }

  /** Whether `tool_router` adds one to `tool_calls` for this outcome: it does
      after a found agent and on the error path, not after a name it could not
      find. */
  predicate CountedAsWritten(routing: Routing) {
    routing.ToFound? || routing.Raised?
  }

  /** What one run of `tool_router` leaves: the events it sends and the count it stores. */
  datatype RouterRun = NotRouted | RoutedRun(events: seq<DispatchEvent>, toolCalls: nat)

  function Routings(agents: seq<Agent>, items: seq<Item>, llm: (nat, Item) -> Result<string, Exc>, from: nat): (r: seq<Routing>)
    requires from <= |items|
    ensures |r| == |items| - from
    ensures forall i :: 0 <= i < |r| ==> r[i] == RouteDecision(agents, llm(from + i, items[from + i]))
    decreases |items| - from
  {
    if from == |items| then []
    else
      var head := RouteDecision(agents, llm(from, items[from]));
      var rest := Routings(agents, items, llm, from + 1);
      assert forall i :: 1 <= i < |items| - from ==> ([head] + rest)[i] == rest[i - 1];
      [head] + rest
  }

  function Events(agents: seq<Agent>, items: seq<Item>, rs: seq<Routing>): (r: seq<DispatchEvent>)
    requires |rs| == |items|
    requires forall i :: 0 <= i < |rs| && rs[i].ToFound? ==> rs[i].agentIndex < |agents|
    ensures |r| == |items|
    ensures forall i :: 0 <= i < |r| ==> r[i] == EventFor(agents, items[i], rs[i])
  {
    seq(|items|, i requires 0 <= i < |items| => EventFor(agents, items[i], rs[i]))
  }

  /** The number of outcomes `tool_router` counts towards `tool_calls`. */
  function CountAsWritten(rs: seq<Routing>): (n: nat)
    ensures n <= |rs|
    ensures n == 0 <==> forall i :: 0 <= i < |rs| ==> !CountedAsWritten(rs[i])
    ensures n == |rs| <==> forall i :: 0 <= i < |rs| ==> CountedAsWritten(rs[i])
  {
    if |rs| == 0 then 0
    else
      assert forall i :: 1 <= i < |rs| ==> rs[i] == rs[1..][i - 1];
      (if CountedAsWritten(rs[0]) then 1 else 0) + CountAsWritten(rs[1..])
  }

  /** The outcomes `tool_router` leaves out of `tool_calls`: names it could not find. */
  function CountNotFound(rs: seq<Routing>): (n: nat)
    ensures n <= |rs|
    ensures n == 0 <==> forall i :: 0 <= i < |rs| ==> !rs[i].NotFound?
    ensures n == |rs| <==> forall i :: 0 <= i < |rs| ==> rs[i].NotFound?
  {
    if |rs| == 0 then 0
    else
      assert forall i :: 1 <= i < |rs| ==> rs[i] == rs[1..][i - 1];
      (if rs[0].NotFound? then 1 else 0) + CountNotFound(rs[1..])
  }

  /** Every outcome is counted or not found, never both. */
  lemma {:induction false} CountsPartition(rs: seq<Routing>)
    ensures CountAsWritten(rs) + CountNotFound(rs) == |rs|
  {
    if |rs| > 0 {
      CountsPartition(rs[1..]);
    }
  }

  /** `tool_router` as written: no agents, or a failed discovery, sends nothing;
      otherwise one event per item, and the count it stores as `tool_calls`. */
  function ToolRouter(discovered: Result<seq<Agent>, Exc>, items: seq<Item>,
                      llm: (nat, Item) -> Result<string, Exc>): (r: RouterRun)
    ensures discovered.Failure? || |discovered.value| == 0 <==> r.NotRouted?
    ensures r.RoutedRun? ==> |r.events| == |items|
    ensures r.RoutedRun? ==> r.toolCalls == |items| - CountNotFound(Routings(discovered.value, items, llm, 0))
  {
    match discovered
    case Failure(_) => NotRouted
    case Success(agents) =>
      if |agents| == 0 then NotRouted
      else
        var rs := Routings(agents, items, llm, 0);
        CountsPartition(rs);
        RoutedRun(Events(agents, items, rs), CountAsWritten(rs))
  }

  /** The collector: the step runs only when a `ToolResult` arrives, so with no
      arrivals it never returns; otherwise it stops once `expected` results have
      arrived and returns those, and results that arrive later are never seen. */
  function Collected<T>(arrivals: seq<T>, expected: nat): (r: Option<seq<T>>)
    ensures r.Some? <==> 0 < |arrivals| && expected <= |arrivals|
    ensures r.Some? ==> r.value == arrivals[..expected]
  {
    if 0 < |arrivals| && expected <= |arrivals| then Some(arrivals[..expected]) else None
  }

  /** A suggestion that shares no text with the only agent's name finds nothing. */
  lemma SlackNotFound(agent: Agent)
    requires agent.name == "jira"
    ensures FindAgentByName([agent], Strip("slack")).None?
  {
    StripSlack();
    NormalizeSlack();
    LowerJiraName();
    assert !ContainsScan("jira", "slack");
    assert !ContainsScan("slack", "jira") by {
      assert !StartsWith("lack", "jira") by { assert "lack"[..4][0] == 'l'; }
      assert !ContainsScan("lack", "jira");
      assert !StartsWith("slack", "jira") by { assert "slack"[..4][0] == 's'; }
      assert "slack"[1..] == "lack";
    }
    OnlyAgentUnmatched(agent, "slack", "slack");
  }

  lemma StripSlack()
    ensures Strip("slack") == "slack"
  {
    assert StripLeft("slack") == "slack" by { assert !IsSpace('s'); }
    assert StripRight("slack") == "slack" by { assert "slack"[4] == 'k'; assert !IsSpace('k'); }
  }

  lemma NormalizeSlack()
    ensures NormalizeQuery("slack") == "slack"
  {
    StripSlack();
    var l := Lower("slack");
    assert l[0] == 's' && l[1] == 'l' && l[2] == 'a' && l[3] == 'c' && l[4] == 'k';
  }

  lemma LowerJiraName()
    ensures Lower("jira") == "jira"
  {
    var l := Lower("jira");
    assert l[0] == 'j' && l[1] == 'i' && l[2] == 'r' && l[3] == 'a';
  }

  /** A single agent that neither matches exactly nor partially is not found. */
  lemma OnlyAgentUnmatched(agent: Agent, name: string, q: string)
    requires NormalizeQuery(name) == q
    requires Lower(agent.name) != q
    requires !ContainsScan(Lower(agent.name), q) && !ContainsScan(q, Lower(agent.name))
    ensures FindAgentByName([agent], name).None?
  {
    var agents := [agent];
    assert !IsExact(agents[0], q) && !IsPartial(agents[0], q);
  }

  /** The undercount, on one item whose suggested agent is not in the list: one
      event is sent, the stored count is 0, and the collector returns no result
      at all for the item that was dispatched. */
  lemma ToolCallsUndercount(agent: Agent, result: string)
    requires agent.name == "jira"
    ensures var run := ToolRouter(Success([agent]), [Item(Some("task"))], (i: nat, it: Item) => Success("slack"));
      run.RoutedRun? && |run.events| == 1 && run.toolCalls == 0 &&
      Collected([result], run.toolCalls) == Some([])
  {
    SlackNotFound(agent);
    var rs := Routings([agent], [Item(Some("task"))], (i: nat, it: Item) => Success("slack"), 0);
    assert rs[0].NotFound?;
    assert CountNotFound(rs) == 1 by {
      assert rs[1..] == [];
    }
  }

  /** The count the collector evidently needs: one per event sent, whatever the
      routing outcome. With it every dispatched item's result is collected. */
  function ToolRouterFixed(discovered: Result<seq<Agent>, Exc>, items: seq<Item>,
                           llm: (nat, Item) -> Result<string, Exc>): (r: RouterRun)
    ensures discovered.Failure? || |discovered.value| == 0 <==> r.NotRouted?
    ensures r.RoutedRun? ==> |r.events| == |items| && r.toolCalls == |r.events|
  {
    match discovered
    case Failure(_) => NotRouted
    case Success(agents) =>
      if |agents| == 0 then NotRouted
      else
        var rs := Routings(agents, items, llm, 0);
        var evs := Events(agents, items, rs);
        RoutedRun(evs, |evs|)
  }

  /** With the fixed count the collector returns every result, in arrival order,
      and the events are exactly those `tool_router` sends. With no items no
      event is sent and the collector never runs, with either count. */
  lemma FixedCountCollectsAll<T>(discovered: Result<seq<Agent>, Exc>, items: seq<Item>,
                                 llm: (nat, Item) -> Result<string, Exc>, arrivals: seq<T>)
    requires discovered.Success? && |discovered.value| > 0
    requires |items| > 0 && |arrivals| == |items|
    ensures Collected(arrivals, ToolRouterFixed(discovered, items, llm).toolCalls) == Some(arrivals)
    ensures ToolRouter(discovered, items, llm).RoutedRun? &&
            ToolRouter(discovered, items, llm).events == ToolRouterFixed(discovered, items, llm).events
  {
    assert arrivals[..|arrivals|] == arrivals;
  }

  // ---------------------------------------------------------------------------
  // `dispatch_to_agent`
  // ---------------------------------------------------------------------------

  /** A `ToolResult` as the step evidently means to build it: the item's
      description, the response as text and the error flag. */
  datatype ToolResult = ToolResult(actionItem: string, response: string, error: bool)

  /** A Python value handed to an event field: a string, a dict (shown as
      `str()` renders it), or any other value. */
  datatype PyValue = PyStr(s: string) | PyDict(repr: string) | PyOther(repr: string)

  /** `str(v)`. */
  function PyText(v: PyValue): string {
    match v
    case PyStr(s) => s
    case PyDict(r) => r
    case PyOther(r) => r
  }

  /** What the POST to the agent gave: the value `res.json()` parsed, or the
      message of the `RequestException` it raised. */
  datatype HttpReply = Replied(body: PyValue) | RequestFailed(message: string)

  const NoSuitableAgent := "No suitable agent found to perform this action item"

  function Description(item: Item): string {
    item.description.GetOr("Unknown action")
  }

  /** The exception pydantic raises when an event field has the wrong type. */
  const ValidationError := OtherBuiltin("ValidationError")

  /** Building the declared `ToolResult` event: `action_item` is declared a
      `Dict` and `response` a `str`, and pydantic checks both (it does not
      turn a string into a dict, nor a dict into a string). */
  function NewToolResult(actionItem: PyValue, response: PyValue, error: bool): (r: Result<ToolResult, Exc>)
    ensures r.Success? <==> actionItem.PyDict? && response.PyStr?
    ensures r.Success? ==> r.value.response == response.s && r.value.error == error
    ensures r.Failure? ==> r.error.Builtin? && r.error.kind == ValidationError
  {
    if actionItem.PyDict? && response.PyStr? then Success(ToolResult(actionItem.repr, response.s, error))
    else Failure(Builtin(ValidationError, "validation error for ToolResult"))
  }

  /** `dispatch_to_agent` as written: every branch builds the declared event
      with the description string as `action_item`, and the success branch
      passes the parsed JSON as `response`. The validation error is not a
      `RequestException`, so nothing catches it. */
  function DispatchAsWritten(ev: DispatchEvent, http: HttpReply): (r: Result<ToolResult, Exc>)
    ensures r.Success? ==> (r.value.error <==> ev.agent != Unassigned && (ev.endpoint == "" || http.RequestFailed?))
    ensures r.Failure? ==> r.error.Builtin? && r.error.kind == ValidationError
  {
    var d := PyStr(Description(ev.item));
    if ev.agent == Unassigned then NewToolResult(d, PyStr(NoSuitableAgent), false)
    else if ev.endpoint == "" then NewToolResult(d, PyStr("No endpoint found for agent: " + ev.agent), true)
    else match http
      case Replied(body) => NewToolResult(d, body, false)
      case RequestFailed(m) =>
        NewToolResult(d, PyStr("An error occurred while calling " + ev.agent + " agent: " + m), true)
  }

  /** As written, no dispatch produces a result: the description is a string
      where a dict is declared, so every branch, the unassigned one included,
      raises a validation error. */
  lemma DispatchAsWrittenAlwaysRaises(ev: DispatchEvent, http: HttpReply)
    ensures DispatchAsWritten(ev, http).Failure?
    ensures DispatchAsWritten(ev, http).error == Builtin(ValidationError, "validation error for ToolResult")
  {
  }

  /** `dispatch_to_agent` with the event the step evidently means to build: an
      unassigned item is answered without a call and is not an error; a missing
      endpoint is an error; otherwise the reply, as text, decides. It agrees
      with the as-written step on every field that step would set. */
  function DispatchToAgent(ev: DispatchEvent, http: HttpReply): (r: ToolResult)
    ensures r.actionItem == Description(ev.item)
    ensures ev.agent == Unassigned ==> r == ToolResult(Description(ev.item), NoSuitableAgent, false)
    ensures ev.agent != Unassigned && ev.endpoint == "" ==>
      r == ToolResult(Description(ev.item), "No endpoint found for agent: " + ev.agent, true)
    ensures r.error <==> ev.agent != Unassigned && (ev.endpoint == "" || http.RequestFailed?)
    ensures ev.agent != Unassigned && ev.endpoint != "" && http.Replied? ==> r.response == PyText(http.body)
  {
    if ev.agent == Unassigned then ToolResult(Description(ev.item), NoSuitableAgent, false)
    else if ev.endpoint == "" then
      ToolResult(Description(ev.item), "No endpoint found for agent: " + ev.agent, true)
    else match http
      case Replied(body) => ToolResult(Description(ev.item), PyText(body), false)
      case RequestFailed(m) =>
        ToolResult(Description(ev.item), "An error occurred while calling " + ev.agent + " agent: " + m, true)
  }

  /** Routing and dispatch together, with the corrected event: an item whose
      agent could not be found, or whose routing raised, is answered as
      unassignable and never as an error, whatever the network would have
      done. As written, the same item raises (`DispatchAsWrittenAlwaysRaises`). */
  lemma UnroutableItemsAreNotErrors(agents: seq<Agent>, item: Item, answer: Result<string, Exc>, http: HttpReply)
    requires !RouteDecision(agents, answer).ToFound?
    ensures var ev := EventFor(agents, item, RouteDecision(agents, answer));
      DispatchToAgent(ev, http) == ToolResult(Description(item), NoSuitableAgent, false)
  {
  }
}

=== FILE: agent_dispatch.dfy ===
/** The agent dispatch workflow: per-item routing to a registry endpoint,
    classification of one HTTP exchange with an agent, the resilient call
    (retry wrapped around the shared "agent_dispatch" circuit breaker), the
    mapping of each execution to a result, and the success count. */
module AgentDispatch {
  import opened Wrappers
  import opened PyOps
  import opened Exceptions
  import opened ErrorHandler
  import CB = CircuitBreaker
  import R = Retry

  const Unassigned := "UNASSIGNED_AGENT"

  /** An action item, reduced to the fields the dispatch reads or rewrites. */
  datatype ActionItem = ActionItem(title: string, assignedAgent: Option<string>, routingReason: Option<string>)

  /** An agent as the registry lists it. */
  datatype Agent = Agent(agentId: string, name: string, endpoint: string)

  /** `action_item.assigned_agent or "UNASSIGNED_AGENT"`. */
  function EffectiveAgent(item: ActionItem): (r: string)
    ensures item.assignedAgent.Some? && item.assignedAgent.value != "" ==> r == item.assignedAgent.value
    ensures item.assignedAgent.None? || item.assignedAgent.value == "" ==> r == Unassigned
  {
    if item.assignedAgent.Some? && item.assignedAgent.value != "" then item.assignedAgent.value else Unassigned
  }

  /** `_find_agent_by_id`: the first agent with exactly this id. */
  function FindAgentById(agents: seq<Agent>, id: string): (r: Option<nat>)
    ensures r.Some? ==> r.value < |agents| && agents[r.value].agentId == id &&
                        forall j :: 0 <= j < r.value ==> agents[j].agentId != id
    ensures r.None? ==> forall j :: 0 <= j < |agents| ==> agents[j].agentId != id
  {
    if |agents| == 0 then None
    else if agents[0].agentId == id then Some(0)
    else
      var rest := FindAgentById(agents[1..], id);
      if rest.Some? then Some(rest.value + 1) else None
  }

  /** The event sent for one item: its index, the (possibly rewritten) item
      and the endpoint to call, if any. */
  datatype ExecutionRequired = ExecutionRequired(index: nat, item: ActionItem, agentUrl: Option<string>)

  /** Building the `ExecutionRequired` event validates its `agent_url` as an
      `HttpUrl`: the outcome is `str()` of the validated URL, or the
      validation error. */
  type UrlValidator = string -> Result<string, Exc>

  /** The rewrite of the per-item `except`: the item becomes unassigned with
      the error recorded as the reason, and is sent with no endpoint. */
  function DispatchFailed(idx: nat, item: ActionItem, e: Exc): ExecutionRequired {
    ExecutionRequired(idx, item.(assignedAgent := Some(Unassigned),
                                 routingReason := Some("Error during dispatch: " + Str(e))), None)
  }

  /** The routing rule for one item: an assigned agent found in the registry
      gives its endpoint, if that validates as a URL, and otherwise takes the
      per-item error path; one that is not found turns the item into an
      unassigned one with the reason recorded; an unassigned item has no endpoint. */
  function RouteItem(agents: seq<Agent>, validate: UrlValidator, idx: nat, item: ActionItem): (r: ExecutionRequired)
    ensures r.index == idx
    ensures EffectiveAgent(item) == Unassigned ==> r == ExecutionRequired(idx, item, None)
    ensures EffectiveAgent(item) != Unassigned && FindAgentById(agents, EffectiveAgent(item)).Some? ==>
      var url := validate(agents[FindAgentById(agents, EffectiveAgent(item)).value].endpoint);
      (url.Success? ==> r.item == item && r.agentUrl == Some(url.value)) &&
      (url.Failure? ==> r.agentUrl.None? && r.item.title == item.title &&
                        r.item.assignedAgent == Some(Unassigned) &&
                        r.item.routingReason == Some("Error during dispatch: " + Str(url.error)))
    ensures EffectiveAgent(item) != Unassigned && FindAgentById(agents, EffectiveAgent(item)).None? ==>
      r.agentUrl.None? && r.item.title == item.title &&
      r.item.assignedAgent == Some(Unassigned) &&
      r.item.routingReason == Some("Agent '" + EffectiveAgent(item) + "' no longer available")
  {
    var target := EffectiveAgent(item);
    if target == Unassigned then ExecutionRequired(idx, item, None)
    else
      match FindAgentById(agents, target)
      case Some(i) =>
        (match validate(agents[i].endpoint)
         case Success(url) => ExecutionRequired(idx, item, Some(url))
         case Failure(e) => DispatchFailed(idx, item, e))
      case None =>
        ExecutionRequired(idx, item.(assignedAgent := Some(Unassigned),
                                     routingReason := Some("Agent '" + target + "' no longer available")), None)
  }

  /** How `route_action_items` ends: stopped with an error marker, or with one
      execution request per item and the count it stores for collection. */
  datatype RouteOutcome = Stopped(result: string) | Dispatched(requests: seq<ExecutionRequired>, totalExecutions: nat)

  /** `route_action_items`, with the registry's discovery result as input. */
  function RouteActionItems(discovered: Result<seq<Agent>, Exc>, validate: UrlValidator, items: seq<ActionItem>): (r: RouteOutcome)
    ensures discovered.Failure? ==> r == Stopped("agent_discovery_error")
    ensures discovered.Success? && |discovered.value| == 0 ==> r == Stopped("no_agents_available")
    ensures discovered.Success? && |discovered.value| > 0 ==>
      r.Dispatched? && r.totalExecutions == |items| && |r.requests| == |items| &&
      forall i :: 0 <= i < |items| ==> r.requests[i].index == i &&
                                       r.requests[i] == RouteItem(discovered.value, validate, i, items[i])
  {
    match discovered
    case Failure(_) => Stopped("agent_discovery_error")
    case Success(agents) =>
      if |agents| == 0 then Stopped("no_agents_available")
      else
        var requests := seq(|items|, i requires 0 <= i < |items| => RouteItem(agents, validate, i, items[i]));
        assert forall i :: 0 <= i < |items| ==> requests[i] == RouteItem(agents, validate, i, items[i]);
        Dispatched(requests, |items|)
  }

  /** A value `response.json()` can produce; lists and dicts are kept only
      as their `str()`. */
  datatype JsonValue = JStr(s: string) | JInt(i: int) | JFloat(f: real) | JBool(b: bool) | JNull | JCompound(repr: string)

  /** A dict body the agent returned, reduced to the three keys read from it
      (`None` when the key is absent), and its `str()` used when "response"
      is missing. */
  datatype AgentReply = AgentReply(response: Option<JsonValue>, error: Option<JsonValue>,
                                   additionalInfoRequired: Option<JsonValue>, repr: string)

  /** What one HTTP exchange with the agent produced. */
  datatype HttpOutcome =
    | Responded(status: int, text: string, body: Body)
    | TimedOut
    | NetworkFailure(text: string)

  /** The response body as `response.json()` parses it. */
  datatype Body = DictBody(reply: AgentReply) | OtherJson(repr: string) | NotJson(text: string)

  /** The body of `_call_agent_with_resilience` for one attempt, before the
      `ErrorContext` enrichment: status >= 500 is "unavailable", 400..499 a
      response error, a non-dict body a response error, a timeout an agent
      timeout; network errors and undecodable bodies propagate as they are. */
  function ClassifyExchange(agentName: string, agentUrl: string, h: HttpOutcome): (r: Result<AgentReply, Exc>)
    ensures h.Responded? && h.status >= 500 ==> r.Failure? && r.error.Platform? && r.error.cls == AgentUnavailableError
    ensures h.Responded? && 400 <= h.status < 500 ==> r.Failure? && r.error.Platform? && r.error.cls == AgentResponseError
    ensures h.Responded? && h.status < 400 && h.body.OtherJson? ==>
      r.Failure? && r.error.Platform? && r.error.cls == AgentResponseError && r.error.errorCode == "INVALID_RESPONSE"
    ensures h.Responded? && h.status < 400 && h.body.NotJson? ==> r.Failure? && r.error == Builtin(ValueError, h.body.text)
    ensures h.Responded? && h.status < 400 && h.body.DictBody? ==> r == Success(h.body.reply)
    ensures h.TimedOut? ==> r.Failure? && r.error.Platform? && r.error.cls == AgentTimeoutError &&
                            r.error.cause == Some(Builtin(HttpxTimeoutException, ""))
    ensures h.NetworkFailure? ==> r == Failure(Builtin(HttpxNetworkError, h.text))
  {
    match h
    case TimedOut =>
      Failure(NewError(AgentTimeoutError, "Agent " + agentName + " timeout after 120s", Some("AGENT_TIMEOUT"),
                       Some(map["agent_name" := VStr(agentName), "agent_url" := VStr(agentUrl), "timeout" := VReal(120.0)]),
                       Some(Builtin(HttpxTimeoutException, ""))))
    case NetworkFailure(t) => Failure(Builtin(HttpxNetworkError, t))
    case Responded(status, text, body) =>
      if status >= 500 then
        Failure(NewError(AgentUnavailableError, "Agent " + agentName + " unavailable", Some("AGENT_UNAVAILABLE"),
                         Some(map["agent_name" := VStr(agentName), "agent_url" := VStr(agentUrl), "status_code" := VInt(status)]),
                         None))
      else if status >= 400 then
        Failure(NewError(AgentResponseError, "Agent " + agentName + " error", Some("AGENT_ERROR"),
                         Some(map["agent_name" := VStr(agentName), "status_code" := VInt(status),
                                  "response" := VStr(SlicePrefix(text, 200))]),
                         None))
      else
        match body
        case NotJson(t) => Failure(Builtin(ValueError, t))
        case OtherJson(repr) =>
          Failure(NewError(AgentResponseError, "Invalid response format from agent", Some("INVALID_RESPONSE"),
                           Some(map["agent_name" := VStr(agentName), "response" := VStr(SlicePrefix(repr, 200))]),
                           None))
        case DictBody(reply) => Success(reply)
  }

  /** One attempt as the wrapped function sees it: the exchange classified,
      then passed out through `ErrorContext("call_agent", agent_name=..., agent_url=...)`. */
  function CallAgentOnce(agentName: string, agentUrl: string, h: HttpOutcome): (r: Result<AgentReply, Exc>)
    ensures r.Success? <==> ClassifyExchange(agentName, agentUrl, h).Success?
    ensures r.Success? ==> r == ClassifyExchange(agentName, agentUrl, h)
    ensures r.Failure? && r.error.Platform? ==>
      var c := r.error.context;
      "operation" in c && c["operation"] == VStr("call_agent") &&
      "agent_name" in c && c["agent_name"] == VStr(agentName) &&
      "agent_url" in c && c["agent_url"] == VStr(agentUrl) &&
      ClassifyExchange(agentName, agentUrl, h).error.Platform? &&
      r.error.cls == ClassifyExchange(agentName, agentUrl, h).error.cls
    ensures r.Failure? && r.error.Builtin? ==> r == ClassifyExchange(agentName, agentUrl, h)
  {
    match ClassifyExchange(agentName, agentUrl, h)
    case Success(v) => Success(v)
    case Failure(e) =>
      var ctx := map["agent_name" := VStr(agentName), "agent_url" := VStr(agentUrl)];
      Failure(ExitErrorContext("call_agent", ctx, Some(e)).exc.value)
  }

  /** The breaker `with_circuit_breaker(name="agent_dispatch", failure_threshold=5,
      recovery_timeout=60.0)` registers: the default tuple `(Exception,)` counts
      every exception, and two successes close it. */
  function DispatchBreakerConfig(): (c: CB.Config)
    ensures c == CB.Config("agent_dispatch", 5, 60.0, AnyException, 2)
  {
    CB.Config("agent_dispatch", 5, 60.0, CB.ExpectedFromTuple([AnyException]), 2)
  }

  /** The retry policy around it: three attempts, jittered exponential backoff
      from 2 s capped at 30 s, retrying httpx timeouts and network errors and
      the agent timeout and unavailable errors. */
  function DispatchPolicy(): R.Policy {
    R.Policy(3, R.ExponentialJitter, 2.0, 30.0,
             Some([BuiltinType(HttpxTimeoutException), BuiltinType(HttpxNetworkError),
                   PlatformType(AgentTimeoutError), PlatformType(AgentUnavailableError)]),
             false)
  }

  /** Which failures the dispatch policy retries. */
  lemma DispatchRetryable(e: Exc)
    ensures R.IsRetryable(DispatchPolicy(), e) <==>
      (e.Builtin? && (IsBuiltinSubclass(e.kind, HttpxTimeoutException) || IsBuiltinSubclass(e.kind, HttpxNetworkError))) ||
      (e.Platform? && e.cls in {AgentTimeoutError, AgentUnavailableError})
  {
    var ts := R.RetryableTypes(DispatchPolicy());
    if e.Builtin? && IsBuiltinSubclass(e.kind, HttpxTimeoutException) { assert IsInstance(e, ts[0]); }
    if e.Builtin? && IsBuiltinSubclass(e.kind, HttpxNetworkError) { assert IsInstance(e, ts[1]); }
    if e.Platform? && e.cls == AgentTimeoutError { assert IsInstance(e, ts[2]); }
    if e.Platform? && e.cls == AgentUnavailableError { assert IsInstance(e, ts[3]); }
  }

  /** The environment of one attempt: the clock when the breaker admits it,
      the HTTP exchange it would have, and the clock when it completes. */
  datatype Attempt = Attempt(now: real, http: HttpOutcome, doneAt: real)

  /** One attempt through the breaker: `circuit.call(func)` where `func` is the
      HTTP exchange of that attempt. */
  function BreakerStep(agentName: string, agentUrl: string, env: nat -> Attempt): (CB.Breaker, nat) -> (CB.Breaker, Result<AgentReply, Exc>) {
    (b: CB.Breaker, k: nat) =>
      var c := CB.Call(b, env(k).now, CallAgentOnce(agentName, agentUrl, env(k).http), env(k).doneAt);
      (c.breaker, c.result)
  }

  /** What the model takes from Python as given: `repr()` of a string, the
      `repr()` of the workflow object, and the JSON text of an item. */
  datatype Renderer = Renderer(reprStr: string -> string, selfRepr: string, itemJson: ActionItem -> string)

  /** A prompt template: literal text and `{name}` placeholders. */
  datatype Piece = Lit(text: string) | Slot(name: string)

  /** `AGENT_QUERY_PROMPT`: one placeholder, `{action_item}`, between two literal parts. */
  const QueryHead := "\nUsing the context and fields in the following json please preform the required actions:\n**--- JSON START ---**\n"
  const QueryTail := "\n**--- JSON END ---**\n"
  const AgentQueryTemplate: seq<Piece> := [Lit(QueryHead), Slot("action_item"), Lit(QueryTail)]

  /** `PromptTemplate.format(**kwargs)`: each placeholder with a keyword is
      replaced by its value, and one without stays as written, braces and all. */
  function SafeFormat(t: seq<Piece>, kwargs: map<string, string>): (r: string)
    ensures (forall i :: 0 <= i < |t| ==> t[i].Lit?) ==> r == LitText(t)
  {
    if |t| == 0 then ""
    else
      (match t[0]
       case Lit(x) => x
       case Slot(n) => if n in kwargs then kwargs[n] else "{" + n + "}") + SafeFormat(t[1..], kwargs)
  }

  /** The text of a template with no placeholders. */
  function LitText(t: seq<Piece>): string
    requires forall i :: 0 <= i < |t| ==> t[i].Lit?
  {
    if |t| == 0 then "" else t[0].text + LitText(t[1..])
  }

  /** A template of one placeholder between two literals formats to the
      placeholder's keyword value, or to the placeholder as written, between them. */
  lemma {:induction false} FormatOneSlot(head: string, name: string, tail: string, kwargs: map<string, string>)
    ensures SafeFormat([Lit(head), Slot(name), Lit(tail)], kwargs) ==
            head + (if name in kwargs then kwargs[name] else "{" + name + "}") + tail
  {
    var t := [Lit(head), Slot(name), Lit(tail)];
    assert t[1..] == [Slot(name), Lit(tail)];
    assert t[1..][1..] == [Lit(tail)];
    assert t[1..][1..][1..] == [];
    assert SafeFormat(t[1..][1..], kwargs) == tail + SafeFormat([], kwargs);
  }

  /** Formatting `AGENT_QUERY_PROMPT` fills its one placeholder from the
      "action_item" keyword, or leaves it as written. */
  lemma FormatQueryTemplate(kwargs: map<string, string>)
    ensures SafeFormat(AgentQueryTemplate, kwargs) ==
            QueryHead + (if "action_item" in kwargs then kwargs["action_item"] else "{action_item}") + QueryTail
  {
    FormatOneSlot(QueryHead, "action_item", QueryTail, kwargs);
  }

  /** The query as `execute_single_action` renders it: keyword arguments named
      after the item's fields, none of which is the template's placeholder. */
  function QueryAsWritten(title: string, description: string, assignee: string, dueDate: string,
                          priority: string, category: string): string {
    SafeFormat(AgentQueryTemplate, map["title" := title, "description" := description, "assignee" := assignee,
                                       "due_date" := dueDate, "priority" := priority, "category" := category])
  }

  /** As written, the query is the bare template: the placeholder is left in
      place, and no field of the item reaches the agent. */
  lemma QueryAsWrittenOmitsItem(title: string, description: string, assignee: string, dueDate: string,
                                priority: string, category: string)
    ensures QueryAsWritten(title, description, assignee, dueDate, priority, category) ==
            QueryHead + "{action_item}" + QueryTail
  {
    var kw := map["title" := title, "description" := description, "assignee" := assignee,
                  "due_date" := dueDate, "priority" := priority, "category" := category];
    assert "action_item" !in kw;
    FormatQueryTemplate(kw);
  }

  /** The query with the item filled in, as the template asks. */
  function QueryFor(itemJson: string): (r: string)
    ensures r == QueryHead + itemJson + QueryTail
  {
    FormatQueryTemplate(map["action_item" := itemJson]);
    SafeFormat(AgentQueryTemplate, map["action_item" := itemJson])
  }

  /** The corrected query carries the item: two items get the same query
      only when their JSON texts are equal. */
  lemma QueryForDeterminesItem(j1: string, j2: string)
    ensures QueryFor(j1) == QueryFor(j2) <==> j1 == j2
  {
    if QueryFor(j1) == QueryFor(j2) {
      var a := QueryFor(j1);
      assert |j1| == |j2|;
      assert a[|QueryHead|..|QueryHead| + |j1|] == j1;
      assert QueryFor(j2)[|QueryHead|..|QueryHead| + |j2|] == j2;
    }
  }

  /** How the retry decorator sees the call: `self` is the one positional
      argument and the three keyword arguments come in call order. */
  function ResilienceSite(py: Renderer, agentName: string, agentUrl: string, query: string): R.CallSite {
    R.CallSite("_call_agent_with_resilience", "(" + py.selfRepr + ",)",
               "{'agent_url': " + py.reprStr(agentUrl) + ", 'query': " + py.reprStr(query) +
               ", 'agent_name': " + py.reprStr(agentName) + "}")
  }

  /** `_call_agent_with_resilience`: the retry loop, each of whose attempts goes
      through the shared breaker, whose state carries over between attempts. */
  function CallWithResilience(b: CB.Breaker, py: Renderer, agentName: string, agentUrl: string, query: string,
                              env: nat -> Attempt, draws: nat -> real): (r: R.Trace<CB.Breaker, AgentReply>)
    ensures R.Threads(BreakerStep(agentName, agentUrl, env), r.states, r.outcomes, 0)
    ensures 1 <= |r.outcomes| <= 3 && r.states[0] == b
  {
    R.Retry(DispatchPolicy(), ResilienceSite(py, agentName, agentUrl, query),
            BreakerStep(agentName, agentUrl, env), draws, b)
  }

  /** The breaker after a resilient call. */
  function FinalBreaker(r: R.Trace<CB.Breaker, AgentReply>): CB.Breaker
    requires |r.states| > 0
  {
    r.states[|r.states| - 1]
  }

  /** An open breaker inside its window fails the whole call fast: one attempt,
      no HTTP exchange, the `CircuitOpenError` escapes the retry loop (it is not
      retryable) and the breaker is left as it was. */
  lemma {:induction false} OpenBreakerFailsFast(b: CB.Breaker, py: Renderer, agentName: string, agentUrl: string, query: string,
                                                env: nat -> Attempt, draws: nat -> real)
    requires b.cfg == DispatchBreakerConfig() && b.state == CB.Open && !CB.ShouldAttemptReset(b, env(0).now)
    ensures var r := CallWithResilience(b, py, agentName, agentUrl, query, env, draws);
      |r.outcomes| == 1 && r.result == Failure(CB.Rejection(b, env(0).now)) &&
      FinalBreaker(r) == b && r.sleeps == []
  {
    var r := CallWithResilience(b, py, agentName, agentUrl, query, env, draws);
    var e := CB.Rejection(b, env(0).now);
    assert BreakerStep(agentName, agentUrl, env)(r.states[0], 0) == (r.states[1], r.outcomes[0]);
    LeafClasses(e.cls);
    DispatchRetryable(e);
    R.SleepsAndCallbacks(DispatchPolicy(), ResilienceSite(py, agentName, agentUrl, query),
                         BreakerStep(agentName, agentUrl, env), R.BackoffFn(DispatchPolicy(), draws), b, 0, None);
  }

  /** A 4xx answer is not retried: one attempt, the `AgentResponseError` escapes,
      and the breaker (which counts every exception) records one failure. */
  lemma {:induction false} ClientErrorNotRetried(b: CB.Breaker, py: Renderer, agentName: string, agentUrl: string, query: string,
                                                 env: nat -> Attempt, draws: nat -> real)
    requires b.cfg == DispatchBreakerConfig() && b.state == CB.Closed
    requires env(0).http.Responded? && 400 <= env(0).http.status < 500
    ensures var r := CallWithResilience(b, py, agentName, agentUrl, query, env, draws);
      |r.outcomes| == 1 && r.result.Failure? && r.result.error.Platform? &&
      r.result.error.cls == AgentResponseError &&
      FinalBreaker(r).failureCount == b.failureCount + 1 && FinalBreaker(r).lastFailureTime == Some(env(0).doneAt)
  {
    var r := CallWithResilience(b, py, agentName, agentUrl, query, env, draws);
    assert BreakerStep(agentName, agentUrl, env)(r.states[0], 0) == (r.states[1], r.outcomes[0]);
    var e := r.outcomes[0].error;
    DispatchRetryable(e);
  }

  /** Three 5xx answers in a row from a CLOSED breaker with room for three more
      failures: all three attempts run, the retry loop gives up with
      `MaxRetriesExceededError` whose last error is the third
      `AgentUnavailableError`, and the breaker has counted all three. */
  lemma {:induction false} ServerErrorsExhaustRetries(b: CB.Breaker, py: Renderer, agentName: string, agentUrl: string, query: string,
                                                      env: nat -> Attempt, draws: nat -> real)
    requires b.cfg == DispatchBreakerConfig() && b.state == CB.Closed && b.failureCount + 3 < 5
    requires forall k :: 0 <= k < 3 ==> env(k).http.Responded? && env(k).http.status >= 500
    ensures var r := CallWithResilience(b, py, agentName, agentUrl, query, env, draws);
      |r.outcomes| == 3 && r.result.Failure? && r.result.error.Platform? &&
      r.result.error.cls == MaxRetriesExceededError &&
      r.result.error.extra.RetriesExtra? && r.result.error.extra.attempts == 3 &&
      r.result.error.extra.lastError == Some(r.outcomes[2].error) &&
      r.outcomes[2].error.Platform? && r.outcomes[2].error.cls == AgentUnavailableError &&
      FinalBreaker(r).state == CB.Closed && FinalBreaker(r).failureCount == b.failureCount + 3
    ensures var r := CallWithResilience(b, py, agentName, agentUrl, query, env, draws);
      r.result.error.context["function"] == VStr("_call_agent_with_resilience") &&
      r.result.error.context["args"] == VStr(SlicePrefix("(" + py.selfRepr + ",)", 100)) &&
      r.result.error.context["kwargs"] == VStr(SlicePrefix(ResilienceSite(py, agentName, agentUrl, query).kwargsRepr, 100))
  {
    var step := BreakerStep(agentName, agentUrl, env);
    var r := CallWithResilience(b, py, agentName, agentUrl, query, env, draws);
    var n := |r.outcomes|;
    forall i | 0 <= i < n
      ensures r.states[i].state == CB.Closed && r.states[i].cfg == b.cfg && r.states[i].failureCount == b.failureCount + i
      ensures r.outcomes[i].Failure? && r.outcomes[i].error.Platform? && r.outcomes[i].error.cls == AgentUnavailableError
      ensures r.states[i + 1] == CB.OnFailure(r.states[i], env(i).doneAt)
    {
      ClosedChain(b, step, agentName, agentUrl, env, r.states, r.outcomes, i);
    }
    forall i | 0 <= i < n
      ensures R.RetriedFailure(DispatchPolicy(), r.outcomes[i])
    {
      DispatchRetryable(r.outcomes[i].error);
    }
    assert n == 3;
  }

  /** The breaker opening in the middle of the retry loop ends it: with one
      failure of room left, a 5xx answer opens the breaker, the retry sleeps and
      tries again, and if that attempt arrives inside the recovery window the
      breaker rejects it; the `CircuitOpenError` is not retryable and escapes
      after two attempts, the second of which never reached the agent. */
  lemma {:induction false} BreakerOpensMidRetry(b: CB.Breaker, py: Renderer, agentName: string, agentUrl: string, query: string,
                                                env: nat -> Attempt, draws: nat -> real)
    requires b.cfg == DispatchBreakerConfig() && b.state == CB.Closed && b.failureCount == 4
    requires env(0).http.Responded? && env(0).http.status >= 500
    requires env(1).now - env(0).doneAt < 60.0
    ensures var r := CallWithResilience(b, py, agentName, agentUrl, query, env, draws);
      |r.outcomes| == 2 && r.outcomes[0].Failure? && r.outcomes[0].error.Platform? &&
      r.outcomes[0].error.cls == AgentUnavailableError &&
      r.result == Failure(CB.Rejection(r.states[1], env(1).now)) &&
      FinalBreaker(r).state == CB.Open && FinalBreaker(r).failureCount == 5 &&
      FinalBreaker(r).lastFailureTime == Some(env(0).doneAt)
  {
    var step := BreakerStep(agentName, agentUrl, env);
    var o := CallAgentOnce(agentName, agentUrl, env(0).http);
    assert o.Failure? && o.error.Platform? && o.error.cls == AgentUnavailableError;
    DispatchRetryable(o.error);
    var b1 := CB.OnFailure(b, env(0).doneAt);
    assert step(b, 0) == (b1, o);
    var e := CB.Rejection(b1, env(1).now);
    assert step(b1, 1) == (b1, Failure(e));
    LeafClasses(e.cls);
    DispatchRetryable(e);
    R.SecondAttemptEscapes(DispatchPolicy(), ResilienceSite(py, agentName, agentUrl, query), step, draws, b);
  }

  /** Step `i` of a run of 5xx answers from a CLOSED breaker that stays below its threshold. */
  lemma {:induction false} ClosedChain(b: CB.Breaker, step: (CB.Breaker, nat) -> (CB.Breaker, Result<AgentReply, Exc>),
                                       agentName: string, agentUrl: string, env: nat -> Attempt,
                                       states: seq<CB.Breaker>, outcomes: seq<Result<AgentReply, Exc>>, i: nat)
    requires step == BreakerStep(agentName, agentUrl, env)
    requires b.cfg == DispatchBreakerConfig() && b.state == CB.Closed && b.failureCount + 3 < 5
    requires forall k :: 0 <= k < 3 ==> env(k).http.Responded? && env(k).http.status >= 500
    requires R.Threads(step, states, outcomes, 0) && states[0] == b && |outcomes| <= 3
    requires i < |outcomes|
    ensures states[i].state == CB.Closed && states[i].cfg == b.cfg && states[i].failureCount == b.failureCount + i
    ensures outcomes[i].Failure? && outcomes[i].error.Platform? && outcomes[i].error.cls == AgentUnavailableError
    ensures states[i + 1] == CB.OnFailure(states[i], env(i).doneAt)
    decreases i
  {
    if i > 0 {
      ClosedChain(b, step, agentName, agentUrl, env, states, outcomes, i - 1);
    }
    assert step(states[i], 0 + i) == (states[i + 1], outcomes[i]);
    var o := CallAgentOnce(agentName, agentUrl, env(i).http);
    assert o.Failure? && o.error.Platform? && o.error.cls == AgentUnavailableError;
  }

  /** The result of one execution as `execute_single_action` reports it. */
  datatype ExecutionResult = ExecutionResult(index: nat, item: ActionItem, agentName: string,
                                             requestError: bool, agentError: bool, response: string,
                                             additionalInfoRequired: bool)

  /** The agent's endpoint path, joined onto the registered URL. */
  const AgentPath := "/agent"

  /** The strings Pydantic's lax mode reads as `True` and as `False`, after lower-casing. */
  const TrueStrings: set<string> := {"1", "on", "t", "true", "y", "yes"}
  const FalseStrings: set<string> := {"0", "off", "f", "false", "n", "no"}

  /** Pydantic's lax validation of a `bool` field: a bool as it is, the
      integers and floats 0 and 1, and the listed strings; anything else,
      `None` included, is refused. */
  function LaxBool(v: JsonValue): (r: Option<bool>)
    ensures v.JBool? ==> r == Some(v.b)
    ensures v.JNull? || v.JCompound? ==> r.None?
    ensures v.JInt? ==> (r.Some? <==> v.i == 0 || v.i == 1) && (r.Some? ==> (r.value <==> v.i == 1))
    ensures v.JStr? ==> (r == Some(true) <==> Lower(v.s) in TrueStrings) && (r == Some(false) <==> Lower(v.s) in FalseStrings)
  {
    match v
    case JBool(b) => Some(b)
    case JInt(i) => if i == 0 then Some(false) else if i == 1 then Some(true) else None
    case JFloat(f) => if f == 0.0 then Some(false) else if f == 1.0 then Some(true) else None
    case JStr(t) =>
      if Lower(t) in TrueStrings then Some(true)
      else if Lower(t) in FalseStrings then Some(false)
      else None
    case _ => None
  }

  /** A flag an agent writes as Python prints it, as a JSON bool, or as 0/1
      reads back as that flag. */
  lemma LaxBoolReadsPrintedFlags(b: bool)
    ensures LaxBool(JStr(if b then "True" else "False")) == Some(b)
    ensures LaxBool(JStr(if b then "true" else "false")) == Some(b)
    ensures LaxBool(JInt(if b then 1 else 0)) == Some(b)
    ensures LaxBool(JBool(b)) == Some(b)
  {
    if b {
      assert Lower("True") == "true" by { assert Lower("True")[0] == 't'; }
      assert Lower("true") == "true";
    } else {
      assert Lower("False") == "false" by { assert Lower("False")[0] == 'f'; }
      assert Lower("false") == "false";
    }
  }

  /** The three values `execute_single_action` reads from the reply (with the
      defaults `str(reply)`, False and False), once `AgentExecutionResult`
      has validated them: "response" must be a string and the two flags must
      read as bools; otherwise the result model raises. */
  function ReplyFields(reply: AgentReply): (r: Option<(bool, string, bool)>)
    ensures r.Some? <==>
      (reply.response.None? || reply.response.value.JStr?) &&
      (reply.error.None? || LaxBool(reply.error.value).Some?) &&
      (reply.additionalInfoRequired.None? || LaxBool(reply.additionalInfoRequired.value).Some?)
    ensures r.Some? ==> r.value.1 == (if reply.response.None? then reply.repr else reply.response.value.s)
    ensures r.Some? ==> (r.value.0 <==> reply.error.Some? && LaxBool(reply.error.value) == Some(true))
    ensures r.Some? ==>
      (r.value.2 <==> reply.additionalInfoRequired.Some? && LaxBool(reply.additionalInfoRequired.value) == Some(true))
  {
    var response := if reply.response.None? then Some(reply.repr)
                    else if reply.response.value.JStr? then Some(reply.response.value.s) else None;
    var error := if reply.error.None? then Some(false) else LaxBool(reply.error.value);
    var info := if reply.additionalInfoRequired.None? then Some(false) else LaxBool(reply.additionalInfoRequired.value);
    if response.Some? && error.Some? && info.Some? then Some((error.value, response.value, info.value)) else None
  }

  /** `str()` of the validation error `AgentExecutionResult` raises, reduced to its title. */
  const ResultValidationError := "validation error for AgentExecutionResult"

  /** The result `execute_single_action` builds from the resilient call's
      outcome: the reply's fields, or the result model's validation error,
      or one of the two failure messages. */
  function CallResult(index: nat, item: ActionItem, agentName: string, outcome: Result<AgentReply, Exc>): (r: ExecutionResult)
    ensures r.index == index && r.item == item && r.agentName == agentName
    ensures !r.requestError <==> outcome.Success? && ReplyFields(outcome.value).Some?
    ensures r.requestError ==> r.agentError && !r.additionalInfoRequired
    ensures outcome.Success? && ReplyFields(outcome.value).Some? ==>
      var f := ReplyFields(outcome.value).value;
      r.agentError == f.0 && r.response == f.1 && r.additionalInfoRequired == f.2
    ensures outcome.Success? && ReplyFields(outcome.value).None? ==>
      r.response == "Unexpected execution error: " + ResultValidationError
    ensures outcome.Failure? && outcome.error.Platform? &&
            outcome.error.cls in {AgentTimeoutError, AgentUnavailableError, AgentResponseError} ==>
      r.response == "Agent execution failed: " + outcome.error.message
    ensures outcome.Failure? &&
            !(outcome.error.Platform? && outcome.error.cls in {AgentTimeoutError, AgentUnavailableError, AgentResponseError}) ==>
      r.response == "Unexpected execution error: " + Str(outcome.error)
  {
    match outcome
    case Success(reply) =>
      (match ReplyFields(reply)
       case Some(f) => ExecutionResult(index, item, agentName, false, f.0, f.1, f.2)
       case None => ExecutionResult(index, item, agentName, true, true,
                                    "Unexpected execution error: " + ResultValidationError, false))
    case Failure(e) =>
      if e.Platform? && e.cls in {AgentTimeoutError, AgentUnavailableError, AgentResponseError} then
        ExecutionResult(index, item, agentName, true, true, "Agent execution failed: " + e.message, false)
      else
        ExecutionResult(index, item, agentName, true, true, "Unexpected execution error: " + Str(e), false)
  }

  /** `execute_single_action` for one request, given the breaker, the attempts'
      environment and the jitter samples; the breaker afterwards is returned
      with the result. An unassigned item or a missing endpoint makes no call;
      otherwise the call goes to `urljoin(agent_url, "/agent")` with the
      query for the item. */
  function ExecuteSingleAction(req: ExecutionRequired, py: Renderer, b: CB.Breaker, env: nat -> Attempt, draws: nat -> real):
    (r: (CB.Breaker, ExecutionResult))
    ensures r.1.index == req.index && r.1.item == req.item && r.1.agentName == EffectiveAgent(req.item)
    ensures EffectiveAgent(req.item) == Unassigned || req.agentUrl.None? || req.agentUrl.value == "" ==>
      r.0 == b && r.1.requestError && r.1.agentError
    ensures !r.1.requestError ==>
      !(req.agentUrl.None? || req.agentUrl.value == "") && EffectiveAgent(req.item) != Unassigned
    ensures r.1.requestError ==> r.1.agentError
    ensures EffectiveAgent(req.item) != Unassigned && req.agentUrl.Some? && req.agentUrl.value != "" ==>
      var t := CallWithResilience(b, py, EffectiveAgent(req.item), UrlJoinAbsolute(req.agentUrl.value, AgentPath),
                                  QueryFor(py.itemJson(req.item)), env, draws);
      r.0 == FinalBreaker(t) && r.1 == CallResult(req.index, req.item, EffectiveAgent(req.item), t.result) &&
      (r.1.requestError <==> t.result.Failure? || ReplyFields(t.result.value).None?)
  {
    var target := EffectiveAgent(req.item);
    if target == Unassigned then
      (b, ExecutionResult(req.index, req.item, target, true, true,
                          "No suitable agent found for this action item. Agent routing failed.", false))
    // `if not event.agent_url` (agent_dispatch_workflow.py:323); a validated URL is never empty
    else if req.agentUrl.None? || req.agentUrl.value == "" then
      (b, ExecutionResult(req.index, req.item, target, true, true,
                          "Agent URL not provided. No URL for agent " + target, false))
    else
      var t := CallWithResilience(b, py, target, UrlJoinAbsolute(req.agentUrl.value, AgentPath),
                                  QueryFor(py.itemJson(req.item)), env, draws);
      (FinalBreaker(t), CallResult(req.index, req.item, target, t.result))
  }

  /** A routed request makes exactly one resilient call, to the joined URL
      with the item's query: the breaker is the one the call leaves, the
      result is built from its outcome, and the execution succeeds exactly
      when the call returned a reply the result model accepts whose "error"
      does not read as true. */
  lemma ExecutionFromCall(req: ExecutionRequired, py: Renderer, b: CB.Breaker, env: nat -> Attempt, draws: nat -> real)
    requires EffectiveAgent(req.item) != Unassigned && req.agentUrl.Some? && req.agentUrl.value != ""
    ensures var t := CallWithResilience(b, py, EffectiveAgent(req.item), UrlJoinAbsolute(req.agentUrl.value, AgentPath),
                                        QueryFor(py.itemJson(req.item)), env, draws);
      var r := ExecuteSingleAction(req, py, b, env, draws);
      r.0 == FinalBreaker(t) &&
      r.1 == CallResult(req.index, req.item, EffectiveAgent(req.item), t.result) &&
      (r.1.requestError <==> t.result.Failure? || ReplyFields(t.result.value).None?) &&
      (Succeeded(r.1) <==> t.result.Success? && ReplyFields(t.result.value).Some? && !ReplyFields(t.result.value).value.0)
  {
  }

  /** An endpoint that does not validate as a URL takes the per-item error
      path: the item goes out unassigned, with no call, and ends as "no
      suitable agent" with the breaker untouched. */
  lemma InvalidEndpointEndsUnassigned(agents: seq<Agent>, validate: UrlValidator, idx: nat, item: ActionItem,
                                      py: Renderer, b: CB.Breaker, env: nat -> Attempt, draws: nat -> real)
    requires EffectiveAgent(item) != Unassigned && FindAgentById(agents, EffectiveAgent(item)).Some?
    requires validate(agents[FindAgentById(agents, EffectiveAgent(item)).value].endpoint).Failure?
    ensures var req := RouteItem(agents, validate, idx, item);
      var r := ExecuteSingleAction(req, py, b, env, draws);
      r.0 == b && r.1.agentName == Unassigned && r.1.requestError && r.1.agentError &&
      r.1.response == "No suitable agent found for this action item. Agent routing failed." &&
      r.1.item.routingReason ==
        Some("Error during dispatch: " + Str(validate(agents[FindAgentById(agents, EffectiveAgent(item)).value].endpoint).error))
  {
    var req := RouteItem(agents, validate, idx, item);
    assert EffectiveAgent(req.item) == Unassigned;
  }

  /** A result counts as successful when neither flag is set. */
  predicate Succeeded(r: ExecutionResult) {
    !r.requestError && !r.agentError
  }

  /** `successful_executions` in `collect_execution_results`. */
  function SuccessCount(results: seq<ExecutionResult>): (n: nat)
    ensures n <= |results|
    ensures n == |results| <==> forall i :: 0 <= i < |results| ==> Succeeded(results[i])
    ensures n == 0 <==> forall i :: 0 <= i < |results| ==> !Succeeded(results[i])
  {
    if |results| == 0 then 0
    else
      var rest := SuccessCount(results[1..]);
      assert forall i :: 1 <= i < |results| ==> results[i] == results[1..][i - 1];
      (if Succeeded(results[0]) then 1 else 0) + rest
  }

  /** The count is additive over concatenation, so the order in which
      executions complete does not change it. */
  lemma {:induction false} SuccessCountAppend(a: seq<ExecutionResult>, b: seq<ExecutionResult>)
    ensures SuccessCount(a + b) == SuccessCount(a) + SuccessCount(b)
    decreases |a|
  {
    if |a| == 0 {
      assert a + b == b;
    } else {
      assert (a + b)[1..] == a[1..] + b;
      SuccessCountAppend(a[1..], b);
    }
  }

  /** Items that could not be routed never count as successes. */
  lemma UnroutedNeverSucceeds(req: ExecutionRequired, py: Renderer, b: CB.Breaker, env: nat -> Attempt, draws: nat -> real)
    requires EffectiveAgent(req.item) == Unassigned || req.agentUrl.None?
    ensures !Succeeded(ExecuteSingleAction(req, py, b, env, draws).1)
  {
  }
}

=== FILE: agent_lookup.dfy ===
/** Looking an agent up by the name a language model suggested. The notes
    orchestrator and the action-items workflow carry identical copies of this
    rule: normalise the query, prefer the first exact case-insensitive match,
    then the first two-way substring match. */
module AgentLookup {
  import opened Wrappers
  import opened PyOps
  import opened AgentDispatch

  /** The query as the lookup normalises it: stripped, then lower-cased. Agent
      names are only lower-cased. */
  function NormalizeQuery(name: string): string {
    Lower(Strip(name))
  }

  predicate IsExact(a: Agent, q: string) {
    Lower(a.name) == q
  }

  /** The query occurs in the agent's lower-cased name, or that name in the query. */
  ghost predicate IsPartial(a: Agent, q: string) {
    Contains(Lower(a.name), q) || Contains(q, Lower(a.name))
  }

  /** The first exact match at or after `from`. */
  function FirstExact(agents: seq<Agent>, q: string, from: nat): (r: Option<nat>)
    requires from <= |agents|
    ensures r.Some? ==> from <= r.value < |agents| && IsExact(agents[r.value], q) &&
                        forall j :: from <= j < r.value ==> !IsExact(agents[j], q)
    ensures r.None? ==> forall j :: from <= j < |agents| ==> !IsExact(agents[j], q)
    decreases |agents| - from
  {
    if from == |agents| then None
    else if Lower(agents[from].name) == q then Some(from)
    else FirstExact(agents, q, from + 1)
  }

  /** The first partial match at or after `from`. */
  function FirstPartial(agents: seq<Agent>, q: string, from: nat): (r: Option<nat>)
    requires from <= |agents|
    ensures r.Some? ==> from <= r.value < |agents| && IsPartial(agents[r.value], q) &&
                        forall j :: from <= j < r.value ==> !IsPartial(agents[j], q)
    ensures r.None? ==> forall j :: from <= j < |agents| ==> !IsPartial(agents[j], q)
    decreases |agents| - from
  {
    if from == |agents| then None
    else if ContainsScan(Lower(agents[from].name), q) || ContainsScan(q, Lower(agents[from].name)) then Some(from)
    else FirstPartial(agents, q, from + 1)
  }

  /** `_find_agent_by_name`, returning the position of the agent it picks. An
      exact match anywhere in the list beats every partial match, even an
      earlier one; among matches of the same kind the first wins. */
  function FindAgentByName(agents: seq<Agent>, name: string): (r: Option<nat>)
    ensures r.Some? ==> r.value < |agents|
    ensures (exists j :: 0 <= j < |agents| && IsExact(agents[j], NormalizeQuery(name))) ==>
      r.Some? && IsExact(agents[r.value], NormalizeQuery(name)) &&
      forall j :: 0 <= j < r.value ==> !IsExact(agents[j], NormalizeQuery(name))
    ensures (forall j :: 0 <= j < |agents| ==> !IsExact(agents[j], NormalizeQuery(name))) ==>
      (r.Some? ==> IsPartial(agents[r.value], NormalizeQuery(name)) &&
                   forall j :: 0 <= j < r.value ==> !IsPartial(agents[j], NormalizeQuery(name))) &&
      (r.None? ==> forall j :: 0 <= j < |agents| ==> !IsPartial(agents[j], NormalizeQuery(name)))
  {
    var q := NormalizeQuery(name);
    match FirstExact(agents, q, 0)
    case Some(i) => Some(i)
    case None => FirstPartial(agents, q, 0)
  }

  /** A query that is blank after stripping is a substring of every name, so it
      picks the first agent unless some agent has an empty name. */
  lemma BlankQueryPicksFirst(agents: seq<Agent>, name: string)
    requires |agents| > 0
    requires NormalizeQuery(name) == ""
    requires forall j :: 0 <= j < |agents| ==> agents[j].name != ""
    ensures FindAgentByName(agents, name) == Some(0)
  {
    assert OccursAt(Lower(agents[0].name), "", 0);
    assert IsPartial(agents[0], "");
  }

  /** One blank on each side of a word that neither starts nor ends with
      whitespace is stripped away, and the word is lower-cased. */
  lemma NormalizePadded(w: string)
    requires |w| > 0 && !IsSpace(w[0]) && !IsSpace(w[|w| - 1])
    ensures NormalizeQuery(" " + w + " ") == Lower(w)
  {
    var padded := " " + w + " ";
    assert padded[1..] == w + " ";
    assert StripLeft(w + " ") == w + " " by {
      assert (w + " ")[0] == w[0];
    }
    assert StripLeft(padded) == w + " ";
    assert (w + " ")[..|w|] == w;
    assert StripRight(w) == w;
    assert StripRight(w + " ") == w;
  }

  lemma LowerExample()
    ensures Lower("JIRA") == "jira"
  {
    var l := Lower("JIRA");
    assert l[0] == 'j' && l[1] == 'i' && l[2] == 'r' && l[3] == 'a';
  }

  /** Surrounding blanks and letter case do not matter to the query. */
  lemma NormalizeExample()
    ensures NormalizeQuery(" JIRA ") == "jira"
  {
    assert " JIRA " == " " + "JIRA" + " ";
    NormalizePadded("JIRA");
    LowerExample();
  }

  /** Of two agents, only the second an exact match for the query: the second
      is picked, whatever partial match the first one offers. */
  lemma SecondExactWins(a0: Agent, a1: Agent, name: string)
    requires !IsExact(a0, NormalizeQuery(name)) && IsExact(a1, NormalizeQuery(name))
    ensures FindAgentByName([a0, a1], name) == Some(1)
  {
    var agents := [a0, a1];
    assert IsExact(agents[1], NormalizeQuery(name));
    var r := FindAgentByName(agents, name);
    assert r.Some? && r.value < 2 && IsExact(agents[r.value], NormalizeQuery(name));
    assert r.value != 0;
  }

  lemma LongerNameNotExact(a: Agent, q: string)
    requires |a.name| != |q|
    ensures !IsExact(a, q)
  {
  }

  lemma LowerJira()
    ensures Lower("Jira") == "jira"
  {
    var l := Lower("Jira");
    assert l[0] == 'j' && l[1] == 'i' && l[2] == 'r' && l[3] == 'a';
  }

  /** A later exact match beats an earlier partial one: with agents named
      "Jira Agent" and "Jira", the query " JIRA " picks the second. */
  lemma ExactBeatsEarlierPartial()
    ensures FindAgentByName([Agent("a1", "Jira Agent", "http://a1"), Agent("a2", "Jira", "http://a2")], " JIRA ")
      == Some(1)
  {
    var a0, a1 := Agent("a1", "Jira Agent", "http://a1"), Agent("a2", "Jira", "http://a2");
    NormalizeExample();
    LongerNameNotExact(a0, "jira");
    LowerJira();
    SecondExactWins(a0, a1, " JIRA ");
  }
}

=== FILE: circuit_breaker.dfy ===
/** The circuit breaker: a three-state machine driven by call outcomes and an
    explicit clock, and the process-wide registry of breakers keyed by name. */
module CircuitBreaker {
  import opened Wrappers
  import opened PyOps
  import opened Exceptions

  datatype CircuitState = Closed | Open | HalfOpen

  /** The enum's string value, as it appears in the rejection context. */
  function StateValue(s: CircuitState): string {
    match s
    case Closed => "closed"
    case Open => "open"
    case HalfOpen => "half_open"
  }

  /** The constructor arguments, fixed for the breaker's lifetime. */
  datatype Config = Config(name: string, failureThreshold: int, recoveryTimeout: real,
                           expected: ExcType, successThreshold: int)

  /** The constructor defaults: 5 failures, 60 seconds, any `Exception`, 2 successes. */
  function DefaultConfig(name: string): Config {
    Config(name, 5, 60.0, AnyException, 2)
  }

  datatype Breaker = Breaker(cfg: Config, state: CircuitState, failureCount: nat,
                             successCount: nat, lastFailureTime: Option<real>)

  /** A freshly constructed (or reset) breaker. */
  function New(cfg: Config): (b: Breaker)
    ensures b.cfg == cfg && b.state == Closed
    ensures b.failureCount == 0 && b.successCount == 0 && b.lastFailureTime.None?
  {
    Breaker(cfg, Closed, 0, 0, None)
  }

  /** What every reachable breaker satisfies. */
  predicate Valid(b: Breaker) {
    (b.state == Open || b.state == HalfOpen ==> b.lastFailureTime.Some?) &&
    (b.state != HalfOpen ==> b.successCount == 0) &&
    (b.state == HalfOpen ==> b.successCount == 0 || b.successCount < b.cfg.successThreshold) &&
    (b.state == Closed ==> b.failureCount == 0 || b.failureCount < b.cfg.failureThreshold)
  }

  /** `_should_attempt_reset`: a failure time is recorded and the recovery
      timeout has elapsed since it. */
  predicate ShouldAttemptReset(b: Breaker, now: real) {
    b.lastFailureTime.Some? && now - b.lastFailureTime.value >= b.cfg.recoveryTimeout
  }

  /** The `retry_after` of a rejection. `last_failure_time or time.time()` treats
      a missing time and a recorded time of exactly 0.0 alike. */
  function RetryAfter(b: Breaker, now: real): int {
    var last := if b.lastFailureTime.Some? && b.lastFailureTime.value != 0.0
                then b.lastFailureTime.value else now;
    TruncToInt(b.cfg.recoveryTimeout - (now - last))
  }

  /** The `CircuitOpenError` a rejected call raises. */
  function Rejection(b: Breaker, now: real): (e: Exc)
    ensures e.Platform? && e.cls == CircuitOpenError && WellFormed(e)
    ensures e.errorCode == "CIRCUIT_OPEN"
    ensures e.extra.retryAfter == Some(RetryAfter(b, now))
  {
    NewCircuitOpenError(Some("Circuit breaker '" + b.cfg.name + "' is OPEN"),
                        Some(RetryAfter(b, now)), Some("CIRCUIT_OPEN"),
                        Some(map["circuit_name" := VStr(b.cfg.name),
                                 "state" := VStr(StateValue(b.state)),
                                 "failure_count" := VInt(b.failureCount)]))
  }

  /** The first half of `call`, under the lock: let the call through (possibly
      after moving OPEN to HALF_OPEN) or reject it. */
  datatype Admission = Admitted(breaker: Breaker) | Rejected(error: Exc)

  function Admit(b: Breaker, now: real): (r: Admission)
    ensures b.state != Open ==> r == Admitted(b)
    ensures b.state == Open && ShouldAttemptReset(b, now) ==>
      r == Admitted(b.(state := HalfOpen, successCount := 0))
    ensures b.state == Open && !ShouldAttemptReset(b, now) ==> r == Rejected(Rejection(b, now))
  {
    if b.state == Open then
      if ShouldAttemptReset(b, now) then Admitted(b.(state := HalfOpen, successCount := 0))
      else Rejected(Rejection(b, now))
    else Admitted(b)
  }

  /** `_on_success`. */
  function OnSuccess(b: Breaker): (r: Breaker)
    ensures r.cfg == b.cfg && r.lastFailureTime == b.lastFailureTime
    ensures b.state == Closed ==> r == b.(failureCount := 0)
    ensures b.state == Open ==> r == b
    ensures b.state == HalfOpen && b.successCount + 1 >= b.cfg.successThreshold ==>
      r.state == Closed && r.failureCount == 0 && r.successCount == 0
    ensures b.state == HalfOpen && b.successCount + 1 < b.cfg.successThreshold ==>
      r == b.(successCount := b.successCount + 1)
  {
    match b.state
    case HalfOpen =>
      var n := b.successCount + 1;
      if n >= b.cfg.successThreshold then b.(state := Closed, failureCount := 0, successCount := 0)
      else b.(successCount := n)
    case Closed => b.(failureCount := 0)
    case Open => b
  }

  /** `_on_failure`, at clock reading `now`. */
  function OnFailure(b: Breaker, now: real): (r: Breaker)
    ensures r.cfg == b.cfg
    ensures r.failureCount == b.failureCount + 1 && r.lastFailureTime == Some(now)
    ensures b.state == HalfOpen ==> r.state == Open && r.successCount == 0
    ensures b.state != HalfOpen ==> r.successCount == b.successCount
    ensures b.state != HalfOpen ==>
      (r.state == Open <==> (b.state == Open || r.failureCount >= b.cfg.failureThreshold))
    ensures r.state != HalfOpen
  {
    var b1 := b.(failureCount := b.failureCount + 1, lastFailureTime := Some(now));
    if b.state == HalfOpen then b1.(state := Open, successCount := 0)
    else if b1.failureCount >= b.cfg.failureThreshold then b1.(state := Open)
    else b1
  }

  /** The result of one `call`: the breaker afterwards, what the caller sees,
      and whether the wrapped function ran. */
  datatype CallResult<T> = CallResult(breaker: Breaker, result: Result<T, Exc>, invoked: bool)

  /** `call(func)`: admission at clock reading `now`; if admitted, `func` runs
      and produces `outcome`, and a failure is recorded at clock reading `doneAt`.
      An exception that is not an `expected_exception` passes through unrecorded. */
  function Call<T>(b: Breaker, now: real, outcome: Result<T, Exc>, doneAt: real): (r: CallResult<T>)
    ensures r.breaker.cfg == b.cfg
    ensures !r.invoked <==> (b.state == Open && !ShouldAttemptReset(b, now))
    ensures !r.invoked ==> r.breaker == b && r.result == Failure(Rejection(b, now))
    ensures r.invoked ==> r.result == outcome
    ensures r.invoked && outcome.Success? ==>
      r.breaker == OnSuccess(if b.state == Open then b.(state := HalfOpen, successCount := 0) else b)
    ensures r.invoked && outcome.Failure? && IsInstance(outcome.error, b.cfg.expected) ==>
      r.breaker == OnFailure(if b.state == Open then b.(state := HalfOpen, successCount := 0) else b, doneAt)
    ensures r.invoked && outcome.Failure? && !IsInstance(outcome.error, b.cfg.expected) ==>
      r.breaker == (if b.state == Open then b.(state := HalfOpen, successCount := 0) else b)
  {
    match Admit(b, now)
    case Rejected(e) => CallResult(b, Failure(e), false)
    case Admitted(b1) =>
      match outcome
      case Success(_) => CallResult(OnSuccess(b1), outcome, true)
      case Failure(e) =>
        if IsInstance(e, b.cfg.expected) then CallResult(OnFailure(b1, doneAt), outcome, true)
        else CallResult(b1, outcome, true)
  }

  /** Every call keeps the breaker valid, whatever the clock and the outcome. */
  lemma {:induction false} CallPreservesValid<T>(b: Breaker, now: real, outcome: Result<T, Exc>, doneAt: real)
    requires Valid(b)
    ensures Valid(Call(b, now, outcome, doneAt).breaker)
  {
    var r := Call(b, now, outcome, doneAt);
    if r.invoked {
      var b1 := if b.state == Open then b.(state := HalfOpen, successCount := 0) else b;
      assert Valid(b1);
    }
  }

  /** An OPEN breaker inside its recovery window rejects without running the
      function, whatever the function would have done, and stays as it was. */
  lemma OpenRejectsIndependently<T>(b: Breaker, now: real, o1: Result<T, Exc>, o2: Result<T, Exc>, t1: real, t2: real)
    requires b.state == Open && !ShouldAttemptReset(b, now)
    ensures Call(b, now, o1, t1) == Call(b, now, o2, t2)
    ensures Call(b, now, o1, t1).breaker == b && !Call(b, now, o1, t1).invoked
    ensures b.lastFailureTime.Some? && b.lastFailureTime.value != 0.0 ==>
      Call(b, now, o1, t1).result.error.extra.retryAfter
        == Some(TruncToInt(b.cfg.recoveryTimeout - (now - b.lastFailureTime.value)))
    ensures b.lastFailureTime.None? ==>
      Call(b, now, o1, t1).result.error.extra.retryAfter == Some(TruncToInt(b.cfg.recoveryTimeout))
  {
  }

  /** A rejection issued inside the recovery window advertises a non-negative
      wait that never exceeds the remaining part of the window. */
  lemma RetryAfterBounds(b: Breaker, now: real)
    requires b.state == Open && b.lastFailureTime.Some? && b.lastFailureTime.value != 0.0
    requires !ShouldAttemptReset(b, now) && now >= b.lastFailureTime.value
    ensures 0 <= RetryAfter(b, now)
    ensures RetryAfter(b, now) as real <= b.cfg.recoveryTimeout - (now - b.lastFailureTime.value)
  {
  }

  /** Once the recovery timeout has elapsed, the call is a probe: it runs, and
      a success leaves HALF_OPEN with one success counted (or closes at once
      when one success is enough), while a counted failure reopens. */
  lemma TimeoutAdmitsProbe<T>(b: Breaker, now: real, outcome: Result<T, Exc>, doneAt: real)
    requires b.state == Open && ShouldAttemptReset(b, now)
    ensures Call(b, now, outcome, doneAt).invoked
    ensures outcome.Success? && b.cfg.successThreshold > 1 ==>
      Call(b, now, outcome, doneAt).breaker.state == HalfOpen &&
      Call(b, now, outcome, doneAt).breaker.successCount == 1
    ensures outcome.Success? && b.cfg.successThreshold <= 1 ==>
      Call(b, now, outcome, doneAt).breaker == New(b.cfg).(lastFailureTime := b.lastFailureTime)
    ensures outcome.Failure? && IsInstance(outcome.error, b.cfg.expected) ==>
      Call(b, now, outcome, doneAt).breaker.state == Open &&
      Call(b, now, outcome, doneAt).breaker.lastFailureTime == Some(doneAt)
    ensures outcome.Failure? && !IsInstance(outcome.error, b.cfg.expected) ==>
      Call(b, now, outcome, doneAt).breaker == b.(state := HalfOpen, successCount := 0)
  {
  }

  /** One call of a sequence: clock at admission, the function's outcome, clock at completion. */
  datatype Event = Event(now: real, outcome: Result<(), Exc>, doneAt: real)

  /** The breaker after a sequence of calls made one after another. */
  function Run(b: Breaker, events: seq<Event>): (r: Breaker)
    ensures r.cfg == b.cfg
    decreases |events|
  {
    if |events| == 0 then b
    else Run(Call(b, events[0].now, events[0].outcome, events[0].doneAt).breaker, events[1..])
  }

  predicate AllSucceed(events: seq<Event>) {
    forall i :: 0 <= i < |events| ==> events[i].outcome.Success?
  }

  predicate AllCountedFailures(events: seq<Event>, t: ExcType) {
    forall i :: 0 <= i < |events| ==> events[i].outcome.Failure? && IsInstance(events[i].outcome.error, t)
  }

  /** Any sequence of calls from a fresh breaker ends in a valid one; in
      particular an OPEN breaker always has a failure time recorded. */
  lemma {:induction false} RunFromNewIsValid(cfg: Config, events: seq<Event>)
    ensures Valid(Run(New(cfg), events))
    ensures Run(New(cfg), events).state == Open ==> Run(New(cfg), events).lastFailureTime.Some?
  {
    RunPreservesValid(New(cfg), events);
  }

  lemma {:induction false} RunPreservesValid(b: Breaker, events: seq<Event>)
    requires Valid(b)
    ensures Valid(Run(b, events))
    decreases |events|
  {
    if |events| > 0 {
      CallPreservesValid(b, events[0].now, events[0].outcome, events[0].doneAt);
      RunPreservesValid(Call(b, events[0].now, events[0].outcome, events[0].doneAt).breaker, events[1..]);
    }
  }

  /** In HALF_OPEN, `k` successes in a row with `successCount + k` still below
      the threshold keep the breaker HALF_OPEN and count them all. */
  lemma {:induction false} HalfOpenCountsSuccesses(b: Breaker, events: seq<Event>)
    requires b.state == HalfOpen && AllSucceed(events)
    requires b.successCount + |events| < b.cfg.successThreshold
    ensures Run(b, events) == b.(successCount := b.successCount + |events|)
    decreases |events|
  {
    if |events| > 0 {
      var b1 := Call(b, events[0].now, events[0].outcome, events[0].doneAt).breaker;
      assert b1 == b.(successCount := b.successCount + 1);
      HalfOpenCountsSuccesses(b1, events[1..]);
    }
  }

  /** From a fresh HALF_OPEN probe, exactly `success_threshold` successes close
      the breaker with both counters back at zero. */
  lemma {:induction false} HalfOpenClosesAfterThreshold(b: Breaker, events: seq<Event>)
    requires b.state == HalfOpen && b.successCount == 0 && AllSucceed(events)
    requires b.cfg.successThreshold >= 1 && |events| == b.cfg.successThreshold
    ensures Run(b, events).state == Closed
    ensures Run(b, events).failureCount == 0 && Run(b, events).successCount == 0
  {
    var k := |events| - 1;
    assert events == events[..k] + [events[k]];
    HalfOpenCountsSuccesses(b, events[..k]);
    RunAppend(b, events[..k], [events[k]]);
  }

  lemma {:induction false} RunAppend(b: Breaker, xs: seq<Event>, ys: seq<Event>)
    ensures Run(b, xs + ys) == Run(Run(b, xs), ys)
    decreases |xs|
  {
    if |xs| > 0 {
      assert (xs + ys)[1..] == xs[1..] + ys;
      RunAppend(Call(b, xs[0].now, xs[0].outcome, xs[0].doneAt).breaker, xs[1..], ys);
    } else {
      assert xs + ys == ys;
    }
  }

  /** From CLOSED, `n` counted failures in a row below the threshold keep the
      breaker CLOSED and add `n` to the count; the failure that reaches the
      threshold opens it, stamped with its completion time. */
  lemma {:induction false} ConsecutiveFailuresOpen(b: Breaker, events: seq<Event>)
    requires b.state == Closed && AllCountedFailures(events, b.cfg.expected)
    requires |events| > 0 ==> b.failureCount + |events| <= b.cfg.failureThreshold
    ensures b.failureCount + |events| < b.cfg.failureThreshold ==>
      Run(b, events).state == Closed && Run(b, events).failureCount == b.failureCount + |events|
    ensures |events| > 0 && b.failureCount + |events| == b.cfg.failureThreshold ==>
      Run(b, events).state == Open && Run(b, events).failureCount == b.cfg.failureThreshold &&
      Run(b, events).lastFailureTime == Some(events[|events| - 1].doneAt)
    decreases |events|
  {
    if |events| > 0 {
      var b1 := Call(b, events[0].now, events[0].outcome, events[0].doneAt).breaker;
      assert b1 == OnFailure(b, events[0].doneAt);
      if |events| == 1 {
        assert events[1..] == [];
      } else {
        assert b1.state == Closed;
        ConsecutiveFailuresOpen(b1, events[1..]);
        assert events[1..][|events[1..]| - 1] == events[|events| - 1];
      }
    }
  }

  /** `reset`: back to the constructor's state, keeping the configuration. */
  function Reset(b: Breaker): (r: Breaker)
    ensures r == New(b.cfg)
    ensures Valid(r)
  {
    b.(state := Closed, failureCount := 0, successCount := 0, lastFailureTime := None)
  }

  /** The dict `get_stats` returns. */
  datatype Stats = Stats(name: string, state: CircuitState, failureCount: nat, successCount: nat,
                         failureThreshold: int, recoveryTimeout: real, lastFailureTime: Option<real>)

  function GetStats(b: Breaker): Stats {
    Stats(b.cfg.name, b.state, b.failureCount, b.successCount,
          b.cfg.failureThreshold, b.cfg.recoveryTimeout, b.lastFailureTime)
  }

  /** The statistics determine the breaker completely (apart from the two
      configuration fields they omit), and after `reset` they report the
      initial state under the same configuration. */
  lemma StatsDetermineBreaker(a: Breaker, b: Breaker)
    requires GetStats(a) == GetStats(b)
    requires a.cfg.expected == b.cfg.expected && a.cfg.successThreshold == b.cfg.successThreshold
    ensures a == b
    ensures GetStats(Reset(a)) == Stats(a.cfg.name, Closed, 0, 0, a.cfg.failureThreshold, a.cfg.recoveryTimeout, None)
  {
  }

  /** The registry of breakers by name. */
  type Registry = map<string, Breaker>

  /** `get_circuit_breaker`: the registered breaker for a known name (the new
      arguments are ignored); otherwise a fresh one, registered. */
  function GetCircuitBreaker(reg: Registry, cfg: Config): (r: (Registry, Breaker))
    ensures cfg.name in reg ==> r == (reg, reg[cfg.name])
    ensures cfg.name !in reg ==> r.0 == reg[cfg.name := New(cfg)] && r.1 == New(cfg)
    ensures cfg.name in r.0 && r.0[cfg.name] == r.1
    ensures forall n :: n in reg ==> n in r.0 && r.0[n] == reg[n]
  {
    if cfg.name in reg then (reg, reg[cfg.name])
    else (reg[cfg.name := New(cfg)], New(cfg))
  }

  /** Asking twice for the same name yields the same breaker and leaves the
      registry as the first request left it, whatever thresholds the second asks for. */
  lemma GetCircuitBreakerIdempotent(reg: Registry, cfg1: Config, cfg2: Config)
    requires cfg1.name == cfg2.name
    ensures var (reg1, b1) := GetCircuitBreaker(reg, cfg1);
            GetCircuitBreaker(reg1, cfg2) == (reg1, b1)
  {
  }

  /** `reset_all_circuit_breakers`: every registered breaker reset in place. */
  function ResetAll(reg: Registry): (r: Registry)
    ensures r.Keys == reg.Keys
    ensures forall n :: n in r ==> r[n] == New(reg[n].cfg)
  {
    map n | n in reg :: Reset(reg[n])
  }

  /** `with_circuit_breaker`'s breaker name: the given name unless it is missing
      or empty, else `module.function`. */
  function CircuitName(name: Option<string>, moduleName: string, funcName: string): (r: string)
    ensures name.Some? && name.value != "" ==> r == name.value
    ensures name.None? || name.value == "" ==> r == moduleName + "." + funcName
  {
    if name.Some? && name.value != "" then name.value else moduleName + "." + funcName
  }

  /** `with_circuit_breaker`'s `expected_exception`: only the tuple's first
      element counts; an empty tuple means any `Exception`. */
  function ExpectedFromTuple(ts: seq<ExcType>): (r: ExcType)
    ensures |ts| > 0 ==> r == ts[0]
    ensures |ts| == 0 ==> r == AnyException
  {
    if |ts| > 0 then ts[0] else AnyException
  }

  /** Only the first type of the decorator's tuple is counted: an exception of
      the second type that is not of the first leaves a CLOSED breaker's count alone. */
  lemma DecoratorIgnoresLaterTypes(name: string, t1: ExcType, t2: ExcType, e: Exc, now: real, doneAt: real)
    requires IsInstance(e, t2) && !IsInstance(e, t1)
    ensures var cfg := Config(name, 5, 60.0, ExpectedFromTuple([t1, t2]), 2);
            var o: Result<(), Exc> := Failure(e);
            Call(New(cfg), now, o, doneAt).breaker == New(cfg)
  {
  }
}

=== FILE: error_handler.dfy ===
/** Turning exceptions into HTTP responses, enriching them on the way out of an
    operation, and the optional swallowing wrapper. */
module ErrorHandler {
  import opened Wrappers
  import opened PyOps
  import opened Exceptions

  /** The `detail` of the HTTP exception: a platform error's `to_dict`, or the
      two-key dict built for anything else. */
  datatype Detail = DictDetail(dict: ErrorDict) | GenericDetail(error: string, message: string)

  datatype HttpError = HttpError(status: int, detail: Detail, headers: map<string, string>)

  const ServiceUnavailable := 503
  const BadGateway := 502
  const InternalServerError := 500

  /** `error.retry_after` as Python's truth test sees it: present and non-zero. */
  predicate RetryAfterTruthy(e: Exc) {
    e.Platform? && e.extra.OpenExtra? && e.extra.retryAfter.Some? && e.extra.retryAfter.value != 0
  }

  /** Membership in one of the families the mapping tests, in its order. */
  predicate InFamily(e: Exc, c: ErrorClass) {
    e.Platform? && IsSubclass(e.cls, c)
  }

  /** The ordered mapping of `handle_error_response`. */
  function HandleErrorResponse(e: Exc, defaultStatus: int): (r: HttpError)
    ensures InFamily(e, CircuitOpenError) ==> r.status == ServiceUnavailable
    ensures InFamily(e, CircuitOpenError) ==>
      (("Retry-After" in r.headers) <==> RetryAfterTruthy(e)) &&
      (RetryAfterTruthy(e) ==> r.headers == map["Retry-After" := IntToString(e.extra.retryAfter.value)])
    ensures !InFamily(e, CircuitOpenError) ==> r.headers == map[]
    ensures InFamily(e, MaxRetriesExceededError) || InFamily(e, AgentError) ==> r.status == ServiceUnavailable
    ensures InFamily(e, WorkflowError) ==> r.status == InternalServerError
    ensures InFamily(e, ExternalServiceError) ==> r.status == BadGateway
    ensures e.Platform? && !InFamily(e, CircuitOpenError) && !InFamily(e, MaxRetriesExceededError)
            && !InFamily(e, AgentError) && !InFamily(e, WorkflowError) && !InFamily(e, ExternalServiceError)
            ==> r.status == defaultStatus
    ensures e.Platform? ==> r.detail == DictDetail(ToDict(e))
    ensures e.Builtin? ==> r.status == defaultStatus && r.detail == GenericDetail(BuiltinName(e.kind), e.text)
  {
    if e.Platform? then HttpError(PlatformStatus(e, defaultStatus), DictDetail(ToDict(e)), RetryAfterHeaders(e))
    else HttpError(defaultStatus, GenericDetail(BuiltinName(e.kind), e.text), map[])
  }

  /** The status column of the `isinstance` chain for a platform error, first
      match wins. */
  function PlatformStatus(e: Exc, defaultStatus: int): (status: int)
    requires e.Platform?
    ensures InFamily(e, CircuitOpenError) || InFamily(e, MaxRetriesExceededError) || InFamily(e, AgentError)
            ==> status == ServiceUnavailable
    ensures InFamily(e, WorkflowError) ==> status == InternalServerError
    ensures InFamily(e, ExternalServiceError) ==> status == BadGateway
    ensures !InFamily(e, CircuitOpenError) && !InFamily(e, MaxRetriesExceededError)
            && !InFamily(e, AgentError) && !InFamily(e, WorkflowError) && !InFamily(e, ExternalServiceError)
            ==> status == defaultStatus
  {
    LeafClasses(e.cls);
    FamiliesDisjoint(e.cls);
    if InFamily(e, CircuitOpenError) then ServiceUnavailable
    else if InFamily(e, MaxRetriesExceededError) then ServiceUnavailable
    else if InFamily(e, AgentError) then ServiceUnavailable
    else if InFamily(e, WorkflowError) then InternalServerError
    else if InFamily(e, ExternalServiceError) then BadGateway
    else defaultStatus
  }

  /** The headers column: only the open-circuit branch sets any, and only when
      the error carries a truthy delay. */
  function RetryAfterHeaders(e: Exc): map<string, string>
    requires e.Platform?
  {
    if InFamily(e, CircuitOpenError) && RetryAfterTruthy(e)
    then map["Retry-After" := IntToString(e.extra.retryAfter.value)]
    else map[]
  }

  /** The status the mapping assigns, read off the class alone: a table
      indexed by the top-level family of the class. */
  function StatusByClass(c: ErrorClass, defaultStatus: int): int {
    match c
    case CircuitOpenError | MaxRetriesExceededError => ServiceUnavailable
    case AgentError | AgentTimeoutError | AgentUnavailableError | AgentResponseError
      | AgentAuthenticationError => ServiceUnavailable
    case WorkflowError | WorkflowValidationError | WorkflowExecutionError | WorkflowTimeoutError =>
      InternalServerError
    case ExternalServiceError | GoogleAPIError | JiraAPIError | LLMError => BadGateway
    case _ => defaultStatus
  }

  /** The ordered `isinstance` chain agrees with the per-class table for every
      platform error: because the families are disjoint, the order of the
      branches decides nothing. A 503 comes only from the three 503 families. */
  lemma {:induction false} MappingMatchesTable(e: Exc, defaultStatus: int)
    requires e.Platform?
    requires defaultStatus != ServiceUnavailable
    ensures HandleErrorResponse(e, defaultStatus).status == StatusByClass(e.cls, defaultStatus)
    ensures HandleErrorResponse(e, defaultStatus).status == ServiceUnavailable <==>
      (InFamily(e, CircuitOpenError) || InFamily(e, MaxRetriesExceededError) || InFamily(e, AgentError))
  {
    assert HandleErrorResponse(e, defaultStatus).status == PlatformStatus(e, defaultStatus);
    match e.cls
    case CircuitOpenError =>
    case MaxRetriesExceededError =>
    case AgentError | AgentTimeoutError | AgentUnavailableError | AgentResponseError | AgentAuthenticationError =>
    case WorkflowError | WorkflowValidationError | WorkflowExecutionError | WorkflowTimeoutError =>
    case ExternalServiceError | GoogleAPIError | JiraAPIError | LLMError =>
    case _ =>
  }

  /** Retry-After is only ever sent for an open circuit with a non-zero delay,
      and carries that delay. */
  lemma RetryAfterOnlyWhenOpen(e: Exc, defaultStatus: int)
    requires "Retry-After" in HandleErrorResponse(e, defaultStatus).headers
    ensures e.Platform? && e.cls == CircuitOpenError
    ensures e.extra.OpenExtra? && e.extra.retryAfter.Some? && e.extra.retryAfter.value != 0
  {
    LeafClasses(e.cls);
  }

  /** The `ErrorContext` exit: whether the exception is suppressed, and the
      exception as it leaves the block. */
  datatype ExitResult = ExitResult(suppress: bool, exc: Option<Exc>)

  /** `__exit__` / `__aexit__` of `ErrorContext(operation, **context)`: a
      platform error has the block's context merged into its own and the
      operation recorded; anything else passes through untouched. */
  function ExitErrorContext(operation: string, context: Context, raised: Option<Exc>): (r: ExitResult)
    ensures !r.suppress
    ensures raised.None? ==> r.exc.None?
    ensures raised.Some? && raised.value.Builtin? ==> r.exc == raised
    ensures raised.Some? && raised.value.Platform? ==>
      var before := raised.value;
      r.exc.Some? && r.exc.value.Platform? &&
      var after := r.exc.value;
      after.cls == before.cls && after.message == before.message && after.errorCode == before.errorCode &&
      after.cause == before.cause && after.extra == before.extra &&
      after.context.Keys == before.context.Keys + context.Keys + {"operation"} &&
      after.context["operation"] == VStr(operation) &&
      (forall k :: k in context && k != "operation" ==> after.context[k] == context[k]) &&
      (forall k :: k in before.context && k !in context && k != "operation" ==> after.context[k] == before.context[k])
  {
    match raised
    case None => ExitResult(false, None)
    case Some(e) =>
      if e.Platform? then
        var merged := (e.context + context)["operation" := VStr(operation)];
        ExitResult(false, Some(e.(context := merged)))
      else
        ExitResult(false, Some(e))
  }

  /** Leaving two nested contexts: the inner operation's name is overwritten by
      the outer one, and context keys the outer block sets win. */
  lemma NestedContextsOuterWins(inner: string, innerCtx: Context, outer: string, outerCtx: Context, e: Exc)
    requires e.Platform?
    ensures
      var once := ExitErrorContext(inner, innerCtx, Some(e)).exc;
      var twice := ExitErrorContext(outer, outerCtx, once).exc;
      twice.Some? && twice.value.context["operation"] == VStr(outer) &&
      (forall k :: k in outerCtx && k != "operation" ==> twice.value.context[k] == outerCtx[k]) &&
      (forall k :: k in innerCtx && k !in outerCtx && k != "operation" ==> twice.value.context[k] == innerCtx[k])
  {
  }

  /** `safe_execute` / `safe_execute_async`: the call's result, or on a raised
      exception either the same exception again or `None`. */
  function SafeExecute<T>(outcome: Result<T, Exc>, raiseOnError: bool): (r: Result<Option<T>, Exc>)
    ensures outcome.Success? ==> r == Success(Some(outcome.value))
    ensures outcome.Failure? && raiseOnError ==> r == Failure(outcome.error)
    ensures outcome.Failure? && !raiseOnError ==> r == Success(None)
  {
    match outcome
    case Success(v) => Success(Some(v))
    case Failure(e) => if raiseOnError then Failure(e) else Success(None)
  }

  /** With `raise_on_error` the wrapper is transparent; without it, it never raises. */
  lemma SafeExecuteTransparency<T>(outcome: Result<T, Exc>)
    ensures SafeExecute(outcome, true).Failure? <==> outcome.Failure?
    ensures SafeExecute(outcome, false).Success?
    ensures SafeExecute(outcome, true).Success? ==> SafeExecute(outcome, true) == SafeExecute(outcome, false)
  {
  }
}

=== FILE: exceptions.dfy ===
/** The platform's exception hierarchy: every class below `MeetingActionsError`,
    its constructor defaults, `to_dict`, and `isinstance` against a class or
    a foreign (built-in / library) exception type. */
module Exceptions {
  import opened Wrappers

  /** Every class of the hierarchy, one constructor per Python class. */
  datatype ErrorClass =
    | MeetingActionsError
    | AgentError | AgentTimeoutError | AgentUnavailableError | AgentResponseError | AgentAuthenticationError
    | WorkflowError | WorkflowValidationError | WorkflowExecutionError | WorkflowTimeoutError
    | ExternalServiceError | GoogleAPIError | JiraAPIError | LLMError
    | InfrastructureError | CacheError | RegistryError | ConfigurationError
    | CircuitBreakerError | CircuitOpenError
    | RetryableError
    | MaxRetriesExceededError

  /** The direct base class; `None` only for the root. */
  function Parent(c: ErrorClass): Option<ErrorClass> {
    match c
    case MeetingActionsError => None
    case AgentError | WorkflowError | ExternalServiceError | InfrastructureError
      | CircuitBreakerError | RetryableError | MaxRetriesExceededError => Some(MeetingActionsError)
    case AgentTimeoutError | AgentUnavailableError | AgentResponseError | AgentAuthenticationError => Some(AgentError)
    case WorkflowValidationError | WorkflowExecutionError | WorkflowTimeoutError => Some(WorkflowError)
    case GoogleAPIError | JiraAPIError | LLMError => Some(ExternalServiceError)
    case CacheError | RegistryError | ConfigurationError => Some(InfrastructureError)
    case CircuitOpenError => Some(CircuitBreakerError)
  }

  /** The hierarchy is at most two levels below the root. */
  lemma HierarchyDepth(c: ErrorClass)
    ensures Parent(c).Some? && Parent(Parent(c).value).Some? ==> Parent(Parent(c).value) == Some(MeetingActionsError)
  {
  }

  /** Python `issubclass(c, d)`: `d` is `c` itself or one of its (at most two) ancestors. */
  predicate IsSubclass(c: ErrorClass, d: ErrorClass) {
    c == d || Parent(c) == Some(d) || (Parent(c).Some? && Parent(Parent(c).value) == Some(d))
  }

  /** `__class__.__name__`. */
  function ClassName(c: ErrorClass): (r: string)
    ensures |r| > 0
  {
    match c
    case MeetingActionsError => "MeetingActionsError"
    case AgentError => "AgentError"
    case AgentTimeoutError => "AgentTimeoutError"
    case AgentUnavailableError => "AgentUnavailableError"
    case AgentResponseError => "AgentResponseError"
    case AgentAuthenticationError => "AgentAuthenticationError"
    case WorkflowError => "WorkflowError"
    case WorkflowValidationError => "WorkflowValidationError"
    case WorkflowExecutionError => "WorkflowExecutionError"
    case WorkflowTimeoutError => "WorkflowTimeoutError"
    case ExternalServiceError => "ExternalServiceError"
    case GoogleAPIError => "GoogleAPIError"
    case JiraAPIError => "JiraAPIError"
    case LLMError => "LLMError"
    case InfrastructureError => "InfrastructureError"
    case CacheError => "CacheError"
    case RegistryError => "RegistryError"
    case ConfigurationError => "ConfigurationError"
    case CircuitBreakerError => "CircuitBreakerError"
    case CircuitOpenError => "CircuitOpenError"
    case RetryableError => "RetryableError"
    case MaxRetriesExceededError => "MaxRetriesExceededError"
  }

  /** Exceptions from outside the hierarchy that the core names explicitly,
      with the concrete subclasses the standard library and httpx raise for
      them. `OtherBuiltin` is any other class, subclass of none of these. */
  datatype BuiltinKind =
    | TimeoutError | AsyncioTimeoutError
    | ConnectionError | ConnectionResetError | ConnectionRefusedError | ConnectionAbortedError | BrokenPipeError
    | HttpxTimeoutException | HttpxConnectTimeout | HttpxReadTimeout | HttpxWriteTimeout | HttpxPoolTimeout
    | HttpxNetworkError | HttpxConnectError | HttpxReadError | HttpxWriteError | HttpxCloseError
    | ValueError | JsonDecodeError | ZeroDivisionError
    | OtherBuiltin(name: string)

  function BuiltinName(k: BuiltinKind): string {
    match k
    case TimeoutError => "TimeoutError"
    case AsyncioTimeoutError => "TimeoutError"
    case ConnectionError => "ConnectionError"
    case ConnectionResetError => "ConnectionResetError"
    case ConnectionRefusedError => "ConnectionRefusedError"
    case ConnectionAbortedError => "ConnectionAbortedError"
    case BrokenPipeError => "BrokenPipeError"
    case HttpxTimeoutException => "TimeoutException"
    case HttpxConnectTimeout => "ConnectTimeout"
    case HttpxReadTimeout => "ReadTimeout"
    case HttpxWriteTimeout => "WriteTimeout"
    case HttpxPoolTimeout => "PoolTimeout"
    case HttpxNetworkError => "NetworkError"
    case HttpxConnectError => "ConnectError"
    case HttpxReadError => "ReadError"
    case HttpxWriteError => "WriteError"
    case HttpxCloseError => "CloseError"
    case ValueError => "ValueError"
    case JsonDecodeError => "JSONDecodeError"
    case ZeroDivisionError => "ZeroDivisionError"
    case OtherBuiltin(n) => n
  }

  /** The direct base class among the modelled kinds, if there is one. */
  function BuiltinParent(k: BuiltinKind): Option<BuiltinKind> {
    match k
    case ConnectionResetError | ConnectionRefusedError | ConnectionAbortedError | BrokenPipeError => Some(ConnectionError)
    case HttpxConnectTimeout | HttpxReadTimeout | HttpxWriteTimeout | HttpxPoolTimeout => Some(HttpxTimeoutException)
    case HttpxConnectError | HttpxReadError | HttpxWriteError | HttpxCloseError => Some(HttpxNetworkError)
    case JsonDecodeError => Some(ValueError)
    case _ => None
  }

  /** `issubclass(k, d)` for the modelled kinds: no parent has a parent of its
      own among them, so one level is the whole relation. */
  predicate IsBuiltinSubclass(k: BuiltinKind, d: BuiltinKind) {
    k == d || BuiltinParent(k) == Some(d)
  }

  /** The values a `context` dict holds in this code base. */
  datatype Value = VStr(s: string) | VInt(i: int) | VReal(r: real) | VBool(b: bool) | VNone

  type Context = map<string, Value>

  /** Attributes only two classes carry: `retry_after` and `attempts`/`last_error`. */
  datatype Extra =
    | NoExtra
    | OpenExtra(retryAfter: Option<int>)
    | RetriesExtra(attempts: int, lastError: Option<Exc>)

  /** A raised exception: one of the platform's classes with its attributes,
      or a foreign exception with its `str()`. */
  datatype Exc =
    | Platform(cls: ErrorClass, message: string, errorCode: string, context: Context,
               cause: Option<Exc>, extra: Extra)
    | Builtin(kind: BuiltinKind, text: string)

  /** `str(e)`: the message the base `Exception.__init__` was given. */
  function Str(e: Exc): string {
    match e
    case Platform(_, m, _, _, _, _) => m
    case Builtin(_, t) => t
  }

  /** `e.__class__.__name__`. */
  function TypeName(e: Exc): string {
    match e
    case Platform(c, _, _, _, _, _) => ClassName(c)
    case Builtin(k, _) => BuiltinName(k)
  }

  /** The shape every constructor leaves: the special attributes exist exactly
      on the classes that define them. */
  predicate WellFormed(e: Exc) {
    e.Platform? ==>
      (e.cls == CircuitOpenError <==> e.extra.OpenExtra?) &&
      (e.cls == MaxRetriesExceededError <==> e.extra.RetriesExtra?)
  }

  /** The defaulting rule of `MeetingActionsError.__init__`: a missing or empty
      `error_code` becomes the class name, a missing or empty `context` becomes `{}`. */
  function DefaultCode(c: ErrorClass, errorCode: Option<string>): string {
    if errorCode.Some? && errorCode.value != "" then errorCode.value else ClassName(c)
  }

  function DefaultContext(context: Option<Context>): Context {
    if context.Some? then context.value else map[]
  }

  /** Constructor of every class that inherits `MeetingActionsError.__init__` unchanged. */
  function NewError(c: ErrorClass, message: string, errorCode: Option<string>,
                    context: Option<Context>, cause: Option<Exc>): (e: Exc)
    requires c != CircuitOpenError && c != MaxRetriesExceededError
    ensures e.Platform? && WellFormed(e) && e.cls == c && Str(e) == message
    ensures e.errorCode != ""
    ensures errorCode.None? ==> e.errorCode == ClassName(c)
    ensures errorCode.Some? && errorCode.value != "" ==> e.errorCode == errorCode.value
    ensures context.None? ==> e.context == map[]
  {
    Platform(c, message, DefaultCode(c, errorCode), DefaultContext(context), cause, NoExtra)
  }

  const CircuitOpenDefaultMessage := "Circuit breaker is OPEN - too many failures"

  /** `CircuitOpenError(message=..., retry_after=None, **kwargs)`. */
  function NewCircuitOpenError(message: Option<string>, retryAfter: Option<int>,
                               errorCode: Option<string>, context: Option<Context>): (e: Exc)
    ensures e.Platform? && WellFormed(e) && e.cls == CircuitOpenError
    ensures e.extra.retryAfter == retryAfter
    ensures message.None? ==> Str(e) == CircuitOpenDefaultMessage
    ensures message.Some? ==> Str(e) == message.value
    ensures errorCode.None? ==> e.errorCode == "CircuitOpenError"
  {
    Platform(CircuitOpenError, message.GetOr(CircuitOpenDefaultMessage),
             DefaultCode(CircuitOpenError, errorCode), DefaultContext(context), None,
             OpenExtra(retryAfter))
  }

  /** `MaxRetriesExceededError(message, attempts, last_error=None, **kwargs)`. */
  function NewMaxRetriesError(message: string, attempts: int, lastError: Option<Exc>,
                              context: Option<Context>): (e: Exc)
    ensures e.Platform? && WellFormed(e) && e.cls == MaxRetriesExceededError
    ensures e.extra == RetriesExtra(attempts, lastError)
    ensures Str(e) == message && e.errorCode == "MaxRetriesExceededError"
  {
    Platform(MaxRetriesExceededError, message, DefaultCode(MaxRetriesExceededError, None),
             DefaultContext(context), None, RetriesExtra(attempts, lastError))
  }

  /** The dict `to_dict` builds, with exactly its four keys. */
  datatype ErrorDict = ErrorDict(error: string, message: string, errorCode: string, context: Context)

  function ToDict(e: Exc): ErrorDict
    requires e.Platform?
  {
    ErrorDict(ClassName(e.cls), e.message, e.errorCode, e.context)
  }

  /** A freshly constructed error serialises to its class name, its message,
      the defaulted code and the defaulted context. */
  lemma ToDictOfNewError(c: ErrorClass, message: string)
    requires c != CircuitOpenError && c != MaxRetriesExceededError
    ensures ToDict(NewError(c, message, None, None, None))
         == ErrorDict(ClassName(c), message, ClassName(c), map[])
    ensures ToDict(NewError(c, message, Some(""), Some(map[]), None)).errorCode == ClassName(c)
  {
  }

  /** The type in an `except` clause or an `isinstance` check. */
  datatype ExcType = AnyException | PlatformType(cls: ErrorClass) | BuiltinType(kind: BuiltinKind)

  predicate IsInstance(e: Exc, t: ExcType) {
    match t
    case AnyException => true
    case PlatformType(c) => e.Platform? && IsSubclass(e.cls, c)
    case BuiltinType(k) => e.Builtin? && IsBuiltinSubclass(e.kind, k)
  }

  /** `isinstance(e, (t1, t2, ...))`; the empty tuple matches nothing. */
  predicate IsInstanceOfAny(e: Exc, ts: seq<ExcType>) {
    exists i :: 0 <= i < |ts| && IsInstance(e, ts[i])
  }

  /** Every class is a `MeetingActionsError`, and the Agent classes are `AgentError`s. */
  lemma EveryClassIsPlatformError(c: ErrorClass)
    ensures IsSubclass(c, MeetingActionsError)
    ensures c in {AgentTimeoutError, AgentUnavailableError, AgentResponseError, AgentAuthenticationError}
            ==> IsSubclass(c, AgentError)
  {
  }

  /** The five families `handle_error_response` tests never overlap, so the
      order of its `isinstance` branches only matters for the fallback. */
  lemma FamiliesDisjoint(c: ErrorClass)
    ensures IsSubclass(c, AgentError) ==> !IsSubclass(c, WorkflowError) && !IsSubclass(c, ExternalServiceError)
    ensures IsSubclass(c, WorkflowError) ==> !IsSubclass(c, ExternalServiceError)
    ensures IsSubclass(c, CircuitBreakerError) ==>
              !IsSubclass(c, AgentError) && !IsSubclass(c, WorkflowError) && !IsSubclass(c, ExternalServiceError)
  {
    match c
    case MeetingActionsError =>
    case AgentError =>
    case AgentTimeoutError =>
    case AgentUnavailableError =>
    case AgentResponseError =>
    case AgentAuthenticationError =>
    case WorkflowError =>
    case WorkflowValidationError =>
    case WorkflowExecutionError =>
    case WorkflowTimeoutError =>
    case ExternalServiceError =>
    case GoogleAPIError =>
    case JiraAPIError =>
    case LLMError =>
    case InfrastructureError =>
    case CacheError =>
    case RegistryError =>
    case ConfigurationError =>
    case CircuitBreakerError =>
    case CircuitOpenError =>
    case RetryableError =>
    case MaxRetriesExceededError =>
  }

  /** The leaf classes the resilience code catches have no subclasses. */
  lemma LeafClasses(c: ErrorClass)
    ensures IsSubclass(c, CircuitBreakerError) <==> c == CircuitBreakerError || c == CircuitOpenError
    ensures IsSubclass(c, CircuitOpenError) <==> c == CircuitOpenError
    ensures IsSubclass(c, MaxRetriesExceededError) <==> c == MaxRetriesExceededError
    ensures IsSubclass(c, RetryableError) <==> c == RetryableError
  {
    match c
    case MeetingActionsError =>
    case AgentError =>
    case AgentTimeoutError =>
    case AgentUnavailableError =>
    case AgentResponseError =>
    case AgentAuthenticationError =>
    case WorkflowError =>
    case WorkflowValidationError =>
    case WorkflowExecutionError =>
    case WorkflowTimeoutError =>
    case ExternalServiceError =>
    case GoogleAPIError =>
    case JiraAPIError =>
    case LLMError =>
    case InfrastructureError =>
    case CacheError =>
    case RegistryError =>
    case ConfigurationError =>
    case CircuitBreakerError =>
    case CircuitOpenError =>
    case RetryableError =>
    case MaxRetriesExceededError =>
  }
}

=== FILE: google_docs.dfy ===
/** The Google Docs helpers: flattening a document body to plain text, picking the
    Google Doc attachments out of a calendar event, and the cache and length gate
    around fetching a document. The flattener exists in three identical copies
    (the integration, the older tool spec and the oldest base tool spec); this
    one model stands for all three. */
module GoogleDocs {
  import opened Wrappers

  // ---------------------------------------------------------------------------
  // Document structure (the subset of the Docs API JSON the flattener looks at)
  // ---------------------------------------------------------------------------

  /** A `textRun` object; its `content` key may be absent. An empty `textRun`
      object is falsy in Python and reads like an absent one. */
  datatype TextRun = TextRun(content: Option<string>)
  datatype ParagraphElement = ParagraphElement(textRun: Option<TextRun>)
  datatype Paragraph = Paragraph(elements: seq<ParagraphElement>)
  datatype TableCell = TableCell(content: seq<StructuralElement>)
  datatype TableRow = TableRow(cells: seq<TableCell>)
  datatype Table = Table(rows: seq<TableRow>)
  datatype TableOfContents = TableOfContents(content: seq<StructuralElement>)

  /** One structural element of a body. Each of the three keys the flattener
      tests may be present; any other kind of element has none of them. */
  datatype StructuralElement = StructuralElement(
    paragraph: Option<Paragraph>, table: Option<Table>, toc: Option<TableOfContents>)

  /** The text of one paragraph element: its run's content, or "". */
  function ReadParagraphElement(e: ParagraphElement): string {
    match e.textRun
    case None => ""
    case Some(run) => run.content.GetOr("")
  }

  /** The runs of a paragraph concatenated in order, with no separator. */
  function ReadParagraph(es: seq<ParagraphElement>): string {
    if |es| == 0 then "" else ReadParagraphElement(es[0]) + ReadParagraph(es[1..])
  }

  /** `read_structural_elements`: the text of every element, in order. */
  function ReadElements(es: seq<StructuralElement>): string
    decreases es
  {
    if |es| == 0 then "" else ReadElement(es[0]) + ReadElements(es[1..])
  }

  /** One element, by the `if`/`elif` chain: a paragraph wins over a table and a
      table over a table of contents; anything else contributes "". */
  function ReadElement(e: StructuralElement): string
    decreases e
  {
    if e.paragraph.Some? then ReadParagraph(e.paragraph.value.elements)
    else if e.table.Some? then ReadRows(e.table.value.rows)
    else if e.toc.Some? then ReadElements(e.toc.value.content)
    else ""
  }

  /** A table, row by row. */
  function ReadRows(rows: seq<TableRow>): string
    decreases rows
  {
    if |rows| == 0 then "" else ReadCells(rows[0].cells) + ReadRows(rows[1..])
  }

  /** A row, cell by cell, each cell read recursively as a body. */
  function ReadCells(cells: seq<TableCell>): string
    decreases cells
  {
    if |cells| == 0 then "" else ReadElements(cells[0].content) + ReadCells(cells[1..])
  }

  // Shorthands for building documents in the lemmas below.
  function Run(s: string): ParagraphElement { ParagraphElement(Some(TextRun(Some(s)))) }
  function Para(runs: seq<ParagraphElement>): StructuralElement {
    StructuralElement(Some(Paragraph(runs)), None, None)
  }
  function TableOf(rows: seq<TableRow>): StructuralElement {
    StructuralElement(None, Some(Table(rows)), None)
  }
  function TocOf(content: seq<StructuralElement>): StructuralElement {
    StructuralElement(None, None, Some(TableOfContents(content)))
  }

  /** A paragraph element yields exactly its run's content, and "" when the run
      or its content is missing. */
  lemma ParagraphElementText(s: string, e: ParagraphElement)
    ensures ReadParagraphElement(Run(s)) == s
    ensures e.textRun.None? ==> ReadParagraphElement(e) == ""
    ensures e.textRun.Some? && e.textRun.value.content.None? ==> ReadParagraphElement(e) == ""
  {
  }

  /** Paragraph text distributes over concatenation of runs. */
  lemma {:induction false} ReadParagraphAppend(a: seq<ParagraphElement>, b: seq<ParagraphElement>)
    ensures ReadParagraph(a + b) == ReadParagraph(a) + ReadParagraph(b)
    decreases |a|
  {
    if |a| == 0 {
      assert a + b == b;
    } else {
      assert (a + b)[1..] == a[1..] + b;
      ReadParagraphAppend(a[1..], b);
    }
  }

  /** Body text distributes over concatenation of element lists: the text of a
      document is the text of its parts in order, with nothing in between. */
  lemma {:induction false} ReadElementsAppend(a: seq<StructuralElement>, b: seq<StructuralElement>)
    ensures ReadElements(a + b) == ReadElements(a) + ReadElements(b)
    decreases |a|
  {
    if |a| == 0 {
      assert a + b == b;
    } else {
      assert (a + b)[1..] == a[1..] + b;
      ReadElementsAppend(a[1..], b);
    }
  }

  /** Table text distributes over rows, and row text over cells (row-major order). */
  lemma {:induction false} ReadRowsAppend(a: seq<TableRow>, b: seq<TableRow>)
    ensures ReadRows(a + b) == ReadRows(a) + ReadRows(b)
    decreases |a|
  {
    if |a| == 0 {
      assert a + b == b;
    } else {
      assert (a + b)[1..] == a[1..] + b;
      ReadRowsAppend(a[1..], b);
    }
  }

  lemma {:induction false} ReadCellsAppend(a: seq<TableCell>, b: seq<TableCell>)
    ensures ReadCells(a + b) == ReadCells(a) + ReadCells(b)
    decreases |a|
  {
    if |a| == 0 {
      assert a + b == b;
    } else {
      assert (a + b)[1..] == a[1..] + b;
      ReadCellsAppend(a[1..], b);
    }
  }

  /** The `elif` chain: whatever else an element carries, a paragraph decides its
      text; without a paragraph a table does; without either the table of contents
      does; an element with none of the three contributes nothing. */
  lemma ElementPrecedence(e: StructuralElement, rest: seq<StructuralElement>)
    ensures e.paragraph.Some? ==> ReadElement(e) == ReadParagraph(e.paragraph.value.elements)
    ensures e.paragraph.None? && e.table.Some? ==> ReadElement(e) == ReadRows(e.table.value.rows)
    ensures e.paragraph.None? && e.table.None? && e.toc.Some?
      ==> ReadElement(e) == ReadElements(e.toc.value.content)
    ensures e.paragraph.None? && e.table.None? && e.toc.None?
      ==> ReadElements([e] + rest) == ReadElements(rest)
  {
    if e.paragraph.None? && e.table.None? && e.toc.None? {
      assert ([e] + rest)[1..] == rest;
    }
  }

  /** Reading a one-element list reads that element. */
  lemma Singletons(e: StructuralElement, row: TableRow, cell: TableCell, run: ParagraphElement)
    ensures ReadElements([e]) == ReadElement(e)
    ensures ReadRows([row]) == ReadCells(row.cells)
    ensures ReadCells([cell]) == ReadElements(cell.content)
    ensures ReadParagraph([run]) == ReadParagraphElement(run)
  {
    assert [e][1..] == [];
    assert [row][1..] == [];
    assert [cell][1..] == [];
    assert [run][1..] == [];
  }

  /** Nesting is transparent: a table of contents reads as its content, and a
      one-cell table reads as that cell's content. */
  lemma NestingTransparent(content: seq<StructuralElement>)
    ensures ReadElements([TocOf(content)]) == ReadElements(content)
    ensures ReadElements([TableOf([TableRow([TableCell(content)])])]) == ReadElements(content)
  {
    var cell := TableCell(content);
    var row := TableRow([cell]);
    Singletons(TocOf(content), row, cell, Run(""));
    Singletons(TableOf([row]), row, cell, Run(""));
  }

  /** A paragraph of two runs reads as the two texts glued, with nothing between. */
  lemma TwoRunParagraph(a: string, b: string)
    ensures ReadElements([Para([Run(a), Run(b)])]) == a + b
  {
    var r1, r2 := Run(a), Run(b);
    assert [r1, r2] == [r1] + [r2];
    ReadParagraphAppend([r1], [r2]);
    Singletons(Para([r1, r2]), TableRow([]), TableCell([]), r1);
    Singletons(Para([r1, r2]), TableRow([]), TableCell([]), r2);
  }

  /** The paragraph document of the integration's tests: runs are glued as they are. */
  lemma ParagraphExample()
    ensures ReadElements([Para([Run("First paragraph. "), Run("Same paragraph continues.")])])
      == "First paragraph. Same paragraph continues."
  {
    TwoRunParagraph("First paragraph. ", "Same paragraph continues.");
  }

  /** The table document of the integration's tests: cells in row-major order. */
  lemma TableExample()
    ensures ReadElements([TableOf([TableRow([TableCell([Para([Run("Cell 1")])]),
                                             TableCell([Para([Run("Cell 2")])])])])])
      == "Cell 1Cell 2"
  {
    var p1, p2 := Para([Run("Cell 1")]), Para([Run("Cell 2")]);
    var c1, c2 := TableCell([p1]), TableCell([p2]);
    var row := TableRow([c1, c2]);
    assert [c1, c2] == [c1] + [c2];
    ReadCellsAppend([c1], [c2]);
    Singletons(p1, row, c1, Run("Cell 1"));
    Singletons(p2, row, c2, Run("Cell 2"));
    Singletons(TableOf([row]), row, c1, Run(""));
    assert ReadCells([c1, c2]) == "Cell 1" + "Cell 2";
  }

  // ---------------------------------------------------------------------------
  // Attachment filter
  // ---------------------------------------------------------------------------

  const GoogleDocMimeType := "application/vnd.google-apps.document"
  const NoAttachmentsMessage := "Event has no attachments."

  /** An attachment; either key may be absent. */
  datatype Attachment = Attachment(mimeType: Option<string>, fileId: Option<string>)
  /** A calendar event; `attachments` is None when the key is absent. */
  datatype Event = Event(attachments: Option<seq<Attachment>>)

  /** Without an `attachments` key the function returns a message string instead
      of a list. */
  datatype AttachmentIds = NoAttachments(message: string) | DocIds(ids: seq<string>)

  /** A Google Doc attachment with a truthy file id. */
  predicate IsDocWithId(a: Attachment) {
    a.mimeType == Some(GoogleDocMimeType) && a.fileId.Some? && a.fileId.value != ""
  }

  /** The file ids of the Google Doc attachments, in attachment order. */
  function DocIdsOf(atts: seq<Attachment>): (ids: seq<string>)
    ensures |ids| <= |atts|
    ensures forall i :: 0 <= i < |atts| && IsDocWithId(atts[i]) ==> atts[i].fileId.value in ids
    ensures forall id :: id in ids ==>
      exists i :: 0 <= i < |atts| && IsDocWithId(atts[i]) && atts[i].fileId.value == id
    ensures forall id :: id in ids ==> id != ""
  {
    if |atts| == 0 then []
    else
      var rest := DocIdsOf(atts[1..]);
      assert forall i :: 1 <= i < |atts| ==> atts[i] == atts[1..][i - 1];
      if IsDocWithId(atts[0]) then [atts[0].fileId.value] + rest else rest
  }

  /** `get_event_gdoc_attachments_ids` once the event has been fetched. */
  function GetEventGDocAttachmentIds(e: Event): (r: AttachmentIds)
    ensures e.attachments.None? <==> r.NoAttachments?
    ensures r.NoAttachments? ==> r.message == NoAttachmentsMessage
    ensures r.DocIds? ==> forall id :: id in r.ids ==> id != ""
    ensures r.DocIds? ==> (forall a :: a in e.attachments.value && IsDocWithId(a) ==> a.fileId.value in r.ids)
    ensures r.DocIds? ==> (forall id :: id in r.ids ==>
      exists a :: a in e.attachments.value && IsDocWithId(a) && a.fileId.value == id)
  {
    match e.attachments
    case None => NoAttachments(NoAttachmentsMessage)
    case Some(atts) => DocIds(DocIdsOf(atts))
  }

  /** The filter keeps order: the ids of two attachment lists in sequence are the
      ids of the first followed by those of the second. */
  lemma {:induction false} DocIdsOfAppend(a: seq<Attachment>, b: seq<Attachment>)
    ensures DocIdsOf(a + b) == DocIdsOf(a) + DocIdsOf(b)
    decreases |a|
  {
    if |a| == 0 {
      assert a + b == b;
    } else {
      assert (a + b)[1..] == a[1..] + b;
      assert (a + b)[0] == a[0];
      DocIdsOfAppend(a[1..], b);
    }
  }

  /** The event of the integration's tests: two Google Docs around a PDF. */
  lemma AttachmentExamples()
    ensures GetEventGDocAttachmentIds(Event(Some([
        Attachment(Some(GoogleDocMimeType), Some("doc1_id")),
        Attachment(Some("application/pdf"), Some("pdf_id")),
        Attachment(Some(GoogleDocMimeType), Some("doc2_id"))])))
      == DocIds(["doc1_id", "doc2_id"])
    ensures GetEventGDocAttachmentIds(Event(None)) == NoAttachments("Event has no attachments.")
  {
    var a1 := Attachment(Some(GoogleDocMimeType), Some("doc1_id"));
    var a2 := Attachment(Some("application/pdf"), Some("pdf_id"));
    var a3 := Attachment(Some(GoogleDocMimeType), Some("doc2_id"));
    assert [a1, a2, a3] == [a1] + [a2] + [a3];
    DocIdsOfAppend([a1] + [a2], [a3]);
    DocIdsOfAppend([a1], [a2]);
    assert [a1][1..] == [] && [a2][1..] == [] && [a3][1..] == [];
    assert IsDocWithId(a1) && IsDocWithId(a3);
    assert !IsDocWithId(a2) by { assert "application/pdf"[12] != GoogleDocMimeType[12]; }
    assert DocIdsOf([a1]) == ["doc1_id"];
    assert DocIdsOf([a2]) == [];
    assert DocIdsOf([a3]) == ["doc2_id"];
  }

  // ---------------------------------------------------------------------------
  // Fetching with the document cache and the length gate
  // ---------------------------------------------------------------------------

  const TooLongMessage := "Document exceeds maximum length please read as paragraphs"

  /** What a fetch returns (None stands for the API errors it logs and swallows)
      and the document cache after it. */
  datatype Fetched = Fetched(content: Option<string>, cache: map<string, string>)

  /** The cache holds a truthy (non-empty) entry for `docId`. */
  predicate CacheHit(cache: map<string, string>, docId: string) {
    docId in cache && cache[docId] != ""
  }

  /** `fetch_google_doc_content`: `cache` is what the document cache's lookup
      returns (an empty map for a disabled cache), `api` is the document body
      the Docs API returns, or None when the call raises, and `stored` is
      whether `set_document_content` stored the text (it does not when the
      cache is disabled or the write fails). The flattened text is offered to
      the cache before the length check, so the cache may hold text longer than
      the limit. */
  function FetchDocContent(cache: map<string, string>, docId: string,
                           api: Option<seq<StructuralElement>>, stored: bool, maxLength: int): (r: Fetched)
    ensures CacheHit(cache, docId) ==> r == Fetched(Some(cache[docId]), cache)
    ensures !CacheHit(cache, docId) && api.None? ==> r == Fetched(None, cache)
    ensures !CacheHit(cache, docId) && api.Some? ==>
      r.cache == (if stored then cache[docId := ReadElements(api.value)] else cache) &&
      r.content.Some? &&
      (|ReadElements(api.value)| > maxLength ==> r.content.value == TooLongMessage) &&
      (|ReadElements(api.value)| <= maxLength ==> r.content.value == ReadElements(api.value))
  {
    if CacheHit(cache, docId) then Fetched(Some(cache[docId]), cache)
    else match api
      case None => Fetched(None, cache)
      case Some(body) =>
        var text := ReadElements(body);
        var cache' := if stored then cache[docId := text] else cache;
        if |text| > maxLength then Fetched(Some(TooLongMessage), cache')
        else Fetched(Some(text), cache')
  }

  /** A fetch on a miss never hands back text longer than the limit. */
  lemma FetchMissRespectsLimit(cache: map<string, string>, docId: string,
                               api: Option<seq<StructuralElement>>, stored: bool, maxLength: int)
    requires !CacheHit(cache, docId)
    ensures var r := FetchDocContent(cache, docId, api, stored, maxLength);
      r.content.Some? ==> r.content.value == TooLongMessage || |r.content.value| <= maxLength
  {
  }

  /** Because the text is offered to the cache before the gate, a second fetch
      of a document that was refused as too long returns its full text,
      whatever the API would now say, whenever the cache stored it. */
  lemma SecondFetchBypassesGate(cache: map<string, string>, docId: string,
                                body: seq<StructuralElement>, later: Option<seq<StructuralElement>>,
                                laterStored: bool, maxLength: int)
    requires !CacheHit(cache, docId)
    requires |ReadElements(body)| > maxLength >= 0
    ensures var first := FetchDocContent(cache, docId, Some(body), true, maxLength);
      first.content == Some(TooLongMessage) &&
      FetchDocContent(first.cache, docId, later, laterStored, maxLength).content == Some(ReadElements(body))
  {
    var first := FetchDocContent(cache, docId, Some(body), true, maxLength);
    assert first.cache[docId] == ReadElements(body);
    assert CacheHit(first.cache, docId);
  }

  /** When the cache did not store the text (disabled, or the write failed),
      nothing changes between fetches: the second fetch asks the API again and
      the gate applies again. */
  lemma UnstoredFetchStaysGated(cache: map<string, string>, docId: string,
                                body: seq<StructuralElement>, laterStored: bool, maxLength: int)
    requires !CacheHit(cache, docId)
    requires |ReadElements(body)| > maxLength
    ensures var first := FetchDocContent(cache, docId, Some(body), false, maxLength);
      first.cache == cache &&
      first.content == Some(TooLongMessage) &&
      FetchDocContent(first.cache, docId, Some(body), laterStored, maxLength).content == Some(TooLongMessage)
  {
  }
}

=== FILE: notes_orchestrator.dfy ===
/** The routing step of the meeting-notes-and-generation orchestrator: every
    generated action item is assigned to the agent a routing program names, or
    marked unassigned with the reason, and the list always comes back without
    an error flag. */
module NotesOrchestrator {
  import opened Wrappers
  import opened Exceptions
  import opened AgentDispatch
  import opened AgentLookup

  /** The routing program's structured answer for one item. */
  datatype RoutingDecision = RoutingDecision(agentName: string, routingReason: string)

  /** The routing program: for the item at an index, a decision or a raised error. */
  type Router = (nat, ActionItem) -> Result<RoutingDecision, Exc>

  /** The stop event: the (possibly routed) items and the error flag. */
  datatype Routed = Routed(items: seq<ActionItem>, error: bool)

  /** The per-item outcome rule: the agent the lookup finds, with the program's
      reason; a named agent that is not found, or a raised error, leaves the
      item unassigned with the reason recorded. The title never changes. */
  function RouteOne(agents: seq<Agent>, item: ActionItem, decision: Result<RoutingDecision, Exc>): (r: ActionItem)
    ensures r.title == item.title
    ensures r.assignedAgent.Some? && r.routingReason.Some?
    ensures r.assignedAgent.value != Unassigned ==>
      decision.Success? && FindAgentByName(agents, decision.value.agentName).Some? &&
      r.assignedAgent.value == agents[FindAgentByName(agents, decision.value.agentName).value].agentId &&
      r.routingReason.value == decision.value.routingReason
    ensures decision.Success? && FindAgentByName(agents, decision.value.agentName).Some? ==>
      r.assignedAgent.value == agents[FindAgentByName(agents, decision.value.agentName).value].agentId &&
      r.routingReason.value == decision.value.routingReason
    ensures decision.Success? && FindAgentByName(agents, decision.value.agentName).None? ==>
      r.assignedAgent.value == Unassigned &&
      r.routingReason.value == "Suggested agent '" + decision.value.agentName + "' not found"
    ensures decision.Failure? ==>
      r.assignedAgent.value == Unassigned &&
      r.routingReason.value == "Error during routing: " + Str(decision.error)
  {
    match decision
    case Failure(e) =>
      item.(assignedAgent := Some(Unassigned), routingReason := Some("Error during routing: " + Str(e)))
    case Success(d) =>
      match FindAgentByName(agents, d.agentName)
      case Some(k) => item.(assignedAgent := Some(agents[k].agentId), routingReason := Some(d.routingReason))
      case None =>
        item.(assignedAgent := Some(Unassigned),
              routingReason := Some("Suggested agent '" + d.agentName + "' not found"))
  }

  /** `route_action_items`, with the registry's discovery as input (a Failure is
      any error raised outside the per-item loop). With no agents, or on such an
      error, the items come back unrouted; the error flag is never set. */
  function RouteActionItems(discovered: Result<seq<Agent>, Exc>, items: seq<ActionItem>, router: Router): (r: Routed)
    ensures !r.error
    ensures |r.items| == |items|
    ensures forall i :: 0 <= i < |items| ==> r.items[i].title == items[i].title
    ensures discovered.Failure? || |discovered.value| == 0 ==> r.items == items
    ensures discovered.Success? && |discovered.value| > 0 ==>
      forall i :: 0 <= i < |items| ==> r.items[i] == RouteOne(discovered.value, items[i], router(i, items[i]))
  {
    match discovered
    case Failure(_) => Routed(items, false)
    case Success(agents) =>
      if |agents| == 0 then Routed(items, false)
      else
        var routed := seq(|items|, i requires 0 <= i < |items| => RouteOne(agents, items[i], router(i, items[i])));
        assert forall i :: 0 <= i < |items| ==> routed[i] == RouteOne(agents, items[i], router(i, items[i]));
        Routed(routed, false)
  }

  /** Routing and dispatch agree: when the dispatch workflow later sees the same
      agent list, every item the orchestrator assigned to an agent is found by
      id, and goes out with that agent's endpoint unchanged exactly when the
      endpoint validates as a URL; the rest go out unassigned. No routed item
      is ever rewritten as "no longer available". */
  lemma RoutedItemsReachDispatch(agents: seq<Agent>, validate: UrlValidator, items: seq<ActionItem>, router: Router, i: nat)
    requires |agents| > 0 && i < |items|
    ensures var routed := RouteActionItems(Success(agents), items, router).items[i];
      var req := RouteItem(agents, validate, i, routed);
      (EffectiveAgent(routed) == Unassigned ==> req.item == routed && req.agentUrl.None?) &&
      (EffectiveAgent(routed) != Unassigned ==>
         FindAgentById(agents, EffectiveAgent(routed)).Some? &&
         (req.item == routed <==> req.agentUrl.Some?) &&
         (req.agentUrl.Some? <==> validate(agents[FindAgentById(agents, EffectiveAgent(routed)).value].endpoint).Success?))
  {
    var routed := RouteActionItems(Success(agents), items, router).items[i];
    var target := EffectiveAgent(routed);
    if target != Unassigned {
      var k := FindAgentByName(agents, router(i, items[i]).value.agentName).value;
      assert routed.assignedAgent.value == agents[k].agentId;
      assert FindAgentById(agents, target).Some?;
    }
  }
}

=== FILE: progressive.dfy ===
/** Progressive summarisation: the reduction-target planner, one summary
    pass with its truncation fallback, chunk summaries glued into sections,
    and the pass loop that assembles the result and its warnings. The token
    counter and the completion calls are oracles passed in as functions. */
module Progressive {
  import opened Wrappers
  import opened PyOps
  import opened Exceptions
  import opened TokenUtils

  datatype Strategy = Aggressive | Balanced | Conservative

  /** The share of the previous token count each pass aims for. */
  function Ratios(s: Strategy): (r: seq<real>)
    ensures |r| == 3
    ensures forall i :: 0 <= i < |r| ==> 0.0 <= r[i] <= 1.0
  {
    match s
    case Aggressive => [0.5, 0.3, 0.15]
    case Conservative => [0.7, 0.5, 0.35]
    case Balanced => [0.6, 0.4, 0.25]
  }

  // ---------------------------------------------------------------------------
  // Planner

  /** `int(current * ratio)`. */
  function Shrink(current: int, ratio: real): int {
    TruncToInt(current as real * ratio)
  }

  /** The planner loop from the running count `current`: each target is the
      truncated product clamped below by the final target, and the next
      product starts from the unclamped value. */
  function PlanFrom(current: int, target: int, ratios: seq<real>): (ts: seq<int>)
    ensures |ts| == |ratios|
    ensures forall i :: 0 <= i < |ts| ==> ts[i] >= target
    decreases |ratios|
  {
    if |ratios| == 0 then []
    else
      var next := Shrink(current, ratios[0]);
      [Max(next, target)] + PlanFrom(next, target, ratios[1..])
  }

  /** The number of passes the planner plans for: `min(max_passes, 3)`,
      and none when that is not positive. */
  function PlannedPasses(maxPasses: int): (n: nat)
    ensures n <= 3
  {
    if maxPasses <= 0 then 0 else Min(maxPasses, 3)
  }

  /** `calculate_reduction_targets`. */
  function CalculateReductionTargets(original: int, target: int, maxPasses: int, s: Strategy): (ts: seq<int>)
    ensures |ts| == PlannedPasses(maxPasses)
    ensures forall i :: 0 <= i < |ts| ==> ts[i] >= target
  {
    PlanFrom(original, target, Ratios(s)[..PlannedPasses(maxPasses)])
  }

  /** The unclamped running count after `n` passes: an independent statement
      of the chain of truncated products. */
  function Chain(current: int, ratios: seq<real>, n: nat): int
    requires n <= |ratios|
  {
    if n == 0 then current else Shrink(Chain(current, ratios, n - 1), ratios[n - 1])
  }

  /** The planner's `i`-th target is the chain after `i + 1` passes,
      clamped below by the final target. */
  lemma {:induction false} PlanIsClampedChain(current: int, target: int, ratios: seq<real>, i: nat)
    requires i < |ratios|
    ensures PlanFrom(current, target, ratios)[i] == Max(Chain(current, ratios, i + 1), target)
    decreases i
  {
    if i > 0 {
      var next := Shrink(current, ratios[0]);
      PlanIsClampedChain(next, target, ratios[1..], i - 1);
      ChainShift(current, ratios, i + 1);
    }
  }

  /** The chain after `n` passes from `current` is the chain after `n - 1`
      passes from the first product. */
  lemma {:induction false} ChainShift(current: int, ratios: seq<real>, n: nat)
    requires 1 <= n <= |ratios|
    ensures Chain(current, ratios, n) == Chain(Shrink(current, ratios[0]), ratios[1..], n - 1)
    decreases n
  {
    var next := Shrink(current, ratios[0]);
    if n > 1 {
      ChainShift(current, ratios, n - 1);
      assert ratios[1..][n - 2] == ratios[n - 1];
      assert Chain(current, ratios, n) == Shrink(Chain(current, ratios, n - 1), ratios[n - 1]);
      assert Chain(next, ratios[1..], n - 1) == Shrink(Chain(next, ratios[1..], n - 2), ratios[1..][n - 2]);
    } else {
      assert Chain(current, ratios, 1) == Shrink(Chain(current, ratios, 0), ratios[0]);
    }
  }

  /** A truncated product with a ratio in [0, 1] never grows a count. */
  lemma ShrinkingStep(current: int, r: real)
    requires current >= 0 && 0.0 <= r <= 1.0
    ensures 0 <= Shrink(current, r) <= current
  {
    assert current as real * r <= current as real * 1.0;
  }

  /** From a non-negative count with ratios in [0, 1] the targets never
      increase and the first never exceeds the larger of the count and the
      final target. */
  lemma {:induction false} PlanNonIncreasing(current: int, target: int, ratios: seq<real>)
    requires current >= 0
    requires forall i :: 0 <= i < |ratios| ==> 0.0 <= ratios[i] <= 1.0
    ensures var ts := PlanFrom(current, target, ratios);
      (forall i, j :: 0 <= i <= j < |ts| ==> ts[j] <= ts[i]) &&
      (|ts| > 0 ==> ts[0] <= Max(current, target))
    decreases |ratios|
  {
    if |ratios| > 0 {
      var next := Shrink(current, ratios[0]);
      ShrinkingStep(current, ratios[0]);
      PlanNonIncreasing(next, target, ratios[1..]);
      var ts := PlanFrom(current, target, ratios);
      var rest := PlanFrom(next, target, ratios[1..]);
      assert ts == [Max(next, target)] + rest;
      forall i, j | 0 <= i <= j < |ts|
        ensures ts[j] <= ts[i]
      {
        if i > 0 {
          assert ts[i] == rest[i - 1] && ts[j] == rest[j - 1];
        } else if j > 0 {
          assert ts[j] == rest[j - 1];
        }
      }
    }
  }

  /** The targets of `calculate_reduction_targets` never increase. */
  lemma TargetsNonIncreasing(original: int, target: int, maxPasses: int, s: Strategy)
    requires original >= 0
    ensures var ts := CalculateReductionTargets(original, target, maxPasses, s);
      forall i, j :: 0 <= i <= j < |ts| ==> ts[j] <= ts[i]
  {
    PlanNonIncreasing(original, target, Ratios(s)[..PlannedPasses(maxPasses)]);
  }

  /** The planner on 10000 tokens towards 1000, for each strategy. */
  lemma PlanExamples()
    ensures CalculateReductionTargets(10000, 1000, 3, Aggressive) == [5000, 1500, 1000]
    ensures CalculateReductionTargets(10000, 1000, 3, Balanced) == [6000, 2400, 1000]
    ensures CalculateReductionTargets(10000, 1000, 3, Conservative) == [7000, 3500, 1225]
    ensures CalculateReductionTargets(10000, 1000, 0, Balanced) == []
  {
    assert TruncToInt(10000 as real * 0.5) == 5000;
    assert TruncToInt(5000 as real * 0.3) == 1500;
    assert TruncToInt(1500 as real * 0.15) == 225;
    assert TruncToInt(10000 as real * 0.6) == 6000;
    assert TruncToInt(6000 as real * 0.4) == 2400;
    assert TruncToInt(2400 as real * 0.25) == 600;
    assert TruncToInt(10000 as real * 0.7) == 7000;
    assert TruncToInt(7000 as real * 0.5) == 3500;
    assert TruncToInt(3500 as real * 0.35) == 1225;
    assert Ratios(Aggressive)[..3] == [0.5, 0.3, 0.15];
    assert Ratios(Balanced)[..3] == [0.6, 0.4, 0.25];
    assert Ratios(Conservative)[..3] == [0.7, 0.5, 0.35];
  }

  // ---------------------------------------------------------------------------
  // One pass

  /** The structured completion: summary, key points and topics. */
  datatype PassOutput = PassOutput(summary: string, keyPoints: seq<string>, topics: seq<string>)

  /** The completion program for pass `n` on a text; `None` when the call
      raises or does not produce the expected structure. */
  type PassModel = (string, int) -> Option<PassOutput>

  datatype SummaryPass = SummaryPass(
    passNumber: int, inputTokens: nat, outputTokens: nat, reductionRatio: real,
    summary: string, keyPoints: seq<string>, topics: seq<string>)

  /** `(input - output) / input`. */
  function Reduction(input: nat, output: nat): (r: real)
    requires input > 0
    ensures r * input as real == (input - output) as real
  {
    QuotientTimes((input - output) as real, input as real);
    (input - output) as real / input as real
  }

  /** The fallback truncation keeps the start, with a 0.9 buffer. */
  const FallbackBuffer := 0.9

  /** `perform_summary_pass`. A completion failure falls back to truncation
      at the pass target; the only exception that escapes is the division by
      an input count of 0, which both paths reach. */
  function PerformSummaryPass(text: string, tok: Tokenizer, model: PassModel, passNumber: int,
                              target: int): (r: Result<SummaryPass, Exc>)
    ensures r.Failure? <==> CountTokens(text, tok) == 0
    ensures r.Failure? ==> r.error == DivisionByZero
    ensures r.Success? ==>
      var p := r.value;
      p.passNumber == passNumber && p.inputTokens == CountTokens(text, tok) &&
      p.outputTokens == CountTokens(p.summary, tok) && RatioHolds(p)
    ensures r.Success? && model(text, passNumber).Some? ==>
      var o := model(text, passNumber).value;
      r.value.summary == o.summary && r.value.keyPoints == o.keyPoints && r.value.topics == o.topics
    ensures r.Success? && model(text, passNumber).None? ==>
      r.value.keyPoints == [] && r.value.topics == [] &&
      Success(r.value.summary) == TruncateText(text, target, tok, true, FallbackBuffer)
  {
    var input := CountTokens(text, tok);
    if input == 0 then Failure(DivisionByZero)
    else
      match model(text, passNumber)
      case Some(o) =>
        var output := CountTokens(o.summary, tok);
        Success(PassRecord(passNumber, input, output, o.summary, o.keyPoints, o.topics))
      case None =>
        var fallback := TruncateText(text, target, tok, true, FallbackBuffer);
        assert fallback.Success?;
        var truncated := fallback.value;
        var output := CountTokens(truncated, tok);
        Success(PassRecord(passNumber, input, output, truncated, [], []))
  }

  /** `reduction_ratio` is the share of the input tokens the pass removed. */
  predicate RatioHolds(p: SummaryPass) {
    p.reductionRatio * p.inputTokens as real == (p.inputTokens - p.outputTokens) as real
  }

  /** The record of a pass, with its reduction ratio. */
  function PassRecord(passNumber: int, input: nat, output: nat, summary: string, keyPoints: seq<string>,
                      topics: seq<string>): (p: SummaryPass)
    requires input > 0
    ensures p.passNumber == passNumber && p.inputTokens == input && p.outputTokens == output
    ensures p.summary == summary && p.keyPoints == keyPoints && p.topics == topics
    ensures RatioHolds(p)
  {
    var ratio := Reduction(input, output);
    assert ratio * input as real == (input - output) as real;
    SummaryPass(passNumber, input, output, ratio, summary, keyPoints, topics)
  }

  /** A pass of 5000 tokens summarised to 2000 reports a reduction of 0.6. */
  lemma ReductionExample()
    ensures Reduction(5000, 2000) == 0.6
  {
  }

  // ---------------------------------------------------------------------------
  // Chunks

  /** The completion program on a chunk (the prompt does not depend on it). */
  type ChunkModel = string -> Option<PassOutput>

  datatype ChunkSummary = ChunkSummary(chunkNumber: int, inputTokens: nat, outputTokens: nat,
                                       summary: string, keyPoints: seq<string>)

  const ChunkTargetReduction := 0.6

  /** `summarize_chunk`: never raises, since the fallback target is never
      negative and so the truncation never divides by zero. */
  function SummarizeChunk(chunk: string, chunkNumber: int, tok: Tokenizer, model: ChunkModel): (c: ChunkSummary)
    ensures c.chunkNumber == chunkNumber && c.inputTokens == CountTokens(chunk, tok)
    ensures c.outputTokens == CountTokens(c.summary, tok)
    ensures model(chunk).Some? ==> c.summary == model(chunk).value.summary && c.keyPoints == model(chunk).value.keyPoints
    ensures model(chunk).None? ==>
      c.keyPoints == [] &&
      Success(c.summary) == TruncateText(chunk, TruncToInt(CountTokens(chunk, tok) as real * ChunkTargetReduction),
                                         tok, true, FallbackBuffer)
  {
    var input := CountTokens(chunk, tok);
    match model(chunk)
    case Some(o) => ChunkSummary(chunkNumber, input, CountTokens(o.summary, tok), o.summary, o.keyPoints)
    case None =>
      var target := TruncToInt(input as real * ChunkTargetReduction);
      var truncated := TruncateText(chunk, target, tok, true, FallbackBuffer).value;
      ChunkSummary(chunkNumber, input, CountTokens(truncated, tok), truncated, [])
  }

  /** Chunk summaries numbered from `first` in order. */
  function SummarizeChunks(chunks: seq<string>, first: int, tok: Tokenizer, model: ChunkModel): (cs: seq<ChunkSummary>)
    ensures |cs| == |chunks|
    ensures forall i :: 0 <= i < |cs| ==> cs[i] == SummarizeChunk(chunks[i], first + i, tok, model)
    decreases |chunks|
  {
    if |chunks| == 0 then []
    else [SummarizeChunk(chunks[0], first, tok, model)] + SummarizeChunks(chunks[1..], first + 1, tok, model)
  }

  /** `"# Section {n}\n{summary}"`. */
  function Section(c: ChunkSummary): string {
    "# Section " + IntToString(c.chunkNumber) + "\n" + c.summary
  }

  function Sections(cs: seq<ChunkSummary>): (r: seq<string>)
    ensures |r| == |cs|
    ensures forall i :: 0 <= i < |cs| ==> r[i] == Section(cs[i])
  {
    seq(|cs|, i requires 0 <= i < |cs| => Section(cs[i]))
  }

  datatype Chunked = Chunked(combined: string, summaries: seq<ChunkSummary>, warnings: seq<string>)

  function CombinedWarning(combinedTokens: int, target: int): string {
    "Combined chunk summaries (" + IntToString(combinedTokens) + " tokens) still exceed target ("
    + IntToString(target) + " tokens). Will apply progressive summarization."
  }

  /** `summarize_with_chunking`. Splitting can only raise the division by a
      zero token count. */
  function SummarizeWithChunking(text: string, tok: Tokenizer, model: ChunkModel, target: int,
                                 chunkSize: int, overlap: int): (r: Result<Chunked, Exc>)
    requires ChunkingTerminates(text, chunkSize, overlap, tok)
    ensures r.Failure? <==> ChunkText(text, chunkSize, overlap, tok).Failure?
    ensures r.Success? ==>
      var chunks := ChunkText(text, chunkSize, overlap, tok).value;
      var c := r.value;
      |c.summaries| == |chunks| &&
      (forall i :: 0 <= i < |chunks| ==>
         (c.summaries[i].chunkNumber == i + 1 && c.summaries[i].inputTokens == CountTokens(chunks[i], tok))) &&
      c.combined == Join("\n\n", Sections(c.summaries)) &&
      |c.warnings| <= 1 &&
      (|c.warnings| == 1 <==> CountTokens(c.combined, tok) > target)
  {
    match ChunkText(text, chunkSize, overlap, tok)
    case Failure(e) => Failure(e)
    case Success(chunks) =>
      var summaries := SummarizeChunks(chunks, 1, tok, model);
      var combined := Join("\n\n", Sections(summaries));
      var combinedTokens := CountTokens(combined, tok);
      var warnings := if combinedTokens > target then [CombinedWarning(combinedTokens, target)] else [];
      Success(Chunked(combined, summaries, warnings))
  }

  // ---------------------------------------------------------------------------
  // The pass loop

  datatype LoopState = LoopState(text: string, passes: seq<SummaryPass>, warnings: seq<string>)

  function PassFailedWarning(passNumber: int, e: Exc): string {
    "Pass " + IntToString(passNumber) + " failed: " + Str(e)
  }

  /** Pass numbers `first, first + 1, ...` in order, each fed the previous
      pass's summary, starting from `text`. */
  ghost predicate PassChain(text: string, tok: Tokenizer, passes: seq<SummaryPass>, first: int)
  {
    (forall i :: 0 <= i < |passes| ==> passes[i].passNumber == first + i) &&
    (|passes| > 0 ==> passes[0].inputTokens == CountTokens(text, tok)) &&
    (forall i :: 0 < i < |passes| ==> passes[i].inputTokens == CountTokens(passes[i - 1].summary, tok))
  }

  lemma PassChainCons(text: string, tok: Tokenizer, p: SummaryPass, rest: seq<SummaryPass>, first: int)
    requires p.passNumber == first && p.inputTokens == CountTokens(text, tok)
    requires PassChain(p.summary, tok, rest, first + 1)
    ensures PassChain(text, tok, [p] + rest, first)
  {
    var ps := [p] + rest;
    forall i | 0 < i < |ps|
      ensures ps[i].passNumber == first + i
      ensures ps[i].inputTokens == CountTokens(ps[i - 1].summary, tok)
    {
      assert ps[i] == rest[i - 1];
      if i > 1 {
        assert ps[i - 1] == rest[i - 2];
      }
    }
  }

  /** The `for pass_num in range(first, max_passes + 1)` loop from `text`:
      the passes it performs and the failure warning, if any. */
  function PassLoop(text: string, tok: Tokenizer, model: PassModel, target: int, targets: seq<int>,
                    first: int, maxPasses: int): (r: LoopState)
    requires first >= 1
    ensures PassChain(text, tok, r.passes, first)
    ensures |r.passes| <= Max(0, Min(maxPasses, |targets|) - first + 1)
    ensures |r.warnings| <= 1
    ensures forall i :: 0 <= i < |r.warnings| ==> StartsWith(r.warnings[i], "Pass ")
    ensures r.passes == [] ==> r.text == text
    ensures r.passes != [] ==> r.text == r.passes[|r.passes| - 1].summary
    ensures forall i :: 0 <= i < |r.passes| ==> r.passes[i].inputTokens > target
    ensures r.warnings == [] ==>
      CountTokens(r.text, tok) <= target || first + |r.passes| > maxPasses || first + |r.passes| > |targets|
    decreases maxPasses - first + 1
  {
    if first > maxPasses then LoopState(text, [], [])
    else if CountTokens(text, tok) <= target then LoopState(text, [], [])
    else if first > |targets| then LoopState(text, [], [])
    else
      match PerformSummaryPass(text, tok, model, first, targets[first - 1])
      case Failure(e) =>
        assert StartsWith(PassFailedWarning(first, e), "Pass ");
        LoopState(text, [], [PassFailedWarning(first, e)])
      case Success(p) =>
        var rest := PassLoop(p.summary, tok, model, target, targets, first + 1, maxPasses);
        PassChainCons(text, tok, p, rest.passes, first);
        LoopState(rest.text, [p] + rest.passes, rest.warnings)
  }

  /** Inside the loop a pass never fails: it only runs on more tokens than the
      target, and a target below zero is what a zero count would need. */
  lemma {:induction false} LoopNeverFailsForNonNegativeTarget(text: string, tok: Tokenizer, model: PassModel,
                                                             target: int, targets: seq<int>, first: int, maxPasses: int)
    requires first >= 1 && target >= 0
    ensures PassLoop(text, tok, model, target, targets, first, maxPasses).warnings == []
    decreases maxPasses - first + 1
  {
    if first <= maxPasses && CountTokens(text, tok) > target && first <= |targets| {
      var r := PerformSummaryPass(text, tok, model, first, targets[first - 1]);
      LoopNeverFailsForNonNegativeTarget(r.value.summary, tok, model, target, targets, first + 1, maxPasses);
    }
  }

  // ---------------------------------------------------------------------------
  // The whole reduction

  datatype ProgressiveResult = ProgressiveResult(
    finalSummary: string, totalPasses: nat, originalTokens: nat, finalTokens: nat,
    overallReduction: real, passes: seq<SummaryPass>, warnings: seq<string>,
    wasChunked: bool, numChunks: nat)

  const AlreadyWithinTarget := "Text was already within target token limit"

  function FinalWarning(finalTokens: int, target: int): string {
    "Final token count (" + IntToString(finalTokens) + ") exceeds target (" + IntToString(target) + ")"
  }

  /** The knobs of `progressive_summarize` after the text and target. */
  datatype Settings = Settings(maxPasses: int, strategy: Strategy, chunkThresholdRatio: real,
                               chunkSizeRatio: real, chunkOverlapTokens: int)

  const DefaultSettings := Settings(3, Balanced, 0.5, 0.4, 500)

  function ChunkThreshold(maxContext: int, st: Settings): int {
    TruncToInt(maxContext as real * st.chunkThresholdRatio)
  }

  function ChunkSize(maxContext: int, st: Settings): int {
    TruncToInt(maxContext as real * st.chunkSizeRatio)
  }

  predicate NeedsChunking(text: string, tok: Tokenizer, target: int, maxContext: int, st: Settings) {
    CountTokens(text, tok) > target && CountTokens(text, tok) > ChunkThreshold(maxContext, st)
  }

  /** The chunker is only reached when its loop ends. */
  predicate ProgressiveTerminates(text: string, tok: Tokenizer, target: int, maxContext: int, st: Settings) {
    NeedsChunking(text, tok, target, maxContext, st) ==>
      ChunkingTerminates(text, ChunkSize(maxContext, st), st.chunkOverlapTokens, tok)
  }

  /** The warnings of the result: those of chunking, the pass failure if
      any, and the final-count warning when the target was missed. */
  function ResultWarnings(chunkWarnings: seq<string>, loopWarnings: seq<string>, finalTokens: int,
                          target: int): (ws: seq<string>)
    requires |loopWarnings| <= 1
    requires forall i :: 0 <= i < |loopWarnings| ==> StartsWith(loopWarnings[i], "Pass ")
    ensures |chunkWarnings| <= |ws| <= |chunkWarnings| + 2
    ensures ws[..|chunkWarnings|] == chunkWarnings
    ensures finalTokens > target ==> |ws| > 0 && ws[|ws| - 1] == FinalWarning(finalTokens, target)
    ensures finalTokens <= target ==>
      forall i :: |chunkWarnings| <= i < |ws| ==> StartsWith(ws[i], "Pass ")
  {
    var ws := chunkWarnings + loopWarnings
      + (if finalTokens > target then [FinalWarning(finalTokens, target)] else []);
    assert ws[..|chunkWarnings|] == chunkWarnings;
    ws
  }

  /** `overall_reduction`: the share of the original tokens removed, 0.0 for
      an empty original. */
  function OverallReduction(original: nat, finalTokens: nat): (r: real)
    ensures original > 0 ==> r * original as real == (original - finalTokens) as real
    ensures original == 0 ==> r == 0.0
  {
    if original > 0 then
      QuotientTimes((original - finalTokens) as real, original as real);
      (original - finalTokens) as real / original as real
    else 0.0
  }

  /** The result once the text to reduce (the original or the combined chunk
      summaries) and the chunking outcome are known. */
  function Finish(text: string, original: nat, tok: Tokenizer, model: PassModel, target: int,
                  st: Settings, wasChunked: bool, numChunks: nat, chunkWarnings: seq<string>): (r: ProgressiveResult)
    ensures r.totalPasses == |r.passes| <= PlannedPasses(st.maxPasses)
    ensures r.originalTokens == original && r.finalTokens == CountTokens(r.finalSummary, tok)
    ensures r.wasChunked == wasChunked && r.numChunks == numChunks
    ensures PassChain(text, tok, r.passes, 1)
    ensures r.passes == [] ==> r.finalSummary == text
    ensures r.passes != [] ==> r.finalSummary == r.passes[|r.passes| - 1].summary
    ensures |chunkWarnings| <= |r.warnings| <= |chunkWarnings| + 2
    ensures r.warnings[..|chunkWarnings|] == chunkWarnings
    ensures r.finalTokens > target ==>
      |r.warnings| > 0 && r.warnings[|r.warnings| - 1] == FinalWarning(r.finalTokens, target)
    ensures r.finalTokens <= target ==>
      forall i :: |chunkWarnings| <= i < |r.warnings| ==> StartsWith(r.warnings[i], "Pass ")
    ensures r.overallReduction == OverallReduction(original, r.finalTokens)
  {
    var targets := CalculateReductionTargets(original, target, st.maxPasses, st.strategy);
    var loop := PassLoop(text, tok, model, target, targets, 1, st.maxPasses);
    var finalTokens := CountTokens(loop.text, tok);
    ProgressiveResult(loop.text, |loop.passes|, original, finalTokens, OverallReduction(original, finalTokens),
                      loop.passes, ResultWarnings(chunkWarnings, loop.warnings, finalTokens, target),
                      wasChunked, numChunks)
  }

  lemma QuotientTimes(a: real, b: real)
    requires b != 0.0
    ensures (a / b) * b == a
  {
  }

  /** `progressive_summarize`. The only exception that escapes comes from
      splitting into chunks. */
  function ProgressiveSummarize(text: string, tok: Tokenizer, passModel: PassModel, chunkModel: ChunkModel,
                                maxContext: int, target: int, st: Settings): (r: Result<ProgressiveResult, Exc>)
    requires ProgressiveTerminates(text, tok, target, maxContext, st)
    ensures CountTokens(text, tok) <= target ==>
      r == Success(ProgressiveResult(text, 0, CountTokens(text, tok), CountTokens(text, tok), 0.0, [],
                                     [AlreadyWithinTarget], false, 0))
    ensures r.Failure? ==>
      NeedsChunking(text, tok, target, maxContext, st) &&
      ChunkText(text, ChunkSize(maxContext, st), st.chunkOverlapTokens, tok).Failure?
    ensures r.Success? && CountTokens(text, tok) > target ==>
      var res := r.value;
      res.originalTokens == CountTokens(text, tok) &&
      res.totalPasses == |res.passes| <= PlannedPasses(st.maxPasses) &&
      (res.wasChunked <==> NeedsChunking(text, tok, target, maxContext, st)) &&
      (!res.wasChunked ==> res.numChunks == 0 && PassChain(text, tok, res.passes, 1)) &&
      (res.finalTokens > target ==>
         |res.warnings| > 0 && res.warnings[|res.warnings| - 1] == FinalWarning(res.finalTokens, target))
  {
    var original := CountTokens(text, tok);
    if original <= target then
      Success(ProgressiveResult(text, 0, original, original, 0.0, [], [AlreadyWithinTarget], false, 0))
    else if original > ChunkThreshold(maxContext, st) then
      match SummarizeWithChunking(text, tok, chunkModel, target, ChunkSize(maxContext, st), st.chunkOverlapTokens)
      case Failure(e) => Failure(e)
      case Success(c) =>
        Success(Finish(c.combined, original, tok, passModel, target, st, true, |c.summaries|, c.warnings))
    else
      Success(Finish(text, original, tok, passModel, target, st, false, 0, []))
  }
}

=== FILE: pyops.dfy ===
/** The handful of Python built-in behaviours the source relies on, written out:
    `int()` on a float (truncation toward zero), slice-index normalisation,
    `str()` of an int, ASCII `lower()`/`strip()`, substring `in` and `str.join`. */
module PyOps {

  /** Python `int(x)` for a float `x`: truncation toward zero. */
  function TruncToInt(x: real): (r: int)
    ensures x >= 0.0 ==> r as real <= x < r as real + 1.0
    ensures x < 0.0 ==> r as real - 1.0 < x <= r as real
    ensures x >= 0.0 ==> r >= 0
  {
    if x >= 0.0 then x.Floor else -((-x).Floor)
  }

  function Min(a: int, b: int): int { if a <= b then a else b }
  function Max(a: int, b: int): int { if a >= b then a else b }
  function MinReal(a: real, b: real): real { if a <= b then a else b }

  /** Where a Python slice bound `i` lands in a sequence of length `n`. */
  function ClampIndex(i: int, n: nat): (r: nat)
    ensures r <= n
    ensures 0 <= i <= n ==> r == i
    ensures i > n ==> r == n
    ensures i < 0 && i + n >= 0 ==> r == n + i
    ensures i + n < 0 ==> r == 0
  {
    if i < 0 then (if i + n < 0 then 0 else i + n) else if i > n then n else i
  }

  /** Python `s[:k]`. */
  function SlicePrefix<T>(s: seq<T>, k: int): seq<T> {
    s[..ClampIndex(k, |s|)]
  }

  /** Python `s[-k:]`. */
  function SliceFromNegated<T>(s: seq<T>, k: int): seq<T> {
    s[ClampIndex(-k, |s|)..]
  }

  /** Python `s[i:j]`: both bounds normalised, empty when they cross. */
  function Slice<T>(s: seq<T>, i: int, j: int): (r: seq<T>)
    ensures 0 <= i <= j <= |s| ==> r == s[i..j]
    ensures 0 <= j < i ==> r == []
    ensures |r| <= |s|
  {
    var a := ClampIndex(i, |s|);
    var b := ClampIndex(j, |s|);
    if a <= b then s[a..b] else []
  }

  function DigitChar(d: nat): char
    requires d < 10
  {
    "0123456789"[d]
  }

  function NatToString(n: nat): (r: string)
    ensures |r| >= 1
    ensures forall i :: 0 <= i < |r| ==> '0' <= r[i] <= '9'
    decreases n
  {
    if n < 10 then [DigitChar(n)] else NatToString(n / 10) + [DigitChar(n % 10)]
  }

  /** Python `str(n)` for an int. */
  function IntToString(n: int): (r: string)
    ensures |r| >= 1
    ensures n >= 0 ==> '0' <= r[0] <= '9'
    ensures n < 0 ==> r[0] == '-'
  {
    if n >= 0 then NatToString(n) else "-" + NatToString(-n)
  }

  /** ASCII part of Python `str.lower()`. */
  function LowerChar(c: char): char {
    if 'A' <= c <= 'Z' then (c as int + 32) as char else c
  }

  function Lower(s: string): (r: string)
    ensures |r| == |s|
    ensures forall i :: 0 <= i < |s| ==> r[i] == LowerChar(s[i])
  {
    seq(|s|, i requires 0 <= i < |s| => LowerChar(s[i]))
  }

  /** ASCII whitespace as Python's `str.isspace()` sees it. */
  predicate IsSpace(c: char) {
    c == ' ' || c == '\t' || c == '\n' || c == '\r' || c == '\U{B}' || c == '\U{C}'
    || c == '\U{1C}' || c == '\U{1D}' || c == '\U{1E}' || c == '\U{1F}'
  }

  function StripLeft(s: string): (r: string)
    ensures |r| <= |s| && r == s[|s| - |r|..]
    ensures |r| > 0 ==> !IsSpace(r[0])
    ensures forall i :: 0 <= i < |s| - |r| ==> IsSpace(s[i])
  {
    if |s| > 0 && IsSpace(s[0]) then StripLeft(s[1..]) else s
  }

  function StripRight(s: string): (r: string)
    ensures |r| <= |s| && r == s[..|r|]
    ensures |r| > 0 ==> !IsSpace(r[|r| - 1])
    ensures forall i :: |r| <= i < |s| ==> IsSpace(s[i])
  {
    if |s| > 0 && IsSpace(s[|s| - 1]) then StripRight(s[..|s| - 1]) else s
  }

  /** Python `str.strip()` (ASCII whitespace). */
  function Strip(s: string): string {
    StripRight(StripLeft(s))
  }

  predicate StartsWith(s: string, prefix: string) {
    |prefix| <= |s| && s[..|prefix|] == prefix
  }

  predicate EndsWith(s: string, suffix: string) {
    |suffix| <= |s| && s[|s| - |suffix|..] == suffix
  }

  /** `needle` occurs in `hay` starting at index `i`. */
  predicate OccursAt(hay: string, needle: string, i: int) {
    0 <= i <= |hay| - |needle| && hay[i..i + |needle|] == needle
  }

  /** Python `needle in hay` on strings. */
  ghost predicate Contains(hay: string, needle: string)
  {
    exists i :: OccursAt(hay, needle, i)
  }

  /** The executable scan behind `Contains`. */
  function ContainsScan(hay: string, needle: string): (r: bool)
    ensures r <==> Contains(hay, needle)
    decreases |hay|
  {
    if StartsWith(hay, needle) then
      assert OccursAt(hay, needle, 0);
      true
    else if |hay| <= |needle| then
      false
    else
      var rest := ContainsScan(hay[1..], needle);
      assert Contains(hay[1..], needle) ==> Contains(hay, needle) by {
        if Contains(hay[1..], needle) {
          var i :| OccursAt(hay[1..], needle, i);
          assert hay[1..][i..i + |needle|] == hay[i + 1..i + 1 + |needle|];
          assert OccursAt(hay, needle, i + 1);
        }
      }
      assert Contains(hay, needle) ==> Contains(hay[1..], needle) by {
        if Contains(hay, needle) {
          var i :| OccursAt(hay, needle, i);
          assert i != 0;
          assert hay[1..][i - 1..i - 1 + |needle|] == hay[i..i + |needle|];
          assert OccursAt(hay[1..], needle, i - 1);
        }
      }
      rest
  }

  /** Python `sep.join(parts)`. */
  function Join(sep: string, parts: seq<string>): string
  {
    if |parts| == 0 then "" else if |parts| == 1 then parts[0]
    else parts[0] + sep + Join(sep, parts[1..])
  }

  /** The first index at or after `from` whose character is in `stop`, or `|s|`. */
  function IndexOfAny(s: string, from: nat, stop: set<char>): (i: nat)
    requires from <= |s|
    ensures from <= i <= |s|
    ensures forall k :: from <= k < i ==> s[k] !in stop
    ensures i < |s| ==> s[i] in stop
    decreases |s| - from
  {
    if from == |s| || s[from] in stop then from else IndexOfAny(s, from + 1, stop)
  }

  predicate IsAsciiLetter(c: char) {
    'a' <= c <= 'z' || 'A' <= c <= 'Z'
  }

  predicate IsSchemeChar(c: char) {
    IsAsciiLetter(c) || '0' <= c <= '9' || c == '+' || c == '-' || c == '.'
  }

  /** The schemes `urllib.parse` resolves relative references against. */
  const UsesRelative: set<string> :=
    {"", "ftp", "http", "gopher", "nntp", "imap", "wais", "file", "https", "shttp", "mms",
     "prospero", "rtsp", "rtsps", "rtspu", "sftp", "svn", "svn+ssh", "ws", "wss"}

  /** `urlsplit`'s scheme and the text after it: the part before the first
      ':' becomes the (lower-cased) scheme when it starts with a letter and
      holds only scheme characters; otherwise there is no scheme. */
  function SplitScheme(url: string): (string, string) {
    var colon := IndexOfAny(url, 0, {':'});
    if 0 < colon < |url| && IsAsciiLetter(url[0]) && forall k :: 0 <= k < colon ==> IsSchemeChar(url[k])
    then (Lower(url[..colon]), url[colon + 1..])
    else ("", url)
  }

  /** `urlsplit`'s network location: after a leading "//", up to the first
      '/', '?' or '#'; empty without the "//". */
  function SplitNetloc(rest: string): string {
    if StartsWith(rest, "//") then rest[2..IndexOfAny(rest, 2, {'/', '?', '#'})] else ""
  }

  /** An absolute path that `urljoin` takes over unchanged: it starts with a
      single '/', and has no dot segment, query or fragment. */
  predicate IsPlainPath(p: string) {
    |p| >= 1 && p[0] == '/' && (|p| == 1 || p[1] != '/') &&
    forall k :: 0 <= k < |p| ==> p[k] != '?' && p[k] != '#' && p[k] != '.'
  }

  /** `urljoin(base, path)` for an absolute path: the base's scheme and
      network location are kept and its path, query and fragment replaced;
      a base whose scheme does not resolve relative references yields the
      path alone. */
  function UrlJoinAbsolute(base: string, path: string): (r: string)
    requires IsPlainPath(path)
    ensures EndsWith(r, path)
  {
    var (scheme, rest) := SplitScheme(base);
    var netloc := SplitNetloc(rest);
    if base == "" || scheme !in UsesRelative then path
    else if scheme == "" then (if netloc == "" then path else "//" + netloc + path)
    else scheme + "://" + netloc + path
  }

  /** A valid scheme followed by ':' splits off at that ':'. */
  lemma SplitSchemeAt(scheme: string, after: string)
    requires |scheme| > 0 && IsAsciiLetter(scheme[0])
    requires forall k :: 0 <= k < |scheme| ==> IsSchemeChar(scheme[k])
    ensures SplitScheme(scheme + ":" + after) == (Lower(scheme), after)
  {
    var url := scheme + ":" + after;
    assert url[|scheme|] == ':';
    assert forall k :: 0 <= k < |scheme| ==> url[k] == scheme[k];
    assert IndexOfAny(url, 0, {':'}) == |scheme|;
    assert url[..|scheme|] == scheme;
    assert url[|scheme| + 1..] == after;
  }

  /** The network location after "//" runs to the first '/', '?' or '#'. */
  lemma SplitNetlocAt(host: string, rest: string)
    requires forall k :: 0 <= k < |host| ==> host[k] != '/' && host[k] != '?' && host[k] != '#'
    requires rest == "" || rest[0] == '/' || rest[0] == '?' || rest[0] == '#'
    ensures SplitNetloc("//" + host + rest) == host
  {
    var after := "//" + host + rest;
    assert StartsWith(after, "//");
    assert forall k :: 2 <= k < 2 + |host| ==> after[k] == host[k - 2];
    assert 2 + |host| < |after| ==> after[2 + |host|] == rest[0];
    assert IndexOfAny(after, 2, {'/', '?', '#'}) == 2 + |host|;
    assert after[2..2 + |host|] == host;
  }

  /** Joining onto an http-style base keeps exactly its scheme (lower-cased)
      and host, whatever path, query or fragment the base carried. */
  lemma UrlJoinKeepsOrigin(scheme: string, host: string, rest: string, path: string)
    requires |scheme| > 0 && IsAsciiLetter(scheme[0])
    requires forall k :: 0 <= k < |scheme| ==> IsSchemeChar(scheme[k])
    requires Lower(scheme) in UsesRelative
    requires forall k :: 0 <= k < |host| ==> host[k] != '/' && host[k] != '?' && host[k] != '#'
    requires rest == "" || rest[0] == '/' || rest[0] == '?' || rest[0] == '#'
    requires IsPlainPath(path)
    ensures UrlJoinAbsolute(scheme + "://" + host + rest, path) == Lower(scheme) + "://" + host + path
  {
    var after := "//" + host + rest;
    SchemeSeparator(scheme, host, rest);
    SplitSchemeAt(scheme, after);
    SplitNetlocAt(host, rest);
    JoinFromParts(scheme + ":" + after, path, Lower(scheme), after, host);
  }

  /** "://" is the ':' ending the scheme followed by the "//" opening the network location. */
  lemma SchemeSeparator(scheme: string, host: string, rest: string)
    ensures scheme + "://" + host + rest == scheme + ":" + ("//" + host + rest)
  {
    assert "://" == ":" + "//";
  }

  /** The join once the base is split into a non-empty scheme and a network location. */
  lemma JoinFromParts(base: string, path: string, scheme: string, rest: string, netloc: string)
    requires IsPlainPath(path)
    requires SplitScheme(base) == (scheme, rest) && SplitNetloc(rest) == netloc
    requires scheme != "" && scheme in UsesRelative
    ensures UrlJoinAbsolute(base, path) == scheme + "://" + netloc + path
  {
  }
}

=== FILE: read_config.dfy ===
/** The configuration schemas: the numeric field bounds, the validators that
    demand keys once a feature is enabled, and the defaults. Validation follows
    the schema library's order: every field bound is checked first and all
    violations are reported together; a model's own validator runs only on
    fields that passed. A field left out takes its default, which is not
    checked against the bounds. */
module ReadConfig {
  import opened Wrappers

  /** The bound a field value broke. */
  datatype Bound = GreaterThanZero | AtMost65535

  /** A validation error: a broken field bound, or a validator's message. Nested
      fields are named with a dotted path. */
  datatype ConfigError = FieldError(field: string, bound: Bound) | ValidatorError(field: string, message: string)

  /** Python truthiness of an optional string: present and non-empty. */
  predicate Truthy(s: Option<string>) {
    s.Some? && s.value != ""
  }

  /** The bound errors of an optional port-like field: `gt=0, le=65535`. */
  function PortErrors(field: string, v: Option<int>): (r: seq<ConfigError>)
    ensures r == [] <==> v.None? || 0 < v.value <= 65535
  {
    if v.None? then []
    else if v.value <= 0 then [FieldError(field, GreaterThanZero)]
    else if v.value > 65535 then [FieldError(field, AtMost65535)]
    else []
  }

  /** The bound error of an optional `gt=0` field. */
  function PositiveErrors(field: string, v: Option<int>): (r: seq<ConfigError>)
    ensures r == [] <==> v.None? || v.value > 0
  {
    if v.Some? && v.value <= 0 then [FieldError(field, GreaterThanZero)] else []
  }

  // ---------------------------------------------------------------------------
  // Observability
  // ---------------------------------------------------------------------------

  /** `ObservabilityConfigSchema` with its keys resolved (explicit values or the
      environment's); `host` is an already parsed URL when present. */
  datatype Observability = Observability(enable: bool, secretKey: Option<string>,
                                         publicKey: Option<string>, host: Option<string>)

  /** `check_keys_if_enabled`: when enabled, the secret key, the public key and
      the host are demanded in that order and the first missing one is reported;
      when disabled nothing is demanded. */
  function CheckObservability(o: Observability): (r: Result<Observability, string>)
    ensures r.Success? <==> !o.enable || (Truthy(o.secretKey) && Truthy(o.publicKey) && Truthy(o.host))
    ensures r.Success? ==> r.value == o
    ensures o.enable && !Truthy(o.secretKey) ==>
      r == Failure("secret_key is required when observability is enabled")
    ensures o.enable && Truthy(o.secretKey) && !Truthy(o.publicKey) ==>
      r == Failure("public_key is required when observability is enabled")
    ensures o.enable && Truthy(o.secretKey) && Truthy(o.publicKey) && !Truthy(o.host) ==>
      r == Failure("host is required when observability is enabled")
  {
    if o.enable && !Truthy(o.secretKey) then Failure("secret_key is required when observability is enabled")
    else if o.enable && !Truthy(o.publicKey) then Failure("public_key is required when observability is enabled")
    else if o.enable && !Truthy(o.host) then Failure("host is required when observability is enabled")
    else Success(o)
  }

  /** Switching observability off never makes a configuration invalid, and the
      keys are irrelevant while it is off. */
  lemma DisablingObservabilityIsSafe(o: Observability, secretKey: Option<string>, publicKey: Option<string>,
                                     host: Option<string>)
    ensures CheckObservability(o).Success? ==> CheckObservability(o.(enable := false)).Success?
    ensures CheckObservability(Observability(false, secretKey, publicKey, host)).Success?
  {
  }

  // ---------------------------------------------------------------------------
  // Cache
  // ---------------------------------------------------------------------------

  /** `CacheConfigSchema` input: numeric fields that were given (None takes the
      default), and the password resolved from the input or the environment. */
  datatype CacheInput = CacheInput(enable: bool, ttlHours: Option<int>, maxSizeMb: Option<int>,
                                   host: string, port: Option<int>, password: Option<string>)

  datatype Cache = Cache(enable: bool, ttlHours: int, maxSizeMb: int, host: string, port: int,
                         password: Option<string>)

  const DefaultTtlHours := 1
  const DefaultMaxSizeMb := 100
  const DefaultCachePort := 6380
  const DefaultCacheHost := "localhost"
  const PasswordRequired := "Password is required when cache is enabled"

  function CacheFieldErrors(c: CacheInput): seq<ConfigError> {
    PositiveErrors("ttl_hours", c.ttlHours) + PositiveErrors("max_size_mb", c.maxSizeMb) + PortErrors("port", c.port)
  }

  /** The cache schema: field bounds first, then `check_password_if_enabled`. A
      validated cache has a positive TTL and size, a port in 1..65535, and a
      password whenever it is enabled. */
  function ValidateCache(c: CacheInput): (r: Result<Cache, seq<ConfigError>>)
    ensures r.Success? ==>
      r.value.ttlHours > 0 && r.value.maxSizeMb > 0 && 0 < r.value.port <= 65535 &&
      (r.value.enable ==> Truthy(r.value.password))
    ensures r.Success? <==>
      (c.ttlHours.None? || c.ttlHours.value > 0) && (c.maxSizeMb.None? || c.maxSizeMb.value > 0) &&
      (c.port.None? || 0 < c.port.value <= 65535) && (c.enable ==> Truthy(c.password))
    ensures r.Failure? ==> |r.error| > 0
    ensures CacheFieldErrors(c) == [] && c.enable && !Truthy(c.password) ==>
      r == Failure([ValidatorError("", PasswordRequired)])
  {
    var errors := CacheFieldErrors(c);
    if errors != [] then Failure(errors)
    else if c.enable && !Truthy(c.password) then Failure([ValidatorError("", PasswordRequired)])
    else Success(Cache(c.enable, c.ttlHours.GetOr(DefaultTtlHours), c.maxSizeMb.GetOr(DefaultMaxSizeMb),
                       c.host, c.port.GetOr(DefaultCachePort), c.password))
  }

  /** The port cases of the schema's tests: 6379 passes, 0 and 70000 do not;
      TTL and size must be positive. */
  lemma CacheBoundExamples(pw: Option<string>)
    ensures ValidateCache(CacheInput(false, None, None, DefaultCacheHost, Some(6379), pw)).Success?
    ensures ValidateCache(CacheInput(false, None, None, DefaultCacheHost, Some(0), pw))
      == Failure([FieldError("port", GreaterThanZero)])
    ensures ValidateCache(CacheInput(false, None, None, DefaultCacheHost, Some(70000), pw))
      == Failure([FieldError("port", AtMost65535)])
    ensures ValidateCache(CacheInput(false, Some(0), Some(-100), DefaultCacheHost, None, pw))
      == Failure([FieldError("ttl_hours", GreaterThanZero), FieldError("max_size_mb", GreaterThanZero)])
  {
    var e0, e1 := FieldError("port", GreaterThanZero), FieldError("port", AtMost65535);
    assert [] + [] + [e0] == [e0];
    assert [] + [] + [e1] == [e1];
    var t, m := FieldError("ttl_hours", GreaterThanZero), FieldError("max_size_mb", GreaterThanZero);
    assert [t] + [m] + [] == [t, m];
  }

  // ---------------------------------------------------------------------------
  // The whole configuration
  // ---------------------------------------------------------------------------

  /** The environment variables the defaults read. `uvicornPort` is the parsed
      `UVICORN_PORT`, None when it is unset or empty. */
  datatype Env = Env(langfuseSecretKey: Option<string>, langfusePublicKey: Option<string>,
                     redisPassword: Option<string>, uvicornHost: Option<string>,
                     uvicornPort: Option<int>, modelApiKey: Option<string>)

  /** `ConfigSchema` input: the fields given (None takes the default), with the
      nested sections already resolved. `model_api_key` may be given as a key
      or as an explicit None, so it is an optional optional string. */
  datatype ConfigInput = ConfigInput(llm: Option<string>, model: Option<string>, host: Option<string>,
                                     port: Option<int>, heartbeatInterval: Option<int>,
                                     modelApiKey: Option<Option<string>>,
                                     verifySsl: Option<bool>, maxDocumentLength: Option<int>,
                                     observability: Observability, cache: CacheInput)

  datatype Config = Config(llm: string, model: string, host: string, port: int, heartbeatInterval: int,
                           modelApiKey: Option<string>, verifySsl: bool, maxDocumentLength: int,
                           observability: Observability, cache: Cache)

  const DefaultLlm := "Gemini"
  const DefaultModel := "gemini-2.0-flash"
  const DefaultHeartbeatInterval := 60
  const DefaultMaxDocumentLength := 2000

  /** The nested sections as they default: both disabled, keys and password from
      the environment, no Langfuse host. */
  function DefaultObservability(env: Env): Observability {
    Observability(false, env.langfuseSecretKey, env.langfusePublicKey, None)
  }

  function DefaultCacheInput(env: Env): CacheInput {
    CacheInput(false, None, None, DefaultCacheHost, None, env.redisPassword)
  }

  /** The input with nothing given. */
  function EmptyInput(env: Env): ConfigInput {
    ConfigInput(None, None, None, None, None, None, None, None, DefaultObservability(env), DefaultCacheInput(env))
  }

  /** The errors of the nested sections, under their field names. */
  function SectionErrors(i: ConfigInput): seq<ConfigError> {
    (match CheckObservability(i.observability)
     case Success(_) => []
     case Failure(m) => [ValidatorError("observability", m)]) +
    (match ValidateCache(i.cache)
     case Success(_) => []
     case Failure(es) => seq(|es|, k requires 0 <= k < |es| => Nested("cache_config", es[k])))
  }

  function Nested(section: string, e: ConfigError): ConfigError {
    match e
    case FieldError(f, b) => FieldError(section + "." + f, b)
    case ValidatorError(f, m) => ValidatorError(if f == "" then section else section + "." + f, m)
  }

  /** `ConfigSchema(**input)`: all field errors, the nested sections' included,
      in field order; otherwise the configuration with every default filled in. */
  function ValidateConfig(i: ConfigInput, env: Env): (r: Result<Config, seq<ConfigError>>)
    ensures r.Success? <==>
      (i.port.None? || 0 < i.port.value <= 65535) &&
      (i.heartbeatInterval.None? || i.heartbeatInterval.value > 0) &&
      CheckObservability(i.observability).Success? && ValidateCache(i.cache).Success?
    ensures r.Failure? ==> |r.error| > 0
    ensures r.Success? ==>
      r.value.heartbeatInterval > 0 &&
      (i.port.Some? ==> r.value.port == i.port.value) &&
      (i.port.None? ==> r.value.port == env.uvicornPort.GetOr(8000)) &&
      r.value.heartbeatInterval == i.heartbeatInterval.GetOr(DefaultHeartbeatInterval) &&
      r.value.llm == i.llm.GetOr(DefaultLlm) &&
      r.value.model == i.model.GetOr(DefaultModel) &&
      r.value.host == i.host.GetOr(env.uvicornHost.GetOr("0.0.0.0")) &&
      r.value.modelApiKey == i.modelApiKey.GetOr(env.modelApiKey) &&
      r.value.verifySsl == i.verifySsl.GetOr(true) &&
      r.value.maxDocumentLength == i.maxDocumentLength.GetOr(DefaultMaxDocumentLength) &&
      r.value.cache == ValidateCache(i.cache).value &&
      r.value.observability == i.observability
  {
    var errors := PortErrors("port", i.port) + PositiveErrors("heartbeat_interval", i.heartbeatInterval)
                  + SectionErrors(i);
    if errors != [] then Failure(errors)
    else
      Success(Config(i.llm.GetOr(DefaultLlm), i.model.GetOr(DefaultModel),
                     i.host.GetOr(env.uvicornHost.GetOr("0.0.0.0")),
                     i.port.GetOr(env.uvicornPort.GetOr(8000)),
                     i.heartbeatInterval.GetOr(DefaultHeartbeatInterval), i.modelApiKey.GetOr(env.modelApiKey),
                     i.verifySsl.GetOr(true), i.maxDocumentLength.GetOr(DefaultMaxDocumentLength),
                     i.observability, ValidateCache(i.cache).value))
  }

  /** The defaults: a configuration given nothing is valid whatever the
      environment holds, with the Gemini model, SSL verification on, a document
      limit of 2000 characters, a 60-second heartbeat, and both optional
      services off. */
  lemma DefaultsAreValid(env: Env)
    ensures var r := ValidateConfig(EmptyInput(env), env);
      r.Success? &&
      r.value.llm == "Gemini" && r.value.model == "gemini-2.0-flash" &&
      r.value.verifySsl && r.value.maxDocumentLength == 2000 && r.value.heartbeatInterval == 60 &&
      !r.value.observability.enable && !r.value.cache.enable &&
      r.value.cache.port == 6380 && r.value.cache.ttlHours == 1 && r.value.cache.maxSizeMb == 100
  {
  }

  /** Defaults are not checked: a port taken from the environment is used even
      outside 1..65535, while the same value given explicitly is refused. */
  lemma EnvironmentPortIsNotChecked(env: Env)
    requires env.uvicornPort == Some(70000)
    ensures ValidateConfig(EmptyInput(env), env).Success?
    ensures ValidateConfig(EmptyInput(env), env).value.port == 70000
    ensures ValidateConfig(EmptyInput(env).(port := Some(70000)), env).Failure?
  {
  }

  /** An explicitly given model key wins over `MODEL_API_KEY`, an explicit None
      included; only a missing field reads the environment. */
  lemma ExplicitModelKeyWins(env: Env, key: Option<string>)
    ensures ValidateConfig(EmptyInput(env).(modelApiKey := Some(key)), env).value.modelApiKey == key
    ensures ValidateConfig(EmptyInput(env), env).value.modelApiKey == env.modelApiKey
  {
  }

  /** Enabling the cache without a password is reported under its section. */
  lemma CacheWithoutPasswordReported(env: Env)
    ensures ValidateConfig(EmptyInput(env).(cache := CacheInput(true, None, None, DefaultCacheHost, None, None)), env)
      == Failure([ValidatorError("cache_config", PasswordRequired)])
  {
    var c := CacheInput(true, None, None, DefaultCacheHost, None, None);
    var i := EmptyInput(env).(cache := c);
    assert CacheFieldErrors(c) == [];
    var es := [ValidatorError("", PasswordRequired)];
    assert ValidateCache(c) == Failure(es);
    assert SectionErrors(i) == [] + [Nested("cache_config", es[0])];
    assert [] + [] + SectionErrors(i) == [ValidatorError("cache_config", PasswordRequired)];
  }
}

=== FILE: retry.dfy ===
/** The retry executor: four backoff formulas and the attempt loop of
    `with_retry`, over a wrapped call whose outcomes are supplied per attempt
    and may depend on a state the calls thread through. */
module Retry {
  import opened Wrappers
  import opened PyOps
  import opened Exceptions

  datatype BackoffStrategy = Constant | Linear | Exponential | ExponentialJitter

  /** The enum's string value. */
  function StrategyValue(s: BackoffStrategy): string {
    match s
    case Constant => "constant"
    case Linear => "linear"
    case Exponential => "exponential"
    case ExponentialJitter => "exponential_jitter"
  }

  /** `BackoffStrategy(s)` for a string `backoff`: the member with that value,
      or the `ValueError` the enum raises. */
  function ParseStrategy(s: string): (r: Result<BackoffStrategy, Exc>)
    ensures r.Success? ==> StrategyValue(r.value) == s
    ensures r.Failure? ==> r.error.Builtin? && r.error.kind == ValueError
  {
    if s == "constant" then Success(Constant)
    else if s == "linear" then Success(Linear)
    else if s == "exponential" then Success(Exponential)
    else if s == "exponential_jitter" then Success(ExponentialJitter)
    else Failure(Builtin(ValueError, "'" + s + "' is not a valid BackoffStrategy"))
  }

  /** Parsing inverts the enum's values, and fails on every other string. */
  lemma ParseStrategyRoundTrip(b: BackoffStrategy, s: string)
    ensures ParseStrategy(StrategyValue(b)) == Success(b)
    ensures (forall c :: StrategyValue(c) != s) ==> ParseStrategy(s).Failure?
  {
  }

  function Pow2(n: nat): (r: real)
    ensures r >= 1.0
  {
    if n == 0 then 1.0 else 2.0 * Pow2(n - 1)
  }

  /** `exponential_backoff`: `min(base * 2^attempt, max)`, attempt 0-indexed. */
  function ExponentialBackoff(attempt: nat, baseDelay: real, maxDelay: real): (d: real)
    ensures d <= maxDelay && d <= baseDelay * Pow2(attempt)
    ensures d == maxDelay || d == baseDelay * Pow2(attempt)
  {
    MinReal(baseDelay * Pow2(attempt), maxDelay)
  }

  /** `linear_backoff`: `min(base * (attempt + 1), max)`. */
  function LinearBackoff(attempt: nat, baseDelay: real, maxDelay: real): (d: real)
    ensures d <= maxDelay && d <= baseDelay * (attempt + 1) as real
    ensures d == maxDelay || d == baseDelay * (attempt + 1) as real
  {
    MinReal(baseDelay * (attempt + 1) as real, maxDelay)
  }

  /** `constant_backoff`: the base delay, whatever the attempt and the cap. */
  function ConstantBackoff(attempt: nat, baseDelay: real, maxDelay: real): (d: real)
    ensures d == baseDelay
  {
    baseDelay
  }

  /** `exponential_backoff_with_jitter`: the capped exponential delay plus
      `random.uniform(0, 0.1 * delay)`, where `draw` in [0, 1) is the
      uniform sample that `random.uniform` scales. */
  function JitterBackoff(attempt: nat, baseDelay: real, maxDelay: real, draw: real): real
  {
    AddJitter(ExponentialBackoff(attempt, baseDelay, maxDelay), draw)
  }

  /** `delay + random.uniform(0, delay * 0.1)` for the sample `draw`. */
  function AddJitter(delay: real, draw: real): (d: real)
    ensures 0.0 <= delay && 0.0 <= draw < 1.0 ==> delay <= d <= delay * 1.1
    ensures 0.0 < delay && 0.0 < draw < 1.0 ==> delay < d
  {
    JitterFacts(delay, draw);
    delay + delay * 0.1 * draw
  }

  lemma JitterFacts(delay: real, draw: real)
    ensures 0.0 <= delay && 0.0 <= draw < 1.0 ==> 0.0 <= delay * 0.1 * draw <= delay * 0.1
    ensures 0.0 < delay && 0.0 < draw ==> 0.0 < delay * 0.1 * draw
  {
    if 0.0 <= delay && 0.0 <= draw < 1.0 {
      ScaleBelowOne(delay * 0.1, draw);
    }
    if 0.0 < delay && 0.0 < draw {
      PositiveProduct(delay * 0.1, draw);
    }
  }

  /** `get_backoff_function(strategy)(attempt, base, max)`. */
  function BackoffDelay(s: BackoffStrategy, attempt: nat, baseDelay: real, maxDelay: real, draw: real): real {
    match s
    case Constant => ConstantBackoff(attempt, baseDelay, maxDelay)
    case Linear => LinearBackoff(attempt, baseDelay, maxDelay)
    case Exponential => ExponentialBackoff(attempt, baseDelay, maxDelay)
    case ExponentialJitter => JitterBackoff(attempt, baseDelay, maxDelay, draw)
  }

  /** With non-negative delays the capped formulas never exceed the cap,
      the jitter adds at most a tenth, and it can push the delay past the cap. */
  lemma {:induction false} JitterBounds(attempt: nat, baseDelay: real, maxDelay: real, draw: real)
    requires 0.0 <= baseDelay && 0.0 <= maxDelay && 0.0 <= draw < 1.0
    ensures var e := ExponentialBackoff(attempt, baseDelay, maxDelay);
            e <= JitterBackoff(attempt, baseDelay, maxDelay, draw) <= e * 1.1
    ensures maxDelay > 0.0 && baseDelay * Pow2(attempt) >= maxDelay && draw > 0.0 ==>
            JitterBackoff(attempt, baseDelay, maxDelay, draw) > maxDelay
  {
    assert 0.0 <= baseDelay * Pow2(attempt) by {
      NonNegativeProduct(baseDelay, Pow2(attempt));
    }
  }

  lemma NonNegativeProduct(x: real, y: real)
    requires 0.0 <= x && 0.0 <= y
    ensures 0.0 <= x * y
  {
  }

  lemma ScaleBelowOne(x: real, y: real)
    requires 0.0 <= x && 0.0 <= y <= 1.0
    ensures 0.0 <= x * y <= x
  {
  }

  lemma PositiveProduct(x: real, y: real)
    requires 0.0 < x && 0.0 < y
    ensures 0.0 < x * y
  {
  }

  /** The exponential and linear delays grow with the attempt until they hit the cap. */
  lemma {:induction false} BackoffMonotone(a: nat, b: nat, baseDelay: real, maxDelay: real)
    requires a <= b && 0.0 <= baseDelay
    ensures ExponentialBackoff(a, baseDelay, maxDelay) <= ExponentialBackoff(b, baseDelay, maxDelay)
    ensures LinearBackoff(a, baseDelay, maxDelay) <= LinearBackoff(b, baseDelay, maxDelay)
  {
    ExponentialMonotone(a, b, baseDelay, maxDelay);
    LinearMonotone(a, b, baseDelay, maxDelay);
  }

  lemma ExponentialMonotone(a: nat, b: nat, baseDelay: real, maxDelay: real)
    requires a <= b && 0.0 <= baseDelay
    ensures ExponentialBackoff(a, baseDelay, maxDelay) <= ExponentialBackoff(b, baseDelay, maxDelay)
  {
    var pa, pb := Pow2(a), Pow2(b);
    Pow2Monotone(a, b);
    ScaleMonotone(baseDelay, pa, pb);
    MinRealMonotone(baseDelay * pa, baseDelay * pb, maxDelay);
  }

  lemma LinearMonotone(a: nat, b: nat, baseDelay: real, maxDelay: real)
    requires a <= b && 0.0 <= baseDelay
    ensures LinearBackoff(a, baseDelay, maxDelay) <= LinearBackoff(b, baseDelay, maxDelay)
  {
    var xa, xb := (a + 1) as real, (b + 1) as real;
    assert xa <= xb;
    ScaleMonotone(baseDelay, xa, xb);
    MinRealMonotone(baseDelay * xa, baseDelay * xb, maxDelay);
  }

  lemma ScaleMonotone(c: real, x: real, y: real)
    requires 0.0 <= c && x <= y
    ensures c * x <= c * y
  {
    var d := y - x;
    assert c * d >= 0.0;
    assert c * y == c * x + c * d;
  }

  lemma MinRealMonotone(x: real, y: real, cap: real)
    requires x <= y
    ensures MinReal(x, cap) <= MinReal(y, cap)
  {
  }

  lemma {:induction false} Pow2Monotone(a: nat, b: nat)
    requires a <= b
    ensures Pow2(a) <= Pow2(b)
    decreases b
  {
    if a < b {
      Pow2Monotone(a, b - 1);
    }
  }

  /** The policy `with_retry(...)` was given. `retryable = None` selects the
      default set; `hasOnRetry` says whether an `on_retry` callback was passed. */
  datatype Policy = Policy(maxAttempts: int, strategy: BackoffStrategy, baseDelay: real,
                           maxDelay: real, retryable: Option<seq<ExcType>>, hasOnRetry: bool)

  /** The decorator's defaults: 3 attempts, jittered exponential, 1 s base, 60 s cap. */
  function DefaultPolicy(): Policy {
    Policy(3, ExponentialJitter, 1.0, 60.0, None, false)
  }

  /** The transient errors retried when no tuple is given. */
  const DefaultRetryable: seq<ExcType> :=
    [PlatformType(RetryableError), BuiltinType(TimeoutError), BuiltinType(ConnectionError),
     BuiltinType(AsyncioTimeoutError)]

  function RetryableTypes(p: Policy): seq<ExcType> {
    if p.retryable.Some? then p.retryable.value else DefaultRetryable
  }

  predicate IsRetryable(p: Policy, e: Exc) {
    IsInstanceOfAny(e, RetryableTypes(p))
  }

  /** Which exceptions the default set retries. */
  lemma DefaultRetryableMembers(e: Exc)
    ensures IsInstanceOfAny(e, DefaultRetryable) <==>
      (e.Platform? && e.cls == RetryableError) ||
      (e.Builtin? && (e.kind in {TimeoutError, AsyncioTimeoutError} || IsBuiltinSubclass(e.kind, ConnectionError)))
  {
    if e.Platform? {
      LeafClasses(e.cls);
    }
    if e.Platform? && e.cls == RetryableError {
      assert IsInstance(e, DefaultRetryable[0]);
    }
    if e.Builtin? && e.kind == TimeoutError { assert IsInstance(e, DefaultRetryable[1]); }
    if e.Builtin? && IsBuiltinSubclass(e.kind, ConnectionError) { assert IsInstance(e, DefaultRetryable[2]); }
    if e.Builtin? && e.kind == AsyncioTimeoutError { assert IsInstance(e, DefaultRetryable[3]); }
  }

  /** What the decorated function was called as: its `__name__` and the
      `str()` of its positional and keyword arguments. */
  datatype CallSite = CallSite(funcName: string, argsRepr: string, kwargsRepr: string)

  function ExhaustedMessage(p: Policy, site: CallSite): string {
    "Max retries (" + IntToString(p.maxAttempts) + ") exceeded for " + site.funcName
  }

  /** The error raised when the final attempt fails retryably: `attempts` is
      `max_attempts`, `last_error` is that failure, and the context records
      the call with arguments cut to 100 characters. */
  function ExhaustedError(p: Policy, site: CallSite, e: Exc): (r: Exc)
    ensures r.Platform? && r.cls == MaxRetriesExceededError && WellFormed(r)
    ensures r.extra == RetriesExtra(p.maxAttempts, Some(e))
    ensures r.context.Keys == {"function", "args", "kwargs"}
    ensures r.context["args"].VStr? && |r.context["args"].s| <= 100
    ensures r.context["kwargs"].VStr? && |r.context["kwargs"].s| <= 100
  {
    var ctx := map["function" := VStr(site.funcName),
                   "args" := VStr(SlicePrefix(site.argsRepr, 100)),
                   "kwargs" := VStr(SlicePrefix(site.kwargsRepr, 100))];
    NewMaxRetriesError(ExhaustedMessage(p, site), p.maxAttempts, Some(e), Some(ctx))
  }

  /** The error after the loop, reached only when the loop ran no attempt. */
  function FallbackError(p: Policy, site: CallSite, last: Option<Exc>): (r: Exc)
    ensures r.Platform? && r.cls == MaxRetriesExceededError && WellFormed(r)
    ensures r.extra == RetriesExtra(p.maxAttempts, last) && r.context == map[]
  {
    NewMaxRetriesError(ExhaustedMessage(p, site), p.maxAttempts, last, None)
  }

  /** One `on_retry(e, attempt_number)` invocation. Whatever it raises is swallowed. */
  datatype Callback = Callback(error: Exc, attemptNumber: int)

  /** Everything observable about one decorated call: what the caller gets,
      what each attempt of the wrapped function returned, the state before
      and after each attempt, the sleeps and the callbacks. */
  datatype Trace<S, T> = Trace(result: Result<T, Exc>, outcomes: seq<Result<T, Exc>>, states: seq<S>,
                               sleeps: seq<real>, callbacks: seq<Callback>)

  /** `outcomes[i]` is a failure the policy retries. */
  predicate RetriedFailure<T>(p: Policy, o: Result<T, Exc>) {
    o.Failure? && IsRetryable(p, o.error)
  }

  /** The attempt loop from 0-indexed attempt `k` on. `step(s, k)` is the
      wrapped function's `k`-th call, starting in state `s`; `backoff(k)` is
      the delay slept after a retried failure of attempt `k`. */
  function RetryFrom<S, T>(p: Policy, site: CallSite, step: (S, nat) -> (S, Result<T, Exc>),
                           backoff: nat -> real, s: S, k: nat, last: Option<Exc>): (r: Trace<S, T>)
    ensures Threads(step, r.states, r.outcomes, k) && r.states[0] == s
    ensures k >= p.maxAttempts ==> r.outcomes == [] && r.result == Failure(FallbackError(p, site, last))
    ensures k < p.maxAttempts ==> 1 <= |r.outcomes| <= p.maxAttempts - k
    decreases p.maxAttempts - k
  {
    if k >= p.maxAttempts then
      Trace(Failure(FallbackError(p, site, last)), [], [s], [], [])
    else
      var so := step(s, k);
      var o := so.1;
      if o.Success? then Trace(Success(o.value), [o], [s, so.0], [], [])
      else if !IsRetryable(p, o.error) then Trace(Failure(o.error), [o], [s, so.0], [], [])
      else if k == p.maxAttempts - 1 then Trace(Failure(ExhaustedError(p, site, o.error)), [o], [s, so.0], [], [])
      else
        var rest := RetryFrom(p, site, step, backoff, so.0, k + 1, Some(o.error));
        var delay := backoff(k);
        var cb := if p.hasOnRetry then [Callback(o.error, k + 1)] else [];
        var r := Trace(rest.result, [o] + rest.outcomes, [s] + rest.states, [delay] + rest.sleeps, cb + rest.callbacks);
        ThreadsCons(step, s, so.0, o, rest.states, rest.outcomes, k);
        r
  }

  /** How the loop decides: every attempt but the last failed with an exception
      the policy retries, and the last one settles the result: its value on
      success, its exception when that is not retried, and otherwise the
      exhaustion error, which only comes once `max_attempts` calls were made. */
  lemma RetryFromDecides<S, T>(p: Policy, site: CallSite, step: (S, nat) -> (S, Result<T, Exc>),
                               backoff: nat -> real, s: S, k: nat, last: Option<Exc>)
    ensures var r := RetryFrom(p, site, step, backoff, s, k, last);
      RetriedBeforeEnd(p, r.outcomes) &&
      (|r.outcomes| > 0 ==> LastDecides(p, site, k, r))
  {
    RetriedBeforeLast(p, site, step, backoff, s, k, last);
    LastOutcomeDecides(p, site, step, backoff, s, k, last);
  }

  lemma {:induction false} RetriedBeforeLast<S, T>(p: Policy, site: CallSite, step: (S, nat) -> (S, Result<T, Exc>),
                                                   backoff: nat -> real, s: S, k: nat, last: Option<Exc>)
    ensures var r := RetryFrom(p, site, step, backoff, s, k, last);
      RetriedBeforeEnd(p, r.outcomes)
    decreases p.maxAttempts - k
  {
    var r := RetryFrom(p, site, step, backoff, s, k, last);
    if k < p.maxAttempts {
      var so := step(s, k);
      var o := so.1;
      if o.Failure? && IsRetryable(p, o.error) && k != p.maxAttempts - 1 {
        var rest := RetryFrom(p, site, step, backoff, so.0, k + 1, Some(o.error));
        RetriedBeforeLast(p, site, step, backoff, so.0, k + 1, Some(o.error));
        assert r.outcomes == [o] + rest.outcomes;
        OutcomesCons(p, o, rest.outcomes, r.outcomes);
      } else {
        assert |r.outcomes| == 1;
      }
    }
  }

  lemma {:induction false} LastOutcomeDecides<S, T>(p: Policy, site: CallSite, step: (S, nat) -> (S, Result<T, Exc>),
                                                    backoff: nat -> real, s: S, k: nat, last: Option<Exc>)
    ensures var r := RetryFrom(p, site, step, backoff, s, k, last);
      |r.outcomes| > 0 ==> LastDecides(p, site, k, r)
    decreases p.maxAttempts - k
  {
    if k < p.maxAttempts {
      var so := step(s, k);
      var o := so.1;
      if RetriedFailure(p, o) && k != p.maxAttempts - 1 {
        var r := RetryFrom(p, site, step, backoff, s, k, last);
        var rest := RetryFrom(p, site, step, backoff, so.0, k + 1, Some(o.error));
        LastOutcomeDecides(p, site, step, backoff, so.0, k + 1, Some(o.error));
        assert r.outcomes == [o] + rest.outcomes && r.result == rest.result;
        LastDecidesCons(p, site, k, o, r, rest);
      } else {
        FirstAttemptDecides(p, site, step, backoff, s, k, last);
      }
    }
  }

  /** Putting an attempt in front of a decided run from `k + 1` gives a
      decided run from `k` with the same last outcome and result. */
  lemma LastDecidesCons<S, T>(p: Policy, site: CallSite, k: nat, o: Result<T, Exc>, r: Trace<S, T>, rest: Trace<S, T>)
    requires |rest.outcomes| > 0 && LastDecides(p, site, k + 1, rest)
    requires r.outcomes == [o] + rest.outcomes && r.result == rest.result
    ensures LastDecides(p, site, k, r)
  {
    assert r.outcomes[|r.outcomes| - 1] == rest.outcomes[|rest.outcomes| - 1];
  }

  /** An attempt that succeeds, raises something not retried, or is the last
      allowed ends the loop with the result it settles. */
  lemma FirstAttemptDecides<S, T>(p: Policy, site: CallSite, step: (S, nat) -> (S, Result<T, Exc>),
                                  backoff: nat -> real, s: S, k: nat, last: Option<Exc>)
    requires k < p.maxAttempts
    requires !RetriedFailure(p, step(s, k).1) || k == p.maxAttempts - 1
    ensures var r := RetryFrom(p, site, step, backoff, s, k, last);
      |r.outcomes| == 1 && r.outcomes[0] == step(s, k).1 && LastDecides(p, site, k, r)
  {
    var r := RetryFrom(p, site, step, backoff, s, k, last);
    var o := step(s, k).1;
    assert r.outcomes == [o];
  }

  /** Every outcome but the last is a failure the policy retries. */
  predicate RetriedBeforeEnd<T>(p: Policy, outs: seq<Result<T, Exc>>) {
    forall i :: 0 <= i < |outs| - 1 ==> RetriedFailure(p, outs[i])
  }

  /** The last outcome of a run from attempt `k` settles its result. */
  ghost predicate LastDecides<S, T>(p: Policy, site: CallSite, k: nat, r: Trace<S, T>)
    requires |r.outcomes| > 0
  {
    var o := r.outcomes[|r.outcomes| - 1];
    (o.Success? ==> r.result == Success(o.value)) &&
    (o.Failure? && !IsRetryable(p, o.error) ==> r.result == Failure(o.error)) &&
    (RetriedFailure(p, o) ==> k + |r.outcomes| == p.maxAttempts &&
                              r.result == Failure(ExhaustedError(p, site, o.error)))
  }

  /** A retried failure in front of a run keeps every outcome but the last a
      retried failure, and keeps the last outcome. */
  lemma OutcomesCons<T>(p: Policy, o: Result<T, Exc>, rest: seq<Result<T, Exc>>, outs: seq<Result<T, Exc>>)
    requires outs == [o] + rest && RetriedFailure(p, o) && |rest| >= 1
    requires RetriedBeforeEnd(p, rest)
    ensures RetriedBeforeEnd(p, outs)
  {
    forall i | 0 < i < |outs| - 1
      ensures RetriedFailure(p, outs[i])
    {
      assert outs[i] == rest[i - 1];
    }
  }

  /** `states` and `outcomes` are what successive calls of `step`, from attempt
      `k` on, start in, end in and return. */
  ghost predicate Threads<S, T>(step: (S, nat) -> (S, Result<T, Exc>), states: seq<S>, outcomes: seq<Result<T, Exc>>, k: nat) {
    |states| == |outcomes| + 1 &&
    forall i :: 0 <= i < |outcomes| ==> step(states[i], k + i) == (states[i + 1], outcomes[i])
  }

  lemma ThreadsCons<S, T>(step: (S, nat) -> (S, Result<T, Exc>), s: S, s1: S, o: Result<T, Exc>,
                          states: seq<S>, outcomes: seq<Result<T, Exc>>, k: nat)
    requires step(s, k) == (s1, o)
    requires Threads(step, states, outcomes, k + 1) && states[0] == s1
    ensures Threads(step, [s] + states, [o] + outcomes, k)
  {
    var ss := [s] + states;
    var os := [o] + outcomes;
    forall i | 0 <= i < |os|
      ensures step(ss[i], k + i) == (ss[i + 1], os[i])
    {
      if i > 0 {
        assert ss[i] == states[i - 1] && ss[i + 1] == states[i] && os[i] == outcomes[i - 1];
        assert k + i == (k + 1) + (i - 1);
      }
    }
  }

  /** `sleeps[i]` is the backoff after attempt `k + i`. */
  predicate SleepsFollowBackoff(backoff: nat -> real, sleeps: seq<real>, k: nat) {
    forall i :: 0 <= i < |sleeps| ==> sleeps[i] == backoff(k + i)
  }

  /** `callbacks[i]` reports the failure of attempt `k + i` with its 1-indexed number. */
  predicate CallbacksReportFailures<T>(callbacks: seq<Callback>, outcomes: seq<Result<T, Exc>>, k: nat) {
    |callbacks| <= |outcomes| &&
    forall i :: 0 <= i < |callbacks| ==>
      outcomes[i].Failure? && callbacks[i] == Callback(outcomes[i].error, k + i + 1)
  }

  lemma SleepsCons(backoff: nat -> real, sleeps: seq<real>, k: nat)
    requires SleepsFollowBackoff(backoff, sleeps, k + 1)
    ensures SleepsFollowBackoff(backoff, [backoff(k)] + sleeps, k)
  {
    var all := [backoff(k)] + sleeps;
    forall i | 0 <= i < |all|
      ensures all[i] == backoff(k + i)
    {
      if i > 0 {
        assert all[i] == sleeps[i - 1];
        assert k + i == (k + 1) + (i - 1);
      }
    }
  }

  lemma CallbacksCons<T>(o: Result<T, Exc>, callbacks: seq<Callback>, outcomes: seq<Result<T, Exc>>, k: nat)
    requires o.Failure? && CallbacksReportFailures(callbacks, outcomes, k + 1)
    ensures CallbacksReportFailures([Callback(o.error, k + 1)] + callbacks, [o] + outcomes, k)
  {
    var cs := [Callback(o.error, k + 1)] + callbacks;
    var os := [o] + outcomes;
    forall i | 0 <= i < |cs|
      ensures os[i].Failure? && cs[i] == Callback(os[i].error, k + i + 1)
    {
      if i > 0 {
        assert cs[i] == callbacks[i - 1] && os[i] == outcomes[i - 1];
        assert k + i + 1 == (k + 1) + (i - 1) + 1;
      }
    }
  }

  /** The waits and callbacks between attempts: after every failed attempt
      but the last, one sleep of `backoff_fn(attempt)` and, when a callback
      was given, one `on_retry(e, attempt + 1)`; none after the final attempt. */
  lemma {:induction false} SleepsAndCallbacks<S, T>(p: Policy, site: CallSite, step: (S, nat) -> (S, Result<T, Exc>),
                                                    backoff: nat -> real, s: S, k: nat, last: Option<Exc>)
    ensures var r := RetryFrom(p, site, step, backoff, s, k, last);
      |r.sleeps| == (if |r.outcomes| == 0 then 0 else |r.outcomes| - 1) &&
      SleepsFollowBackoff(backoff, r.sleeps, k) &&
      (!p.hasOnRetry ==> r.callbacks == []) &&
      (p.hasOnRetry ==> |r.callbacks| == |r.sleeps| && CallbacksReportFailures(r.callbacks, r.outcomes, k))
    decreases p.maxAttempts - k
  {
    var r := RetryFrom(p, site, step, backoff, s, k, last);
    if k < p.maxAttempts {
      var so := step(s, k);
      var o := so.1;
      if o.Failure? && IsRetryable(p, o.error) && k != p.maxAttempts - 1 {
        var rest := RetryFrom(p, site, step, backoff, so.0, k + 1, Some(o.error));
        SleepsAndCallbacks(p, site, step, backoff, so.0, k + 1, Some(o.error));
        assert r.outcomes == [o] + rest.outcomes;
        assert r.sleeps == [backoff(k)] + rest.sleeps;
        SleepsCons(backoff, rest.sleeps, k);
        if p.hasOnRetry {
          assert r.callbacks == [Callback(o.error, k + 1)] + rest.callbacks;
          CallbacksCons(o, rest.callbacks, rest.outcomes, k);
        }
      }
    }
  }

  /** The decorated call: the loop from attempt 0 with no exception seen yet. */
  function Retry<S, T>(p: Policy, site: CallSite, step: (S, nat) -> (S, Result<T, Exc>),
                       draws: nat -> real, s: S): (r: Trace<S, T>)
    ensures |r.outcomes| <= if p.maxAttempts > 0 then p.maxAttempts else 0
    ensures p.maxAttempts <= 0 ==>
      r.outcomes == [] && r.sleeps == [] && r.callbacks == [] &&
      r.result.Failure? && r.result.error.Platform? && r.result.error.extra == RetriesExtra(p.maxAttempts, None)
    ensures p.maxAttempts > 0 ==> |r.outcomes| >= 1
    ensures r.result.Failure? && r.result.error.Platform? && r.result.error.cls == MaxRetriesExceededError
            && |r.outcomes| > 0 && RetriedFailure(p, r.outcomes[|r.outcomes| - 1]) ==>
      |r.outcomes| == p.maxAttempts &&
      r.result.error.extra == RetriesExtra(p.maxAttempts, Some(r.outcomes[|r.outcomes| - 1].error))
    ensures |r.sleeps| == (if |r.outcomes| == 0 then 0 else |r.outcomes| - 1)
    ensures forall i :: 0 <= i < |r.sleeps| ==>
      r.sleeps[i] == BackoffDelay(p.strategy, i, p.baseDelay, p.maxDelay, draws(i))
    ensures p.hasOnRetry ==> |r.callbacks| == |r.sleeps| && CallbacksReportFailures(r.callbacks, r.outcomes, 0)
    ensures !p.hasOnRetry ==> r.callbacks == []
    ensures RetriedBeforeEnd(p, r.outcomes)
    ensures |r.outcomes| > 0 ==> LastDecides(p, site, 0, r)
  {
    RetryFromDecides(p, site, step, BackoffFn(p, draws), s, 0, None);
    SleepsAndCallbacks(p, site, step, BackoffFn(p, draws), s, 0, None);
    RetryFrom(p, site, step, BackoffFn(p, draws), s, 0, None)
  }

  /** `backoff_fn(attempt, base_delay, max_delay)` for the configured strategy,
      with `draws(attempt)` as the jitter sample. */
  function BackoffFn(p: Policy, draws: nat -> real): nat -> real {
    (a: nat) => BackoffDelay(p.strategy, a, p.baseDelay, p.maxDelay, draws(a))
  }

  /** A function whose outcome depends only on the attempt number. */
  function Stateless<T>(f: nat -> Result<T, Exc>): ((), nat) -> ((), Result<T, Exc>) {
    (u: (), k: nat) => ((), f(k))
  }

  /** Attempts `0..j-1` all failed with exceptions the policy retries. */
  predicate RetriedUpTo<T>(p: Policy, f: nat -> Result<T, Exc>, j: nat) {
    forall i :: 0 <= i < j ==> RetriedFailure(p, f(i))
  }

  /** The declarative reading of the loop for a stateless function:
      the caller gets the first success, or the first exception the policy
      does not retry, if either occurs within `max_attempts`; else, when every
      attempt failed retryably, the exhaustion error for the last one. */
  lemma {:induction false} RetryMeaning<T>(p: Policy, site: CallSite, f: nat -> Result<T, Exc>, draws: nat -> real)
    requires p.maxAttempts > 0
    ensures var r := Retry(p, site, Stateless(f), draws, ());
      forall v :: r.result == Success(v) <==>
         exists j: nat :: j < p.maxAttempts && RetriedUpTo(p, f, j) && f(j) == Success(v)
    ensures var r := Retry(p, site, Stateless(f), draws, ());
      forall e :: !IsRetryable(p, e) ==>
         ((r.result == Failure(e) && !RetriedUpTo(p, f, p.maxAttempts)) <==>
           exists j: nat :: j < p.maxAttempts && RetriedUpTo(p, f, j) && f(j) == Failure(e))
    ensures var r := Retry(p, site, Stateless(f), draws, ());
      RetriedUpTo(p, f, p.maxAttempts) ==>
        |r.outcomes| == p.maxAttempts &&
        r.result == Failure(ExhaustedError(p, site, f(p.maxAttempts - 1).error))
  {
    StatelessRun(p, site, f, draws);
    var r := Retry(p, site, Stateless(f), draws, ());
    var n := |r.outcomes|;
    var last := f(n - 1);
    forall v
      ensures r.result == Success(v) <==>
              exists j: nat :: j < p.maxAttempts && RetriedUpTo(p, f, j) && f(j) == Success(v)
    {
      if r.result == Success(v) {
        assert last == Success(v);
        assert n - 1 < p.maxAttempts && RetriedUpTo(p, f, n - 1) && f(n - 1) == Success(v);
      }
      if exists j: nat :: j < p.maxAttempts && RetriedUpTo(p, f, j) && f(j) == Success(v) {
        var j: nat :| j < p.maxAttempts && RetriedUpTo(p, f, j) && f(j) == Success(v);
        DecisiveIsLast(p, site, f, draws, j);
      }
    }
    forall e | !IsRetryable(p, e)
      ensures (r.result == Failure(e) && !RetriedUpTo(p, f, p.maxAttempts)) <==>
              exists j: nat :: j < p.maxAttempts && RetriedUpTo(p, f, j) && f(j) == Failure(e)
    {
      if r.result == Failure(e) && !RetriedUpTo(p, f, p.maxAttempts) {
        assert last == Failure(e);
        assert n - 1 < p.maxAttempts && RetriedUpTo(p, f, n - 1) && f(n - 1) == Failure(e);
      }
      if exists j: nat :: j < p.maxAttempts && RetriedUpTo(p, f, j) && f(j) == Failure(e) {
        var j: nat :| j < p.maxAttempts && RetriedUpTo(p, f, j) && f(j) == Failure(e);
        DecisiveIsLast(p, site, f, draws, j);
        assert !RetriedFailure(p, f(j));
      }
    }
    if RetriedUpTo(p, f, p.maxAttempts) {
      assert RetriedFailure(p, last);
    }
  }

  /** A retried failure followed by one the policy does not retry: two calls,
      the second threaded through the state the first left, and the second
      exception escapes. */
  lemma SecondAttemptEscapes<S, T>(p: Policy, site: CallSite, step: (S, nat) -> (S, Result<T, Exc>),
                                   draws: nat -> real, s: S)
    requires p.maxAttempts >= 2
    requires RetriedFailure(p, step(s, 0).1)
    requires step(step(s, 0).0, 1).1.Failure? && !IsRetryable(p, step(step(s, 0).0, 1).1.error)
    ensures var r := Retry(p, site, step, draws, s);
      var s1 := step(s, 0).0;
      r.outcomes == [step(s, 0).1, step(s1, 1).1] &&
      r.states == [s, s1, step(s1, 1).0] &&
      r.result == Failure(step(s1, 1).1.error)
  {
    var backoff := BackoffFn(p, draws);
    var s1 := step(s, 0).0;
    var rest := RetryFrom(p, site, step, backoff, s1, 1, Some(step(s, 0).1.error));
    assert rest == Trace(Failure(step(s1, 1).1.error), [step(s1, 1).1], [s1, step(s1, 1).0], [], []);
  }

  /** What a run of a stateless function looks like: the outcomes are the
      function's values at attempts `0..n-1`, all but the last retried, and the
      last decides the result. */
  lemma StatelessRun<T>(p: Policy, site: CallSite, f: nat -> Result<T, Exc>, draws: nat -> real)
    requires p.maxAttempts > 0
    ensures var r := Retry(p, site, Stateless(f), draws, ());
      var n := |r.outcomes|;
      1 <= n <= p.maxAttempts &&
      (forall i :: 0 <= i < n ==> r.outcomes[i] == f(i)) &&
      RetriedUpTo(p, f, n - 1) &&
      (f(n - 1).Success? ==> r.result == Success(f(n - 1).value)) &&
      (f(n - 1).Failure? && !IsRetryable(p, f(n - 1).error) ==> r.result == Failure(f(n - 1).error)) &&
      (RetriedFailure(p, f(n - 1)) ==>
         n == p.maxAttempts && RetriedUpTo(p, f, p.maxAttempts) &&
         r.result == Failure(ExhaustedError(p, site, f(n - 1).error)))
  {
    var r := Retry(p, site, Stateless(f), draws, ());
    var n := |r.outcomes|;
    forall i | 0 <= i < n
      ensures r.outcomes[i] == f(i)
    {
      assert Stateless(f)(r.states[i], 0 + i) == (r.states[i + 1], r.outcomes[i]);
    }
    assert RetriedUpTo(p, f, n - 1);
    if RetriedFailure(p, f(n - 1)) {
      assert RetriedUpTo(p, f, n);
    }
  }

  /** An attempt reached after only retried failures, which itself is not a
      retried failure, is the last attempt the loop makes. */
  lemma DecisiveIsLast<T>(p: Policy, site: CallSite, f: nat -> Result<T, Exc>, draws: nat -> real, j: nat)
    requires j < p.maxAttempts && RetriedUpTo(p, f, j) && !RetriedFailure(p, f(j))
    ensures |Retry(p, site, Stateless(f), draws, ()).outcomes| == j + 1
  {
    StatelessRun(p, site, f, draws);
  }
}

=== FILE: token_utils.dfy ===
/** Token counting with its character-based fallback, truncation to a token
    budget, the character-level chunker and the summarisation trigger. The
    tokenizer is an oracle: the count it reports, or `None` when it raises. */
module TokenUtils {
  import opened Wrappers
  import opened PyOps
  import opened Exceptions

  /** `llm.get_num_tokens`: a count, or `None` when the call raises. */
  type Tokenizer = string -> Option<nat>

  /** What a true division by a zero token count raises. */
  const DivisionByZero := Builtin(ZeroDivisionError, "division by zero")

  /** `count_tokens`: the tokenizer's answer, else one token per four characters. */
  function CountTokens(text: string, tok: Tokenizer): (n: nat)
    ensures tok(text).Some? ==> n == tok(text).value
    ensures tok(text).None? ==> 4 * n <= |text| < 4 * n + 4
  {
    match tok(text)
    case Some(k) => k
    case None => |text| / 4
  }

  // ---------------------------------------------------------------------------
  // Truncation

  /** `target_chars`: the text length scaled by `int(max_tokens * buffer_ratio) / current`. */
  function TargetChars(len: nat, current: nat, maxTokens: int, bufferRatio: real): int
    requires current > 0
  {
    var targetTokens := TruncToInt(maxTokens as real * bufferRatio);
    TruncToInt(len as real * (targetTokens as real / current as real))
  }

  /** With a non-negative budget below the current count and a buffer in [0, 1],
      fewer characters than the text holds are kept. */
  lemma TargetCharsBelowLength(len: nat, current: nat, maxTokens: int, bufferRatio: real)
    requires 0 <= maxTokens < current
    requires 0.0 <= bufferRatio <= 1.0
    requires len > 0
    ensures 0 <= TargetChars(len, current, maxTokens, bufferRatio) < len
  {
    TokenRatioBelowOne(current, maxTokens, bufferRatio);
    ScaledTruncBelow(len, TruncToInt(maxTokens as real * bufferRatio) as real / current as real);
  }

  lemma TokenRatioBelowOne(current: nat, maxTokens: int, bufferRatio: real)
    requires 0 <= maxTokens < current
    requires 0.0 <= bufferRatio <= 1.0
    ensures 0.0 <= TruncToInt(maxTokens as real * bufferRatio) as real / current as real < 1.0
  {
    ScaledWithin(maxTokens as real, bufferRatio);
    QuotientBelowOne(TruncToInt(maxTokens as real * bufferRatio) as real, current as real);
  }

  lemma ScaledTruncBelow(len: nat, ratio: real)
    requires len > 0 && 0.0 <= ratio < 1.0
    ensures 0 <= TruncToInt(len as real * ratio) < len
  {
    ScaledBelow(len as real, ratio);
  }

  lemma ScaledWithin(x: real, f: real)
    requires 0.0 <= x && 0.0 <= f <= 1.0
    ensures 0.0 <= x * f <= x
  {
    assert x * f <= x * 1.0;
  }

  lemma ScaledBelow(x: real, f: real)
    requires 0.0 < x && 0.0 <= f < 1.0
    ensures 0.0 <= x * f < x
  {
    assert x * f < x * 1.0;
  }

  lemma QuotientBelowOne(t: real, c: real)
    requires 0.0 <= t < c
    ensures 0.0 <= t / c < 1.0
  {
    assert (t / c) * c == t;
  }

  /** `truncate_text_by_tokens`. The division by the current count raises when
      that count is 0, which can only happen for a negative budget. */
  function TruncateText(text: string, maxTokens: int, tok: Tokenizer, keepStart: bool,
                        bufferRatio: real): (r: Result<string, Exc>)
    ensures CountTokens(text, tok) <= maxTokens ==> r == Success(text)
    ensures CountTokens(text, tok) > maxTokens && CountTokens(text, tok) == 0 ==> r == Failure(DivisionByZero)
    ensures r.Success? && keepStart ==> StartsWith(text, r.value)
    ensures r.Success? && !keepStart ==> EndsWith(text, r.value)
    ensures CountTokens(text, tok) > maxTokens && CountTokens(text, tok) > 0 ==>
      var tc := TargetChars(|text|, CountTokens(text, tok), maxTokens, bufferRatio);
      r.Success? &&
      (keepStart ==> |r.value| == ClampIndex(tc, |text|)) &&
      (!keepStart && tc == 0 ==> r.value == text) &&
      (!keepStart && 0 < tc <= |text| ==> |r.value| == tc)
  {
    var current := CountTokens(text, tok);
    if current <= maxTokens then Success(text)
    else if current == 0 then Failure(DivisionByZero)
    else
      var targetChars := TargetChars(|text|, current, maxTokens, bufferRatio);
      if keepStart then Success(SlicePrefix(text, targetChars))
      else Success(SliceFromNegated(text, targetChars))
  }

  /** Under a sane budget truncation keeping the start always shortens an
      over-budget text, and keeping the end does too unless no character at
      all was to be kept. */
  lemma TruncationShortens(text: string, maxTokens: int, tok: Tokenizer, bufferRatio: real)
    requires 0 <= maxTokens < CountTokens(text, tok)
    requires 0.0 <= bufferRatio <= 1.0
    requires |text| > 0
    ensures |TruncateText(text, maxTokens, tok, true, bufferRatio).value| < |text|
    ensures TargetChars(|text|, CountTokens(text, tok), maxTokens, bufferRatio) > 0 ==>
              |TruncateText(text, maxTokens, tok, false, bufferRatio).value| < |text|
  {
    TargetCharsBelowLength(|text|, CountTokens(text, tok), maxTokens, bufferRatio);
  }

  /** Keeping the end with zero target characters slices `text[-0:]`, which is
      the whole text: a three-character text that the tokenizer counts as ten
      tokens comes back whole under a one-token budget. */
  lemma KeepEndZeroKeepsEverything()
    ensures
      var tok: Tokenizer := s => Some(10);
      CountTokens("abc", tok) > 1 &&
      TruncateText("abc", 1, tok, false, 0.9) == Success("abc")
  {
    var tok: Tokenizer := s => Some(10);
    assert TruncToInt(1 as real * 0.9) == 0;
    assert TargetChars(3, 10, 1, 0.9) == 0;
  }

  /** The intended suffix truncation: the last `target_chars` characters, so
      zero target characters keep nothing. */
  function TruncateKeepEnd(text: string, maxTokens: int, tok: Tokenizer, bufferRatio: real): (r: Result<string, Exc>)
    ensures CountTokens(text, tok) <= maxTokens ==> r == Success(text)
    ensures CountTokens(text, tok) > maxTokens && CountTokens(text, tok) == 0 ==> r == Failure(DivisionByZero)
    ensures r.Success? ==> EndsWith(text, r.value)
    ensures CountTokens(text, tok) > maxTokens && CountTokens(text, tok) > 0 ==>
      r.Success? && |r.value| == ClampIndex(TargetChars(|text|, CountTokens(text, tok), maxTokens, bufferRatio), |text|)
  {
    var current := CountTokens(text, tok);
    if current <= maxTokens then Success(text)
    else if current == 0 then Failure(DivisionByZero)
    else
      var keep := ClampIndex(TargetChars(|text|, current, maxTokens, bufferRatio), |text|);
      Success(text[|text| - keep..])
  }

  /** The corrected suffix truncation shortens every over-budget text. */
  lemma KeepEndShortens(text: string, maxTokens: int, tok: Tokenizer, bufferRatio: real)
    requires 0 <= maxTokens < CountTokens(text, tok)
    requires 0.0 <= bufferRatio <= 1.0
    requires |text| > 0
    ensures |TruncateKeepEnd(text, maxTokens, tok, bufferRatio).value| < |text|
  {
    TargetCharsBelowLength(|text|, CountTokens(text, tok), maxTokens, bufferRatio);
  }

  // ---------------------------------------------------------------------------
  // Chunking

  /** `chunk_size_chars` and `overlap_chars`: token sizes scaled by the
      characters-per-token ratio of the whole text, truncated. */
  datatype ChunkSizes = ChunkSizes(size: int, overlap: int)

  function SizesFor(len: nat, total: nat, maxTokens: int, overlap: int): ChunkSizes
    requires total > 0
  {
    var charsPerToken := len as real / total as real;
    ChunkSizes(TruncToInt(maxTokens as real * charsPerToken), TruncToInt(overlap as real * charsPerToken))
  }

  /** The chunking loop stops: there is nothing to split, the first chunk
      already reaches the end, or every chunk moves the start forward. */
  predicate Terminates(len: nat, size: int, overlap: int) {
    len == 0 || size >= len || size > overlap
  }

  /** `text[start:min(start + size, len(text))]`. */
  function ChunkAt(text: string, size: int, start: nat): string {
    Slice(text, start, Min(start + size, |text|))
  }

  /** The chunks the loop emits from `start` onwards. */
  function ChunksFrom(text: string, size: int, overlap: int, start: nat): (r: seq<string>)
    requires Terminates(|text|, size, overlap)
    decreases |text| - start
  {
    if start >= |text| then []
    else
      var end := Min(start + size, |text|);
      var next := end - overlap;
      if next >= |text| - overlap then [ChunkAt(text, size, start)]
      else [ChunkAt(text, size, start)] + ChunksFrom(text, size, overlap, next)
  }

  /** The chunks glued back: the first whole, each later one without the
      `overlap` characters it repeats from its predecessor. */
  function Reassemble(chunks: seq<string>, overlap: nat): string {
    if |chunks| == 0 then "" else chunks[0] + Tails(chunks[1..], overlap)
  }

  function Tails(chunks: seq<string>, overlap: nat): string {
    if |chunks| == 0 then ""
    else (if overlap <= |chunks[0]| then chunks[0][overlap..] else "") + Tails(chunks[1..], overlap)
  }

  /** The loop body once: the chunk at `start`, then either nothing or the
      chunks from the next start. */
  lemma ChunksFromUnfold(text: string, size: int, overlap: int, start: nat)
    requires Terminates(|text|, size, overlap)
    requires start < |text|
    ensures
      var end := Min(start + size, |text|);
      var chunk := Slice(text, start, end);
      (end - overlap >= |text| - overlap ==> ChunksFrom(text, size, overlap, start) == [chunk]) &&
      (end - overlap < |text| - overlap ==>
         end - overlap > start &&
         ChunksFrom(text, size, overlap, start) == [chunk] + ChunksFrom(text, size, overlap, end - overlap))
  {
  }

  /** Gluing a chunk in front of an already glued run that starts `overlap`
      characters before the chunk ends. */
  lemma GlueStep(text: string, start: nat, next: nat, end: nat, end': nat, overlap: nat,
                 cs: seq<string>, rest: seq<string>)
    requires start <= next && next + overlap == end && end <= end' <= |text|
    requires |rest| >= 1 && rest[0] == text[next..end']
    requires Reassemble(rest, overlap) == text[next..]
    requires cs == [text[start..end]] + rest
    ensures Reassemble(cs, overlap) == text[start..]
  {
    var tail := Tails(rest[1..], overlap);
    assert rest[0] + tail == text[next..];
    assert text[next..] == text[next..end] + text[end..];
    assert rest[0] == text[next..end] + rest[0][overlap..];
    assert rest[0][overlap..] + tail == text[end..];
    assert cs[1..] == rest;
    assert text[start..] == text[start..end] + text[end..];
  }

  /** Gluing the chunks from `start` back together restores `text[start..]`. */
  lemma {:induction false} ChunksCover(text: string, size: int, overlap: int, start: nat)
    requires 0 <= overlap < size
    requires start < |text|
    ensures Reassemble(ChunksFrom(text, size, overlap, start), overlap) == text[start..]
    decreases |text| - start
  {
    if start + size < |text| {
      var end := start + size;
      var next := end - overlap;
      var rest := ChunksFrom(text, size, overlap, next);
      ChunksFromCons(text, size, overlap, start);
      ChunksCover(text, size, overlap, next);
      var end' := Min(next + size, |text|);
      ChunkHead(text, size, overlap, next);
      GlueStep(text, start, next, end, end', overlap, ChunksFrom(text, size, overlap, start), rest);
    } else {
      ChunksFromLast(text, size, overlap, start);
    }
  }

  /** The first chunk from `start` is the slice up to the chunk size or the end. */
  lemma ChunkHead(text: string, size: int, overlap: int, start: nat)
    requires 0 <= overlap < size
    requires start < |text|
    ensures var cs := ChunksFrom(text, size, overlap, start);
      |cs| >= 1 && cs[0] == text[start..Min(start + size, |text|)]
  {
  }

  /** A run of chunks of the shape the loop produces: non-empty, each chunk a
      non-empty string of at most `size` characters, the last one a suffix of
      the text. */
  predicate Shaped(text: string, size: int, cs: seq<string>) {
    |cs| >= 1 && EndsWith(text, cs[|cs| - 1]) &&
    forall i :: 0 <= i < |cs| ==> 0 < |cs[i]| <= size
  }

  /** Putting a chunk of the right shape in front keeps the shape of the run. */
  lemma ShapeStep(text: string, size: int, chunk: string, rest: seq<string>)
    requires 0 < |chunk| <= size
    requires Shaped(text, size, rest)
    ensures Shaped(text, size, [chunk] + rest)
  {
    var cs := [chunk] + rest;
    assert cs[|cs| - 1] == rest[|rest| - 1];
    forall i | 0 < i < |cs|
      ensures 0 < |cs[i]| <= size
    {
      assert cs[i] == rest[i - 1];
    }
  }

  /** The final chunk alone: the rest of the text, when it fits in one chunk. */
  lemma LastShape(text: string, size: int, start: nat)
    requires start < |text| && |text| - start <= size
    ensures Shaped(text, size, [text[start..|text|]])
  {
  }

  /** A chunk that does not reach the end is followed by the chunks from
      `overlap` characters before its end. */
  lemma ChunksFromCons(text: string, size: int, overlap: int, start: nat)
    requires 0 <= overlap < size
    requires start + size < |text|
    ensures ChunksFrom(text, size, overlap, start)
         == [text[start..start + size]] + ChunksFrom(text, size, overlap, start + size - overlap)
  {
  }

  /** A chunk that reaches the end is the last one. */
  lemma ChunksFromLast(text: string, size: int, overlap: int, start: nat)
    requires 0 <= overlap < size
    requires start < |text| <= start + size
    ensures ChunksFrom(text, size, overlap, start) == [text[start..|text|]]
  {
  }

  /** Every chunk from `start` is a non-empty slice of at most `size`
      characters, and the last one ends at the end of the text. */
  lemma {:induction false} ChunkShapes(text: string, size: int, overlap: int, start: nat)
    requires 0 <= overlap < size
    requires start < |text|
    ensures Shaped(text, size, ChunksFrom(text, size, overlap, start))
    decreases |text| - start
  {
    if start + size < |text| {
      ChunksFromCons(text, size, overlap, start);
      ChunkShapes(text, size, overlap, start + size - overlap);
      ShapeStep(text, size, text[start..start + size], ChunksFrom(text, size, overlap, start + size - overlap));
    } else {
      ChunksFromLast(text, size, overlap, start);
      LastShape(text, size, start);
    }
  }

  /** Consecutive chunks overlap by exactly `overlap` characters and every
      chunk but the last is full. */
  lemma {:induction false} ChunksOverlap(text: string, size: int, overlap: int, start: nat, i: nat)
    requires 0 <= overlap < size
    requires start < |text|
    requires i + 1 < |ChunksFrom(text, size, overlap, start)|
    ensures
      var cs := ChunksFrom(text, size, overlap, start);
      |cs[i]| == size && overlap <= |cs[i + 1]| &&
      cs[i][size - overlap..] == cs[i + 1][..overlap]
    decreases |text| - start
  {
    if start + size >= |text| {
      ChunksFromLast(text, size, overlap, start);
      assert false;
    }
    ChunksFromCons(text, size, overlap, start);
    var next := start + size - overlap;
    var rest := ChunksFrom(text, size, overlap, next);
    assert |ChunksFrom(text, size, overlap, start)| == 1 + |rest|;
    if i == 0 {
      FirstChunksOverlap(text, size, overlap, start);
    } else {
      ChunksOverlap(text, size, overlap, next, i - 1);
      ShiftPair(text[start..start + size], rest, i);
    }
  }

  lemma FirstChunksOverlap(text: string, size: int, overlap: int, start: nat)
    requires 0 <= overlap < size
    requires start + size < |text|
    ensures
      var cs := ChunksFrom(text, size, overlap, start);
      1 < |cs| && |cs[0]| == size && overlap <= |cs[1]| &&
      cs[0][size - overlap..] == cs[1][..overlap]
  {
    var end := start + size;
    var next := end - overlap;
    var rest := ChunksFrom(text, size, overlap, next);
    ChunksFromCons(text, size, overlap, start);
    ChunkHead(text, size, overlap, next);
    var end' := Min(next + size, |text|);
    var cs := ChunksFrom(text, size, overlap, start);
    assert cs[1] == rest[0];
    OverlapStep(text, start, next, end, end', cs[0], cs[1]);
  }

  /** Indexing past the head of `[c] + rest`. */
  lemma ShiftPair(c: string, rest: seq<string>, i: nat)
    requires 0 < i && i < |rest|
    ensures ([c] + rest)[i] == rest[i - 1] && ([c] + rest)[i + 1] == rest[i]
  {
  }

  /** Two slices of the text that share the stretch `next..end` agree on it. */
  lemma OverlapStep(text: string, start: nat, next: nat, end: nat, end': nat, first: string, second: string)
    requires start <= next <= end <= end' <= |text|
    requires first == text[start..end] && second == text[next..end']
    ensures first[next - start..] == second[..end - next]
  {
  }

  /** `chunk_text_by_tokens` may spin forever unless the computed sizes let
      the loop end. */
  predicate ChunkingTerminates(text: string, maxTokens: int, overlap: int, tok: Tokenizer) {
    var total := CountTokens(text, tok);
    total <= maxTokens || total == 0 ||
    (var sizes := SizesFor(|text|, total, maxTokens, overlap); Terminates(|text|, sizes.size, sizes.overlap))
  }

  /** A text of at least one character per token, split with a budget above a
      non-negative overlap, always terminates. */
  lemma ChunkingTerminatesWhenBudgetExceedsOverlap(text: string, maxTokens: int, overlap: int, tok: Tokenizer)
    requires 0 <= overlap < maxTokens
    requires CountTokens(text, tok) <= |text|
    ensures ChunkingTerminates(text, maxTokens, overlap, tok)
  {
    var total := CountTokens(text, tok);
    if total > maxTokens {
      SizesAdvance(|text|, total, maxTokens, overlap);
    }
  }

  lemma SizesAdvance(len: nat, total: nat, maxTokens: int, overlap: int)
    requires 0 <= overlap < maxTokens
    requires 0 < total <= len
    ensures SizesFor(len, total, maxTokens, overlap).size > SizesFor(len, total, maxTokens, overlap).overlap
  {
    var cpt := len as real / total as real;
    var big := TruncToInt(maxTokens as real * cpt);
    var small := TruncToInt(overlap as real * cpt);
    assert SizesFor(len, total, maxTokens, overlap) == ChunkSizes(big, small);
    QuotientAtLeastOne(len as real, total as real);
    ScaledGap(maxTokens as real, overlap as real, cpt);
    TruncGap(maxTokens as real * cpt, overlap as real * cpt);
  }

  /** Truncation keeps apart two non-negative values at least 1 apart. */
  lemma TruncGap(x: real, y: real)
    requires 0.0 <= y && y + 1.0 <= x
    ensures TruncToInt(x) > TruncToInt(y)
  {
  }

  lemma QuotientAtLeastOne(n: real, d: real)
    requires 0.0 < d <= n
    ensures n / d >= 1.0
  {
    assert (n / d) * d == n;
  }

  lemma ScaledGap(a: real, b: real, c: real)
    requires 0.0 <= b && b + 1.0 <= a && 1.0 <= c
    ensures 0.0 <= b * c && b * c + 1.0 <= a * c
  {
    assert a * c - b * c == (a - b) * c;
    assert (a - b) * c >= 1.0 * c;
  }

  /** `chunk_text_by_tokens`, as one list of chunks. */
  function ChunkText(text: string, maxTokens: int, overlap: int, tok: Tokenizer): (r: Result<seq<string>, Exc>)
    requires ChunkingTerminates(text, maxTokens, overlap, tok)
    ensures CountTokens(text, tok) <= maxTokens ==> r == Success([text])
    ensures CountTokens(text, tok) > maxTokens && CountTokens(text, tok) == 0 ==> r == Failure(DivisionByZero)
    ensures CountTokens(text, tok) > maxTokens && CountTokens(text, tok) > 0 ==>
      r.Success? && (|text| == 0 <==> r.value == [])
    ensures CountTokens(text, tok) > maxTokens && CountTokens(text, tok) > 0 && |text| > 0 ==>
      var sizes := SizesFor(|text|, CountTokens(text, tok), maxTokens, overlap);
      0 <= sizes.overlap < sizes.size ==>
        Reassemble(r.value, sizes.overlap) == text &&
        (forall i :: 0 <= i < |r.value| ==> 0 < |r.value[i]| <= sizes.size)
  {
    var total := CountTokens(text, tok);
    if total <= maxTokens then Success([text])
    else if total == 0 then Failure(DivisionByZero)
    else
      var sizes := SizesFor(|text|, total, maxTokens, overlap);
      if |text| > 0 && 0 <= sizes.overlap < sizes.size then
        ChunksCover(text, sizes.size, sizes.overlap, 0);
        ChunkShapes(text, sizes.size, sizes.overlap, 0);
        Success(ChunksFrom(text, sizes.size, sizes.overlap, 0))
      else
        Success(ChunksFrom(text, sizes.size, sizes.overlap, 0))
  }

  /** The `while` loop of `chunk_text_by_tokens`, with its early `break`. */
  method ChunkLoop(text: string, size: int, overlap: int) returns (chunks: seq<string>)
    requires Terminates(|text|, size, overlap)
    ensures chunks == ChunksFrom(text, size, overlap, 0)
    ensures |text| > 0 && 0 <= overlap < size ==> Reassemble(chunks, overlap) == text
  {
    chunks := [];
    var start := 0;
    while start < |text|
      invariant 0 <= start
      invariant chunks + ChunksFrom(text, size, overlap, start) == ChunksFrom(text, size, overlap, 0)
      decreases |text| - start
    {
      var end := Min(start + size, |text|);
      var chunk := Slice(text, start, end);
      ChunksFromUnfold(text, size, overlap, start);
      ghost var before := chunks;
      ghost var here := ChunksFrom(text, size, overlap, start);
      chunks := chunks + [chunk];
      start := end - overlap;
      if start >= |text| - overlap {
        break;
      }
      AppendCons(before, chunk, ChunksFrom(text, size, overlap, start), here);
    }
    if |text| > 0 && 0 <= overlap < size {
      ChunksCover(text, size, overlap, 0);
    }
  }

  /** Emitting the head of the remaining chunks keeps the emitted and the
      remaining ones together. */
  lemma AppendCons(before: seq<string>, chunk: string, rest: seq<string>, here: seq<string>)
    requires here == [chunk] + rest
    ensures (before + [chunk]) + rest == before + here
  {
  }

  // ---------------------------------------------------------------------------
  // Summarisation trigger

  const DefaultSummarizeThreshold := 10000

  /** `should_summarize_notes`: strictly more tokens than the threshold. */
  function ShouldSummarize(notes: string, tok: Tokenizer, threshold: int): (r: bool)
    ensures tok(notes).None? ==> (r <==> |notes| / 4 > threshold)
    ensures tok(notes).Some? ==> (r <==> tok(notes).value > threshold)
  {
    CountTokens(notes, tok) > threshold
  }

  /** Lowering the threshold never withdraws a recommendation, and notes
      already within it never get one. */
  lemma ShouldSummarizeMonotone(notes: string, tok: Tokenizer, low: int, high: int)
    requires low <= high
    ensures ShouldSummarize(notes, tok, high) ==> ShouldSummarize(notes, tok, low)
    ensures CountTokens(notes, tok) <= low ==> !ShouldSummarize(notes, tok, high)
  {
  }
}

=== FILE: wrappers.dfy ===
/** Option and Result, the two failure-carrying shapes the rest of the model uses
    in place of Python's `None` returns and raised exceptions. */
module Wrappers {

  datatype Option<+T> = None | Some(value: T) {
    function GetOr(default: T): T {
      match this
      case Some(v) => v
      case None => default
    }
  }

  /** `Success(v)` is a normal return, `Failure(e)` a raised exception. */
  datatype Result<+T, +E> = Success(value: T) | Failure(error: E)
}
